=== FILE: README.md ===
# HexicClone board engine, modelled in Dafny

This project models the board engine of HexicClone, a Hexic-style puzzle game. The playing
field is a `width` by `height` array of hexagonal tiles laid out in offset columns. Between
the hexes sits a grid of "dots". Each dot is the pivot of a triad of three mutually adjacent
hexes.

The player touches a dot to select it and swipes to turn its triad by a third of a turn.
The controller turns the triad up to three times. It stops at the first turn that leaves a
match: three adjacent hexes of one type. The matched hexes explode and score 15 points each.
The hexes above them fall into the emptied cells, and the board is rescanned. A bomb hex
counts down once per scoring move and ends the game when its count reaches zero.

The model has one module per concept of the engine:

- `Cells`: optional cell contents and coordinates.
- `Triads`: the dot-to-triad mapping `GetChildrenIndex` and the dot grid.
- `Boards`: the array plus the table of tile records. The records' own indices can go stale,
  so they are kept apart from the array.
- `Hexes` (`HexBehaviour`), `Bombs` (`BombBehaviour`) and `Dots` (`DotBehaviour`): the
  component records and their methods.
- `Setup`: dot and hex generation, `CreateHex`, `ChangeHex` and `ReplaceMatchingHexesStart`.
- `Matching`: `FindMatches`, as a reference definition (the rules that fire) and as the
  three loops of the code, proved equal.
- `Gravity`: `NotifyDownIsEmpty`, against a pointwise reference `Fallen` of what column
  compaction does.
- `Explosion`: `ExplodeMatches`, with the exceptions its array accesses raise.
- `Rotation`: `Board.RotateDot` and the end-of-rotation permutation.
- `Controller`: `BoardController`, that is, the touch and swipe guards, the attempt loop, the
  cascade, scoring and game over.

Exceptions are modelled as values. An operation that would throw returns a fault. The board
is left as it stood at the throw, and the model carries on from there as the game does: a
thrown exception stops the swipe coroutine but not the game.

On a board of odd width, the code's right-column rule compares two hexes of the last column
with the hex in the column before, on the lower row. Those three cells are not a triad
(`Matching.RightEdgeNotTriadOnOddWidth`). The code still reports them as a match when their
types agree, and so does the model.

The controller runs the code as written. A turn cycles the triad's cells in the array but
never updates the tiles' own indices, so a moved tile goes on recording the cell it left.
The board at rest holds no match, and three turns bring it back, so every match a swipe
finds appears after the first or second turn, on a board with stale records
(`Controller.ScoringSwipeIsStale`). The explosion then runs on those records:
`NotifyDownIsEmpty` reads and writes through the cell a tile's record names
(`Gravity.NotifyStale`), which can lose a tile, write one tile into two cells, or recurse
without end (`Gravity.NotifyStaleLoops`). The corrected versions of the turn and of the
compaction are modelled too, and listed under Findings.

The explosion empties cells and nothing in the core refills them, so after a scoring swipe
either the explosion throws or the cascade's first scan meets an empty cell and throws. The
coroutine then never reaches its closing assignments, and the controller stays marked as
changing (`Controller.SwipeWithMatch`).

## Model

Source paths are relative to the repository root.

| member | source | states |
|---|---|---|
| Triads.CeilHalf | Assets/Scripts/BoardManager/Board.cs:410 | the hex row of a dot is the least integer whose double is at least the dot row |
| Triads.Children | Assets/Scripts/BoardManager/Board.cs:408-441 | a dot's triad is three different cells, lying in the dot's own column and the next one, with at least one in each |
| Triads.ChildrenInBounds | Assets/Scripts/BoardManager/Board.cs:408-441 | every cell of the triad of a dot of the dot grid is a cell of the board |
| Triads.TriadSet | Assets/Scripts/BoardManager/Board.cs:408-441 | a triad covers exactly three cells |
| Triads.ChildrenAreTriangle | Assets/Scripts/BoardManager/Board.cs:408-441 | every triad is a triangle: two vertically adjacent cells in one column, and a third cell in the other column beside one of them |
| Boards.Set | Assets/Scripts/BoardManager/Board.cs:302 | assigning one array cell changes that cell and no other, and leaves the tile records alone |
| Boards.Settle | Assets/Scripts/BoardManager/Hex/HexBehaviour.cs:69-85 | once every tile has reached its target, `IsBoardChanging` is false; the array is untouched |
| Boards.SettleKeepsIndices | Assets/Scripts/BoardManager/Hex/HexBehaviour.cs:69-85 | tiles landing on their sockets keep every index in agreement with its cell, and a full board stays full |
| Hexes.Init | Assets/Scripts/BoardManager/Hex/HexBehaviour.cs:52-58 | `Init` sets the socket, both indices and the type, and nothing else |
| Hexes.InitBomb | Assets/Scripts/BoardManager/Hex/HexBehaviour.cs:60-67 | `InitBomb` makes the tile a bomb whose countdown starts at the movement limit; index and type are kept |
| Hexes.SameTypeIsEquivalence | Assets/Scripts/BoardManager/Hex/HexBehaviour.cs:129-132 | `IsSameType` is reflexive, symmetric and transitive |
| Hexes.SetPosition | Assets/Scripts/BoardManager/Hex/HexBehaviour.cs:100-108 | moving to the current row changes nothing; any other row becomes the index and the target, and the tile starts moving; no other field changes |
| Hexes.SetPositionIdempotent | Assets/Scripts/BoardManager/Hex/HexBehaviour.cs:100-108 | a second `SetPosition` to the same row is a no-op |
| Hexes.SetIndex | Assets/Scripts/BoardManager/Hex/HexBehaviour.cs:110-115 | `SetIndex` overwrites both indices and the target and nothing else |
| Hexes.Explode | Assets/Scripts/BoardManager/Hex/HexBehaviour.cs:117-127 | as written, `Explode` leaves the exploded flag false and the record otherwise as it was |
| Hexes.ExplodeKeepsMoving | Assets/Scripts/BoardManager/Hex/HexBehaviour.cs:117-127 | a tile still falling when it explodes goes on reporting `IsMoving` |
| Hexes.Settle | Assets/Scripts/BoardManager/Hex/HexBehaviour.cs:69-85 | a tile that has landed no longer reports `IsMoving`; only its on-target flag changed |
| Hexes.OnMovementIncremented | Assets/Scripts/BoardManager/Hex/HexBehaviour.cs:134-140 | a tile without a bomb ignores the increment; with one it forwards it and reports the bomb's game-over call |
| Hexes.BombTileFirstIncrement | Assets/Scripts/BoardManager/Hex/HexBehaviour.cs:60-67 | a bomb tile created with limit L calls game over on its first increment exactly when L is 1, and its count is then L - 1 |
| Bombs.Init | Assets/Scripts/BoardManager/Hex/BombBehaviour.cs:12-16 | the countdown starts at the movement limit |
| Bombs.OnMovementIncremented | Assets/Scripts/BoardManager/Hex/BombBehaviour.cs:18-26 | one increment takes one move off the count and calls game over exactly when the count reaches zero |
| Bombs.Run | Assets/Scripts/BoardManager/Hex/BombBehaviour.cs:18-26 | n increments produce one game-over flag each |
| Bombs.AfterCountsDown | Assets/Scripts/BoardManager/Hex/BombBehaviour.cs:18-26 | after n increments the count is the start minus n, with no lower bound |
| Bombs.RunFires | Assets/Scripts/BoardManager/Hex/BombBehaviour.cs:18-26 | increment k (from 0) calls game over exactly when k + 1 moves were left |
| Bombs.GameOverExactlyAtLimit | Assets/Scripts/BoardManager/Hex/BombBehaviour.cs:12-26 | a fresh bomb calls game over on the limit-th increment and on no other |
| Bombs.GameOverAtMostOnce | Assets/Scripts/BoardManager/Hex/BombBehaviour.cs:18-26 | no two increments of one bomb both call game over |
| Dots.Init | Assets/Scripts/BoardManager/DotBehaviour.cs:38-43 | a dot records its own coordinate and starts unselected; no other field changes |
| Dots.Select | Assets/Scripts/BoardManager/DotBehaviour.cs:60-66 | a dot ends up selected; a selected dot is left as it is; only the flag changes |
| Dots.Deselect | Assets/Scripts/BoardManager/DotBehaviour.cs:68-73 | a dot ends up unselected whatever it was; only the flag changes |
| Dots.SelectIdempotent | Assets/Scripts/BoardManager/DotBehaviour.cs:60-73 | selecting twice is selecting once, deselecting undoes selecting an unselected dot, and deselecting before selecting (as a touch of the selected dot does) ends where selecting alone would |
| Dots.AngleOffset | Assets/Scripts/BoardManager/DotBehaviour.cs:82 | one turn is a third of a circle, negative exactly when clockwise |
| Dots.Rotate | Assets/Scripts/BoardManager/DotBehaviour.cs:75-88 | `Rotate` starts the dot rotating, stores the callback and aims a third of a turn away in the chosen direction |
| Dots.OnRotationEnd | Assets/Scripts/BoardManager/DotBehaviour.cs:90-95 | the end of a rotation stops the dot at its end angle, invokes the stored callback and drops it |
| Dots.OnRotationEndFrame | Assets/Scripts/BoardManager/DotBehaviour.cs:90-95 | the end of a rotation changes only the rotating flag, the stored callback and the angle; the coordinate, the selection, the direction and the end angle keep their values |
| Dots.RotateThenEnd | Assets/Scripts/BoardManager/DotBehaviour.cs:75-95 | a rotation ends by invoking exactly the callback it was given, once, with the dot turned a third of a turn |
| Dots.ThreeRotationsFullCircle | Assets/Scripts/BoardManager/DotBehaviour.cs:75-95 | three rotations in one direction turn the dot a full circle |
| Setup.DotGrid | Assets/Scripts/BoardManager/Board.cs:111-117 | the dot grid has width - 1 columns and 2(height - 1) rows |
| Setup.GenerateDots | Assets/Scripts/BoardManager/Board.cs:109-163 | there is one dot per dot-grid coordinate, initialised with that coordinate, unselected, at rest and with no pending action |
| Setup.EmptyBoard | Assets/Scripts/BoardManager/Board.cs:167 | a new array has every cell empty and no tile |
| Setup.CreateHex | Assets/Scripts/BoardManager/Board.cs:183-195 | `CreateHex` puts a new tile, with an id no record had, in cell (x, y); the tile carries that cell as its index and target, and the drawn type; no other cell or record changes |
| Setup.CreateHexKeepsAgreement | Assets/Scripts/BoardManager/Board.cs:183-195 | creating a tile keeps every tile's index in agreement with its cell |
| Setup.CreateHexProgress | Assets/Scripts/BoardManager/Board.cs:174-177 | one pass of the inner loop fills exactly the next cell with its drawn type |
| Setup.RowProgress | Assets/Scripts/BoardManager/Board.cs:172-178 | a finished row is the start of the next |
| Setup.CreateHexes | Assets/Scripts/BoardManager/Board.cs:165-181 | the creation loops leave every cell holding a tile that reports that cell and has the type drawn for it, every tile with an id of its own |
| Setup.ChangeHex | Assets/Scripts/BoardManager/Board.cs:478-494 | the cell gets a new tile of a different type, with a new id; no other cell and no other tile's type changes; a full board stays full, with indices in agreement |
| Setup.DrawsUntilOther | Assets/Scripts/BoardManager/Board.cs:481-483 | the retry loop takes the draws up to and including the first one that differs from the old type; it never ends exactly when every draw repeats the old type |
| Setup.ReplaceMatchingHexesStart | Assets/Scripts/BoardManager/Board.cs:198-209 | the board stays full with agreeing indices; a board with no match is left as it is; every recorded match list is what the scan found on the board it ran on, the first of them the start board, and each recorded board (and the final one) differs from the board before it only in cells the previous scan listed; the cells whose tile differs from the start board are exactly the replaced cells, each holding a new id; every replaced cell was listed by some scan, and when the loop ends every listed cell was replaced; when the loop ends the board has no match |
| Setup.ReplaceStep | Assets/Scripts/BoardManager/Board.cs:203-206 | replacing the tile of one more listed cell extends the replaced cells by exactly that cell |
| Setup.ReplaceListed | Assets/Scripts/BoardManager/Board.cs:203-206 | one pass over a match list leaves every unlisted cell of the board it started from as it was, and, unless the draws run out, every listed cell, using at least one draw per entry |
| Matching.Triple | Assets/Scripts/BoardManager/Board.cs:225-227 | a match lists its scan cell and the cell above it first |
| Matching.TripleInBounds | Assets/Scripts/BoardManager/Board.cs:219-291 | every rule the scan tries compares three different cells of the board |
| Matching.CandidatesExact | Assets/Scripts/BoardManager/Board.cs:219-291 | at each scanned position the scan tries exactly the rules legal there |
| Matching.FiredExact | Assets/Scripts/BoardManager/Board.cs:221-228 | a tried rule is reported exactly when it fires |
| Matching.HitsFromExact | Assets/Scripts/BoardManager/Board.cs:215-294 | the scan from position (x, y) on reports exactly the legal rules at or after (x, y) that fire |
| Matching.HitsExact | Assets/Scripts/BoardManager/Board.cs:215-294 | the scan reports a rule at a position exactly when the rule applies there and its cells match |
| Matching.FindMatchesSound | Assets/Scripts/BoardManager/Board.cs:215-294 | the list has three entries per match; each group of three is three different board cells of one type, at a legal rule position |
| Matching.FindMatchesGroups | Assets/Scripts/BoardManager/Board.cs:215-294 | the list is the matches' triples laid end to end |
| Matching.HitsSound | Assets/Scripts/BoardManager/Board.cs:215-294 | every reported match is legal and its three cells hold one type |
| Matching.HitMatches | Assets/Scripts/BoardManager/Board.cs:215-294 | a reported match is legal and its three cells hold one type |
| Matching.EntryInBounds | Assets/Scripts/BoardManager/Board.cs:215-294 | every listed coordinate is a cell of the board |
| Matching.FindMatchesEmptyIff | Assets/Scripts/BoardManager/Board.cs:215-294 | the list is empty exactly when no rule fires at any scanned position |
| Matching.FindMatchesNeedsTwoRows | Assets/Scripts/BoardManager/Board.cs:219-291 | a board on which the scan finds a match has two or more rows and no empty cell |
| Matching.MatchIsTriad | Assets/Scripts/BoardManager/Board.cs:219-291 | on a board of even width, every match is the triad of some dot |
| Matching.RightEdgeNotTriadOnOddWidth | Assets/Scripts/BoardManager/Board.cs:280-291 | on a board of odd width, the right-column rule compares cells that form no dot's triad |
| Matching.FoundFlattens | Assets/Scripts/BoardManager/Board.cs:215-294 | what the loops append from position (x, y) on is the triples of the matches from (x, y) on |
| Matching.FindMatchesScan | Assets/Scripts/BoardManager/Board.cs:215-294 | the three loops return exactly the reference match list |
| Matching.ScanLeftColumn | Assets/Scripts/BoardManager/Board.cs:219-230 | the left-column loop appends the triples of the left column's matches |
| Matching.AppendLeftCell | Assets/Scripts/BoardManager/Board.cs:221-229 | one left-column pass keeps "found so far, then still to come" equal to the whole list |
| Matching.ScanLeftCell | Assets/Scripts/BoardManager/Board.cs:221-229 | the left-column check at row y appends the triples of the matches there |
| Matching.ScanInteriorColumns | Assets/Scripts/BoardManager/Board.cs:232-278 | the interior loop appends the triples of the interior columns' matches, left to right |
| Matching.AppendInteriorColumn | Assets/Scripts/BoardManager/Board.cs:232-278 | one interior column keeps "found so far, then still to come" equal to the whole list |
| Matching.ScanInteriorColumn | Assets/Scripts/BoardManager/Board.cs:234-277 | the loop over one interior column appends that column's matches, bottom to top |
| Matching.AppendInteriorCell | Assets/Scripts/BoardManager/Board.cs:234-277 | one pass over an interior row keeps "found so far, then still to come" equal to the whole list |
| Matching.ScanInteriorCell | Assets/Scripts/BoardManager/Board.cs:234-277 | an interior row appends the triples of the matches the column's parity picks |
| Matching.ScanEvenCell | Assets/Scripts/BoardManager/Board.cs:238-253 | an even column compares the pair with the cells above-right, then above-left |
| Matching.ScanOddCell | Assets/Scripts/BoardManager/Board.cs:260-275 | an odd column compares the pair with the cells to the right, then to the left, on the lower row |
| Matching.ScanRightColumn | Assets/Scripts/BoardManager/Board.cs:280-291 | the right-column loop appends the triples of the right column's matches, and nothing follows them |
| Matching.AppendRightCell | Assets/Scripts/BoardManager/Board.cs:282-290 | one right-column pass keeps "found so far, then still to come" equal to the whole list |
| Matching.ScanRightCell | Assets/Scripts/BoardManager/Board.cs:282-290 | the right-column check at row y appends the triples of the matches there |
| Gravity.Landing | Assets/Scripts/BoardManager/Board.cs:323-334 | a tile drops to a row with every cell between it and the tile empty, and with the cell below it occupied unless it is row 0 |
| Gravity.LandingUnique | Assets/Scripts/BoardManager/Board.cs:323-334 | the landing row is the only row with those properties |
| Gravity.MoveDown | Assets/Scripts/BoardManager/Board.cs:336-340 | one move changes only the tile's column and keeps the set of tile records |
| Gravity.MoveDownEffect | Assets/Scripts/BoardManager/Board.cs:336-340 | one move writes the tile into its landing row, tells it that row with `SetPosition`, empties its old row, and changes no other record |
| Gravity.FallenStepDrop | Assets/Scripts/BoardManager/Board.cs:342-346 | when the first tile really falls, notifying the row above finishes the compaction |
| Gravity.FallenStepErase | Assets/Scripts/BoardManager/Board.cs:342-346 | when the first tile lands on its own row and is lost, notifying the row above still finishes the compaction |
| Gravity.NotifyDownIsEmpty | Assets/Scripts/BoardManager/Board.cs:316-347 | the notification ends, changes only its column, keeps the set of tile records, and keeps that column's indices in agreement |
| Gravity.NotifyDownIsEmptyFalls | Assets/Scripts/BoardManager/Board.cs:316-347 | the column left behind is exactly the reference compaction: the stack above row r lands, in order, on the first occupied cell below |
| Gravity.MoveDownContents | Assets/Scripts/BoardManager/Board.cs:323-340 | one move keeps every tile in the array, unless the tile has nowhere to fall; then it becomes one more empty cell |
| Gravity.MoveDownNoSecondLoss | Assets/Scripts/BoardManager/Board.cs:340-346 | the row a move vacates is empty, so the tile notified next always has somewhere to fall |
| Gravity.MoveDownClimbs | Assets/Scripts/BoardManager/Board.cs:343-346 | after the first move, the notification carries on with the row above the tile's old row |
| Gravity.MoveDownLast | Assets/Scripts/BoardManager/Board.cs:343 | on the top row the first move is the whole notification |
| Gravity.NotifyDownIsEmptyContents | Assets/Scripts/BoardManager/Board.cs:316-347 | the notification keeps every tile in the array, except that the first tile is lost when it has nowhere to fall |
| Gravity.FallenKeepsOrder | Assets/Scripts/BoardManager/Board.cs:316-347 | compaction keeps the column's tiles in bottom-to-top order; only the first tile can go, exactly when it has nowhere to fall |
| Gravity.NotifyDownIsEmptyKeepsOrder | Assets/Scripts/BoardManager/Board.cs:316-347 | no tile passes another, and only the notified tile can leave the column |
| Gravity.MoveDownKeepsAgreement | Assets/Scripts/BoardManager/Board.cs:336-340 | a move keeps every tile's index in agreement with its cell |
| Gravity.NotifyDownIsEmptyKeepsAgreement | Assets/Scripts/BoardManager/Board.cs:316-347 | the notification keeps every tile's index in agreement with its cell |
| Gravity.NotifyDownIsEmptyChecked | Assets/Scripts/BoardManager/Board.cs:316-347 | with the guard, the notification changes only its column and keeps indices in agreement |
| Gravity.NotifyDownIsEmptyCheckedKeeps | Assets/Scripts/BoardManager/Board.cs:316-347 | with the guard, the notification loses no tile and keeps the column's order |
| Gravity.NotifyDownIsEmptyCheckedKeepsAgreement | Assets/Scripts/BoardManager/Board.cs:316-347 | with the guard, indices stay in agreement across the board |
| Gravity.Move | Assets/Scripts/BoardManager/Board.cs:323-340 | one move through the cell a tile's record names always leaves that cell empty, changes no other column and no other record |
| Gravity.NotifyStale | Assets/Scripts/BoardManager/Board.cs:316-347 | as written on records that may be stale: the shape and the records' ids are kept, a board with an empty cell keeps one, a notification that returns leaves an empty cell, and a null argument returns at once |
| Gravity.NotifyStaleAgrees | Assets/Scripts/BoardManager/Board.cs:316-347 | with records that agree with their cells and room for one call per row, the code's recursion is exactly the agreeing-index compaction and never overflows |
| Gravity.NotifyStaleLoops | Assets/Scripts/BoardManager/Board.cs:316-347 | a tile one cell above its stale record, over an empty recorded cell with nowhere to fall, is moved onto that cell and off again, and then notified again, forever: the recursion overflows whatever the stack |
| Gravity.MoveInPlace | Assets/Scripts/BoardManager/Board.cs:323-340 | a move of a tile whose recorded cell is empty with an occupied cell (or the floor) below changes nothing |
| Rotation.Order | Assets/Scripts/BoardManager/Board.cs:371 | the permutation walks the dot's three triad cells, each once |
| Rotation.OrderReversed | Assets/Scripts/BoardManager/Board.cs:371 | clockwise and counter-clockwise walk the same cells in opposite orders |
| Rotation.OrderCyclable | Assets/Scripts/BoardManager/Board.cs:371-380 | for a dot of the dot grid, the walked cells are three different cells of the board |
| Rotation.Cycle | Assets/Scripts/BoardManager/Board.cs:377-380 | the first cell takes the second's tile, the second the third's, the third the first's; no other cell changes |
| Rotation.CycleKeepsContents | Assets/Scripts/BoardManager/Board.cs:377-380 | a cycle keeps the multiset of cell contents |
| Rotation.CycleInverse | Assets/Scripts/BoardManager/Board.cs:377-380 | cycling the cells in reverse order undoes a cycle |
| Rotation.CycleThrice | Assets/Scripts/BoardManager/Board.cs:377-380 | three cycles restore the board |
| Rotation.RotateCells | Assets/Scripts/BoardManager/Board.cs:362-381 | as written, the callback changes the array only: every tile record, indices included, is left as it was |
| Rotation.RotateMovesTriad | Assets/Scripts/BoardManager/Board.cs:371-380 | a turn moves each triad tile one step along the walk, in the children's order for counter-clockwise and reversed for clockwise; nothing outside the triad moves |
| Rotation.RotateKeepsContents | Assets/Scripts/BoardManager/Board.cs:371-380 | a turn keeps the tiles in the array and the number of empty cells |
| Rotation.RotateKeepsFull | Assets/Scripts/BoardManager/Board.cs:371-380 | a turn keeps a full board full |
| Rotation.RotateInverse | Assets/Scripts/BoardManager/Board.cs:371-380 | a turn in one direction is undone by a turn in the other |
| Rotation.RotateThrice | Assets/Scripts/BoardManager/Board.cs:371-380 | three turns in one direction restore the board |
| Rotation.RotateBreaksIndices | Assets/Scripts/BoardManager/Board.cs:362-381 | as written, a turn that moves a tile leaves the board's indices out of agreement |
| Rotation.Reindex | Assets/Scripts/BoardManager/Hex/HexBehaviour.cs:110-115 | `SetIndex` on the tile of a cell makes it report that cell and changes no other record or type |
| Rotation.CycleReindexed | Assets/Scripts/BoardManager/Board.cs:377-380 | the cycle followed by `SetIndex` on the moved tiles moves the same tiles as the plain cycle and keeps every type |
| Rotation.RotateReindexed | Assets/Scripts/BoardManager/Board.cs:362-381 | the corrected callback changes the array exactly as written and keeps every type |
| Rotation.CycleReindexedAgreesAt | Assets/Scripts/BoardManager/Board.cs:377-380 | after the corrected cycle, each tile in the array reports its own cell |
| Rotation.RotateReindexedAgrees | Assets/Scripts/BoardManager/Board.cs:362-381 | the corrected callback keeps every index in agreement with its cell |
| Rotation.RotateCellsOnlyReadsCells | Assets/Scripts/BoardManager/Board.cs:371-380 | the permutation depends on the array only, not on the tile records |
| Rotation.RotateReindexedThrice | Assets/Scripts/BoardManager/Board.cs:362-381 | three corrected turns restore the array and keep indices in agreement |
| Rotation.StartRotation | Assets/Scripts/BoardManager/Board.cs:349-362 | a dot already turning is left alone; otherwise it starts a turn whose stored action cycles its own triad in the chosen direction |
| Rotation.StartRotationGuard | Assets/Scripts/BoardManager/Board.cs:351-354 | while a dot turns, a second request in either direction keeps the first one's action |
| Rotation.FinishRotation | Assets/Scripts/BoardManager/Board.cs:362-381 | the end of a rotation stops the dot at its end angle and runs its action: an empty triad cell throws and leaves the board and the stored action as they were; otherwise the array cycles, the records are untouched, a full board stays full, and agreeing indices no longer agree |
| Rotation.RotateDotTurnsTriad | Assets/Scripts/BoardManager/Board.cs:349-382 | a rotation requested on a resting dot starts exactly when its triad is filled, and then, run to its end, cycles that triad as written and turns the dot a third of a turn |
| Rotation.FinishRotationKeepsContents | Assets/Scripts/BoardManager/DotBehaviour.cs:90-95 | the end of a rotation keeps the tiles in the array |
| Rotation.Turns | Assets/Scripts/BoardManager/BoardController.cs:135-153 | any number of as-written turns keep the shape and the records, and keep a full board full |
| Rotation.TurnsThrice | Assets/Scripts/BoardManager/BoardController.cs:135-153 | three as-written turns of a triad bring back the board itself, records and all |
| Rotation.TurnsKeep | Assets/Scripts/BoardManager/BoardController.cs:135-153 | as-written turns keep the tiles in the array, and tiles that record cells of the array still do |
| Rotation.TurnsBreakIndices | Assets/Scripts/BoardManager/Board.cs:362-381 | one or two as-written turns of a filled triad on a board whose indices agree leave a tile recording a cell it no longer occupies |
| Rotation.RotateKeepsAnchored | Assets/Scripts/BoardManager/Board.cs:371-380 | a turn keeps the records, so tiles that record cells of the array still do |
| Rotation.FullTriadFilled | Assets/Scripts/BoardManager/Board.cs:400-406 | every triad of a full board is filled, so the tile enumeration never meets an empty cell |
| Rotation.OrderFilled | Assets/Scripts/BoardManager/Board.cs:371 | the walked cells are filled exactly when the triad is |
| Explosion.ExplodeAt | Assets/Scripts/BoardManager/Board.cs:301-302 | exploding one cell keeps the board's shape and its set of tile records |
| Explosion.ExplodeAtEffect | Assets/Scripts/BoardManager/Board.cs:301-302 | the cell is emptied and no other cell changes; only its tile's record goes through `Explode`; indices still agree; one tile becomes one empty cell |
| Explosion.Clear | Assets/Scripts/BoardManager/Board.cs:298-303 | the first pass explodes at most one tile per listed cell and returns exactly when it exploded all of them; then every listed cell was in range |
| Explosion.ClearSucceedsIff | Assets/Scripts/BoardManager/Board.cs:298-303 | the first pass returns exactly when every listed cell is in range, holds a tile, and is listed once |
| Explosion.ClearEffect | Assets/Scripts/BoardManager/Board.cs:298-303 | a first pass that returns empties exactly the listed cells and adds one empty cell per entry |
| Explosion.ClearRemovesTiles | Assets/Scripts/BoardManager/Board.cs:298-303 | after a first pass that returns, no exploded tile is anywhere in the array |
| Explosion.Drop | Assets/Scripts/BoardManager/Board.cs:310 | notifying one tile never puts a tile into the array; with the guard it keeps the contents exactly |
| Explosion.NotifyAbove | Assets/Scripts/BoardManager/Board.cs:308-311 | the tile above a listed cell, if any, is notified; this never adds a tile, and with the guard loses none |
| Explosion.Notify | Assets/Scripts/BoardManager/Board.cs:306-312 | the second pass returns exactly when no listed cell is on the top row (reading row y + 1 throws otherwise), never adds a tile, and with the guard loses none |
| Explosion.ExplodeMatchesWith | Assets/Scripts/BoardManager/Board.cs:296-314 | both passes keep the board's shape, its records and agreeing indices |
| Explosion.ExplodeMatchesSucceedsIff | Assets/Scripts/BoardManager/Board.cs:296-314 | `ExplodeMatches` returns exactly when the list is clean and no entry is on the top row |
| Explosion.ExplodeMatchesCount | Assets/Scripts/BoardManager/Board.cs:296-314 | at most one explosion event per entry, and exactly one per entry when the list is clean |
| Explosion.ExplodeMatchesEffect | Assets/Scripts/BoardManager/Board.cs:296-314 | a call that returns removes every listed tile from the array and leaves at least one more empty cell per entry (exactly one with the guard), so a non-empty list leaves the board not full |
| Explosion.NotifyAboveStale | Assets/Scripts/BoardManager/Board.cs:308-311 | as written, the tile above a listed cell, if any, is notified through its own record; the shape and records are kept and a board with an empty cell keeps one |
| Explosion.NotifyAsWritten | Assets/Scripts/BoardManager/Board.cs:306-312 | as written, the second pass returns only when no listed cell is on the top row, throws `IndexOutOfRange` only when one is, never throws `NullReference`, and a board with an empty cell keeps one |
| Explosion.ExplodeMatchesAsWrittenEffect | Assets/Scripts/BoardManager/Board.cs:296-314 | as written, one tile explodes per entry exactly when the list is clean; the call returns only on a clean list clear of the top row, where only a stack overflow can stop it; a clean non-empty list leaves an empty cell |
| Explosion.ExplodeMatchesAsWrittenAgrees | Assets/Scripts/BoardManager/Board.cs:296-347 | on records that agree with their cells and with room for one call per row, the code's `ExplodeMatches` is the agreeing-index version, lost tiles included |
| Explosion.NotifyAsWrittenAgrees | Assets/Scripts/BoardManager/Board.cs:306-312 | on agreeing records, the code's second pass is the agreeing-index pass |
| Explosion.ExplodeAtKeeps | Assets/Scripts/BoardManager/Board.cs:301-302 | exploding one cell keeps agreeing indices in agreement, and tiles that record cells of the array still do |
| Explosion.TowerLosesTile | Assets/Scripts/BoardManager/Board.cs:296-347 | on a four-tile column, exploding rows 1 then 0 leaves one empty cell more than the two explosions as written; with the guard, exactly two |
| Explosion.TowerAsWritten | Assets/Scripts/BoardManager/Board.cs:296-347 | as written, that call leaves only tile 2 in the column |
| Explosion.TowerFirstDrop | Assets/Scripts/BoardManager/Board.cs:316-347 | notifying tile 2 drops tiles 2 and 3 onto rows 0 and 1 |
| Explosion.TowerSecondDrop | Assets/Scripts/BoardManager/Board.cs:316-347 | notifying tile 3, which now sits on tile 2, erases it from the array |
| Controller.OnTouch | Assets/Scripts/BoardManager/BoardController.cs:45-83 | a touch is ignored when the game is over, the board is changing or no dot was picked; otherwise the picked dot becomes the only selected one |
| Controller.Turn | Assets/Scripts/BoardManager/BoardController.cs:137-138 | one pass turns the selected dot's triad as written, never throws on a full board, and waits until the dot has stopped a third of a turn further on |
| Controller.Spin | Assets/Scripts/BoardManager/BoardController.cs:135-153 | the loop stops early, before the counter reaches three, on a board whose scan finds a match; otherwise it makes all the remaining turns; it stops early exactly when some remaining turn makes a match |
| Controller.SpinStopsAtFirstMatch | Assets/Scripts/BoardManager/BoardController.cs:135-153 | when the loop stops early, none of the turns before its last one made a match: it stops at the first matching turn |
| Controller.ExplodeFound | Assets/Scripts/BoardManager/BoardController.cs:178-181 | the code's `ExplodeMatches` on the game's board, stale records included; each exploded tile adds 15 points, so the score grows by at most 15 per entry, and by exactly that amount exactly when the list is clean (every entry a distinct cell of the array that holds a tile); it returns only on a clean list clear of the top row, and a non-empty one then leaves the board not full |
| Controller.AfterExplosion | Assets/Scripts/BoardManager/Board.cs:296-314 | an empty list explodes nothing, raises nothing and leaves the board as it was |
| Controller.SpinSelected | Assets/Scripts/BoardManager/BoardController.cs:135-153 | the attempt loop on the selected dot ends on the board as many turns on as it made, the same records, and the dot turned that many thirds; it ends matched exactly when one of its remaining turns makes a match |
| Controller.SpinSelectedStopsAtFirstMatch | Assets/Scripts/BoardManager/BoardController.cs:135-153 | a matched attempt loop on the game stopped at the first turn of the selected dot that made a match |
| Controller.ChainTurns | Assets/Scripts/BoardManager/BoardController.cs:135-153 | the last board of a chain of single turns is the first board turned that many times |
| Controller.Attempts | Assets/Scripts/BoardManager/BoardController.cs:135-153 | without a match the counter reaches three, the board is the one all the remaining turns leave, and nothing is scored; with one the matches explode, one movement event is raised if that returns, and the board is left not full; the game ends exactly when that event makes a bomb fire |
| Controller.AttemptsStopAtFirstMatch | Assets/Scripts/BoardManager/BoardController.cs:135-153 | the matches that explode come from the first turn that makes any: no earlier turn of the loop made a match |
| Controller.ExplodeTurned | Assets/Scripts/BoardManager/BoardController.cs:141-147 | a match found after a turn explodes and raises one movement event if the explosion returns |
| Controller.ScanBoard | Assets/Scripts/BoardManager/Board.cs:215-294 | the scan throws exactly when a cell it dereferences is empty, which needs two or more rows; otherwise it returns the matches |
| Controller.Cascade | Assets/Scripts/BoardManager/BoardController.cs:155-165 | the cascade only scores whole tiles, keeps the shape and the dots, and when no exception stops it the board can be scanned and has no match |
| Controller.CascadeThrows | Assets/Scripts/BoardManager/BoardController.cs:155-165 | a cascade that starts on a board with an empty cell and two or more rows throws at its first scan, whatever the tiles record, and leaves the array as it was |
| Controller.RotateDot | Assets/Scripts/BoardManager/BoardController.cs:131-169 | the coroutine clears its busy flag exactly when no exception stopped it, and then the counter is reset; at most one movement event, whole tiles scored; without a firing bomb the selection and the game-over flag are kept |
| Controller.RotateDotFault | Assets/Scripts/BoardManager/BoardController.cs:131-169 | a run that makes a match within the turns left stops on an exception; one that makes none keeps the fault it started with |
| Controller.RotateDotBoard | Assets/Scripts/BoardManager/BoardController.cs:131-169 | a run that no exception stopped ends on the board all its remaining turns leave |
| Controller.Conclude | Assets/Scripts/BoardManager/BoardController.cs:155-168 | after the attempt loop, a match always ends in an exception; without one the fault is kept, and when it is none the flag and the counter are reset and the board kept |
| Controller.OnSwipe | Assets/Scripts/BoardManager/BoardController.cs:85-129 | a swipe is ignored when the game is over, the board is changing or no dot is selected; a handled swipe keeps the controller consistent |
| Controller.OnGameOver | Assets/Scripts/BoardManager/BoardController.cs:194-200 | game over deselects the selected dot, drops the selection and marks the game over; with no selection the null dereference changes nothing |
| Controller.Run | Assets/Scripts/BoardManager/BoardController.cs:45-111 | any sequence of touches and swipes keeps the controller consistent; a game once over stays over; only a swipe whose movement event makes a bomb fire can end the game |
| Controller.BusyIgnoresInput | Assets/Scripts/BoardManager/BoardController.cs:45-111 | a game that is over, or whose board is changing, ignores every touch and swipe |
| Controller.GameOverIsFinal | Assets/Scripts/BoardManager/BoardController.cs:194-200 | after game over no dot is selected and every later input is ignored |
| Controller.FollowsKeepsSelection | Assets/Scripts/BoardManager/BoardController.cs:131-169 | a run of the coroutine keeps the selection consistent, and a game once over stays over |
| Controller.SwipeWithoutMatch | Assets/Scripts/BoardManager/BoardController.cs:131-169 | a swipe none of whose three turns makes a match puts every tile back, turns the dot a full circle, scores nothing and leaves the controller at rest |
| Controller.NoMatchWithinStep | Assets/Scripts/BoardManager/BoardController.cs:135-153 | no match within n turns exactly when none after the first turn and none within n - 1 turns of the turned board |
| Controller.ScoringSwipeIsStale | Assets/Scripts/BoardManager/BoardController.cs:131-147 | a swipe from rest that finds a match finds it after the first or second turn, on a board with the start board's records where some tile records a cell it left |
| Controller.MatchBeforeFullCircle | Assets/Scripts/BoardManager/BoardController.cs:135-147 | on a full board at rest with agreeing indices and no match, a match some of the first three turns make appears after the first or second, with a stale record |
| Controller.SwipeWithMatch | Assets/Scripts/BoardManager/BoardController.cs:131-169 | a swipe that makes a match leaves the board marked as changing for good, raises at most one movement event, scores whole tiles, and every later input is ignored |
| Controller.SwipeStalls | Assets/Scripts/BoardManager/BoardController.cs:131-169 | a swipe that makes a match leaves the coroutine stopped by an exception with its dots kept |
| Controller.StartConsistent | Assets/Scripts/BoardManager/BoardController.cs:35-43 | a generated full board with agreeing indices and no match, and its dots, start a consistent controller |

## Left out

- Rendering, sockets' world positions, particles, prefabs, `Instantiate` and `Destroy`: tiles are records, and sockets are named by their grid coordinate.
- Floating point: dot angles are whole degrees, and the swipe direction is a `bool` parameter instead of `Vector2.SignedAngle`.
- Timing: coroutine waits and the tiles' fall under gravity are not modelled step by step. A wait on `IsBoardChanging` is modelled as `Boards.Settle`, where every tile has landed.
- `Physics2D.CircleCastAll` and the nearest-hit search in `OnTouch`: the picked dot is a parameter.
- Randomness: `GetRandomType` draws are parameters. `CreateHexes` takes a matrix of types, and `ChangeHex` takes the new type. `ReplaceMatchingHexesStart` takes a sequence of draws.
- Setup.ReplaceMatchingHexesStart: the source loop may never end. The model stops when its draws run out and reports `settled == false`.
- Setup.ChangeHex: requires the new type to differ from the old one; `Setup.DrawsUntilOther` models the retry loop that ensures this.
- Gravity.NotifyDownIsEmpty: requires the column's tiles to report their own cells, where it is the reference for the compaction. The code on stale records is `Gravity.NotifyStale`, which the controller uses; `Gravity.NotifyStaleAgrees` ties the two together.
- Explosion.ExplodeMatchesWith: requires indices in agreement, for the same reason. The code on stale records is `Explosion.ExplodeMatchesAsWritten`, tied to it by `Explosion.ExplodeMatchesAsWrittenAgrees`.
- Stack overflow: the model treats a `StackOverflowException` like any other thrown exception, which stops only the swipe coroutine and leaves the game taking input (ignored while `isBoardChanging` stays set). On runtimes where a stack overflow ends the process there is no later input, so what `Controller.SwipeWithMatch`, `Controller.SwipeStalls` and `Controller.Run` say about later input does not apply after an overflow.
- Stack depth: the runtime's stack is a parameter `stack`, the number of nested `NotifyDownIsEmpty` calls it admits; a deeper recursion is a `StackOverflow` fault.
- Matching.FindMatchesScan: requires a board of two or more columns. On one column the code's edge rules index column 1 and throw; that case is not modelled.
- `GetChildrenIndexss`: it has no callers.
- `GenerateSockets`: it computes positions only.
- `OnDrawGizmosSelected`: it is editor drawing.
- The older `BoardManager/HexBehaviour.cs`: the game uses `Hex/HexBehaviour.cs`.
- `SpawnBomb`, `DestroyBoard` and `Board.OnMovementIncremented`: these are not part of this model. `OnMovement` raises a movement event, counted in `movements`. Whether the increment it passes on to the tiles makes a bomb fire is a parameter `fires` of each swipe; when it does, `OnGameOver` runs. The bomb's own countdown is `Bombs` and `Hexes.OnMovementIncremented`.
- Controller.OnGameOver: `DestroyBoard` is not part of this model, so the board is left as it was.
- Controller.RotateDot: the coroutine sets `_isBoardChanging` before its loop; the model sets it once the loop is done. No input is handled while the coroutine runs, and nothing in the loop reads the flag.
- GameManager, InputManager and UIManager: they only route events, and are not part of this model.
- Score overflow: the score is an unbounded integer, whereas the C# `int` would wrap after about 143 million tiles.
- Tile records of destroyed tiles stay in the table: nothing reads them again.
- Reparenting the triad's tiles under the dot during a turn: the transform changes are not modelled. The reads of the triad's tiles that it makes are: an empty triad cell throws before the dot turns (`Rotation.StartRotation`) or at the end of the turn (`Rotation.FinishRotation`).

## Findings

| source | as written | input that shows it | evidently intended | confidence | as-written member | corrected member |
|---|---|---|---|---|---|---|
| Assets/Scripts/BoardManager/Board.cs:362-381 | the end-of-rotation callback permutes the array but never calls `SetIndex`, so every moved tile keeps the indices of the cell it left | any turn of a dot whose second walked cell holds a tile, for instance counter-clockwise on dot (0, 0) of a full 2 by 2 board; every swipe that scores explodes on such a board, and a tile one cell above its stale record, over an empty cell, is notified forever | the moved tiles report their new cells, which `NotifyDownIsEmpty` relies on when it rewrites the array through a tile's own indices | high, not executed | Rotation.RotateCells, Rotation.RotateBreaksIndices, Rotation.TurnsBreakIndices, Controller.ScoringSwipeIsStale, Gravity.NotifyStaleLoops | Rotation.RotateReindexed, Rotation.RotateReindexedAgrees, Rotation.RotateReindexedThrice |
| Assets/Scripts/BoardManager/Board.cs:316-347 | `NotifyDownIsEmpty` moves a tile whose cell below is occupied (or which is on row 0) to its own row and then empties that row, so the tile leaves the array without exploding | a single column of four tiles, `ExplodeMatches` with cells (0, 1) then (0, 0): the first notification drops tiles 2 and 3 onto rows 0 and 1, and the second, for the tile above row 0, erases tile 3 | a tile with nowhere to fall stays put, and the explosion removes exactly the listed tiles | high, not executed | Explosion.ExplodeMatchesAsWritten, Explosion.TowerLosesTile, Explosion.TowerSecondDrop, Gravity.NotifyDownIsEmptyContents | Explosion.ExplodeMatches, Explosion.ExplodeMatchesEffect, Gravity.NotifyDownIsEmptyChecked, Gravity.NotifyDownIsEmptyCheckedKeeps |

=== FILE: boards.dfy ===
/**
 * The board state (`Board._board` plus the tile objects it references): a `width` by `height`
 * array of optional tile ids, indexed `cells[x][y]`, and a table from tile id to tile record.
 * The table is kept apart from the array because the records' own indices can go stale.
 */
module Boards {
  import opened Cells
  import Hexes

  /** The identity of a tile object. */
  type TileId = nat

  /** `nextId` is the id the next created tile receives. */
  datatype Board = Board(
    width: int,
    height: int,
    cells: seq<seq<Option<TileId>>>,
    hexes: map<TileId, Hexes.Hex>,
    nextId: nat)

  /** The array has `width` columns of `height` cells. */
  predicate Shaped(b: Board)
  {
    0 <= b.height && |b.cells| == b.width
    && forall x :: 0 <= x < |b.cells| ==> |b.cells[x]| == b.height
  }

  /** Every tile in the array has a record, and every record's id was handed out already. */
  predicate WellFormed(b: Board)
  {
    Shaped(b)
    && (forall x, y :: 0 <= x < b.width && 0 <= y < b.height && b.cells[x][y].Some? ==>
          b.cells[x][y].value in b.hexes)
    && (forall id :: id in b.hexes ==> id < b.nextId)
  }

  /** No cell of the array is empty. */
  predicate Full(b: Board)
  {
    WellFormed(b)
    && forall x, y :: 0 <= x < b.width && 0 <= y < b.height ==> b.cells[x][y].Some?
  }

  /** The tiles in column `x` report the cell they occupy as their own index. */
  predicate ColumnAgrees(b: Board, x: int)
    requires WellFormed(b) && 0 <= x < b.width
  {
    forall y :: 0 <= y < b.height && b.cells[x][y].Some? ==>
      b.hexes[b.cells[x][y].value].indexX == x && b.hexes[b.cells[x][y].value].indexY == y
  }

  /** Every tile in the array reports the cell it occupies as its own index (no stale back-reference). */
  predicate IndicesAgree(b: Board)
  {
    WellFormed(b) && forall x :: 0 <= x < b.width ==> ColumnAgrees(b, x)
  }

  /** The cell a tile's record names as its own (`IndexX`, `IndexY`). */
  function IndexOf(b: Board, id: TileId): Coord
    requires id in b.hexes
  {
    Coord(b.hexes[id].indexX, b.hexes[id].indexY)
  }

  /**
   * Every tile in the array records some cell of the array as its own, though not necessarily
   * the one it occupies. The code only ever hands a tile a cell of the array as its index.
   */
  predicate Anchored(b: Board)
  {
    WellFormed(b)
    && forall x, y :: 0 <= x < b.width && 0 <= y < b.height && b.cells[x][y].Some? ==>
         InBounds(IndexOf(b, b.cells[x][y].value), b.width, b.height)
  }

  /** A tile that records the cell it occupies records a cell of the array. */
  lemma {:induction false} AgreeAnchored(b: Board)
    requires IndicesAgree(b)
    ensures Anchored(b)
  {
    forall x, y | 0 <= x < b.width && 0 <= y < b.height && b.cells[x][y].Some?
      ensures InBounds(IndexOf(b, b.cells[x][y].value), b.width, b.height)
    {
      assert ColumnAgrees(b, x);
    }
  }

  function Get(b: Board, c: Coord): Option<TileId>
    requires Shaped(b) && InBounds(c, b.width, b.height)
  {
    b.cells[c.x][c.y]
  }

  /** Assigns one cell of the array; nothing else changes. */
  function Set(b: Board, c: Coord, v: Option<TileId>): (r: Board)
    requires Shaped(b) && InBounds(c, b.width, b.height)
    ensures Shaped(r) && r.width == b.width && r.height == b.height
    ensures r.hexes == b.hexes && r.nextId == b.nextId
    ensures Get(r, c) == v
    ensures forall d :: InBounds(d, b.width, b.height) && d != c ==> Get(r, d) == Get(b, d)
    ensures forall x :: 0 <= x < b.width && x != c.x ==> r.cells[x] == b.cells[x]
  {
    b.(cells := b.cells[c.x := b.cells[c.x][c.y := v]])
  }

  /** Assigning a cell a tile that has a record (or emptying it) keeps the board well formed. */
  lemma {:induction false} SetWellFormed(b: Board, c: Coord, v: Option<TileId>)
    requires WellFormed(b) && InBounds(c, b.width, b.height)
    requires v.Some? ==> v.value in b.hexes
    ensures WellFormed(Set(b, c, v))
  {
    var r := Set(b, c, v);
    forall x, y | 0 <= x < r.width && 0 <= y < r.height && r.cells[x][y].Some?
      ensures r.cells[x][y].value in r.hexes
    {
      assert Get(r, Coord(x, y)) == r.cells[x][y];
      assert Get(b, Coord(x, y)) == b.cells[x][y];
    }
  }

  /** No tile sits in two cells of the array at once. */
  ghost predicate Distinct(b: Board)
    requires Shaped(b)
  {
    forall c, d ::
      (InBounds(c, b.width, b.height) && InBounds(d, b.width, b.height) && c != d && Get(b, c).Some?)
      ==> Get(b, c) != Get(b, d)
  }

  /** A tile that reports the cell it occupies can occupy only that one cell. */
  lemma {:induction false} AgreeImpliesDistinct(b: Board)
    requires IndicesAgree(b)
    ensures Distinct(b)
  {
    forall c, d | InBounds(c, b.width, b.height) && InBounds(d, b.width, b.height) && c != d && Get(b, c).Some?
      ensures Get(b, c) != Get(b, d)
    {
      assert ColumnAgrees(b, c.x) && ColumnAgrees(b, d.x);
      assert b.cells[c.x][c.y] == Get(b, c) && b.cells[d.x][d.y] == Get(b, d);
    }
  }

  /** The type id of the tile in an occupied cell. */
  function TypeAt(b: Board, c: Coord): int
    requires WellFormed(b) && InBounds(c, b.width, b.height) && Get(b, c).Some?
  {
    b.hexes[Get(b, c).value].typeId
  }

  /** All cells, column after column. */
  function Concat<T>(cols: seq<seq<T>>): (s: seq<T>)
  {
    if cols == [] then [] else cols[0] + Concat(cols[1..])
  }

  /** The multiset of cell contents, empty cells included. */
  function Contents(b: Board): multiset<Option<TileId>>
  {
    multiset(Concat(b.cells))
  }

  /** The number of empty cells. */
  function Vacancies(b: Board): nat
  {
    Contents(b)[None]
  }

  /** The concatenation around column `x`. */
  lemma {:induction false} ConcatSplit<T>(cols: seq<seq<T>>, x: int)
    requires 0 <= x < |cols|
    ensures Concat(cols) == Concat(cols[..x]) + cols[x] + Concat(cols[x + 1..])
    decreases |cols|
  {
    assert Concat(cols) == cols[0] + Concat(cols[1..]);
    if x == 0 {
      assert cols[..0] == [];
      assert cols[1..] == cols[x + 1..];
    } else {
      ConcatSplit(cols[1..], x - 1);
      assert cols[1..][..x - 1] == cols[1..x];
      assert cols[1..][x - 1 + 1..] == cols[x + 1..];
      assert cols[..x] == [cols[0]] + cols[1..x];
      assert Concat(cols[..x]) == cols[0] + Concat(cols[1..x]) by {
        assert cols[..x][1..] == cols[1..x];
      }
    }
  }

  lemma {:induction false} SeqUpdateMultiset<T>(s: seq<T>, y: int, v: T)
    requires 0 <= y < |s|
    ensures multiset(s[y := v]) == multiset(s) - multiset{s[y]} + multiset{v}
  {
    assert s == s[..y] + [s[y]] + s[y + 1..];
    assert s[y := v] == s[..y] + [v] + s[y + 1..];
  }

  lemma {:induction false} ConcatUpdate<T>(cols: seq<seq<T>>, x: int, y: int, v: T)
    requires 0 <= x < |cols| && 0 <= y < |cols[x]|
    ensures multiset(Concat(cols[x := cols[x][y := v]]))
      == multiset(Concat(cols)) - multiset{cols[x][y]} + multiset{v}
  {
    var cols' := cols[x := cols[x][y := v]];
    ConcatSplit(cols, x);
    ConcatSplit(cols', x);
    assert cols'[..x] == cols[..x];
    assert cols'[x + 1..] == cols[x + 1..];
    SeqUpdateMultiset(cols[x], y, v);
  }

  /** Every cell's content occurs in the concatenation. */
  lemma {:induction false} ConcatHas<T>(cols: seq<seq<T>>, x: int, y: int)
    requires 0 <= x < |cols| && 0 <= y < |cols[x]|
    ensures cols[x][y] in Concat(cols)
    decreases |cols|
  {
    assert Concat(cols) == cols[0] + Concat(cols[1..]);
    if x > 0 {
      ConcatHas(cols[1..], x - 1, y);
    }
  }

  /** Every element of the concatenation is some cell's content. */
  lemma {:induction false} ConcatFrom<T>(cols: seq<seq<T>>, v: T)
    requires v in Concat(cols)
    ensures exists x, y :: 0 <= x < |cols| && 0 <= y < |cols[x]| && cols[x][y] == v
    decreases |cols|
  {
    assert Concat(cols) == cols[0] + Concat(cols[1..]);
    if v in cols[0] {
      var y :| 0 <= y < |cols[0]| && cols[0][y] == v;
      assert cols[0][y] == v;
    } else {
      ConcatFrom(cols[1..], v);
      var x, y :| 0 <= x < |cols[1..]| && 0 <= y < |cols[1..][x]| && cols[1..][x][y] == v;
      assert cols[x + 1][y] == v;
    }
  }

  /** Assigning a cell takes its old content out of the multiset and puts the new one in. */
  lemma {:induction false} ContentsSet(b: Board, c: Coord, v: Option<TileId>)
    requires Shaped(b) && InBounds(c, b.width, b.height)
    ensures Get(b, c) in Contents(b)
    ensures Contents(Set(b, c, v)) == Contents(b) - multiset{Get(b, c)} + multiset{v}
  {
    ConcatHas(b.cells, c.x, c.y);
    ConcatUpdate(b.cells, c.x, c.y, v);
  }

  /** A board is full exactly when no cell is counted as vacant. */
  lemma {:induction false} FullIffNoVacancy(b: Board)
    requires WellFormed(b)
    ensures Full(b) <==> Vacancies(b) == 0
  {
    if Full(b) {
      if None in Concat(b.cells) {
        ConcatFrom(b.cells, None);
      }
    } else {
      var x, y :| 0 <= x < b.width && 0 <= y < b.height && b.cells[x][y].None?;
      ConcatHas(b.cells, x, y);
    }
  }

  /** Two shaped boards with the same cells and the same table are equal. */
  lemma {:induction false} BoardExt(a: Board, b: Board)
    requires Shaped(a) && Shaped(b)
    requires a.width == b.width && a.height == b.height && a.hexes == b.hexes && a.nextId == b.nextId
    requires forall c :: InBounds(c, a.width, a.height) ==> Get(a, c) == Get(b, c)
    ensures a == b
  {
    forall x | 0 <= x < a.width
      ensures a.cells[x] == b.cells[x]
    {
      forall y | 0 <= y < a.height
        ensures a.cells[x][y] == b.cells[x][y]
      {
        assert Get(a, Coord(x, y)) == Get(b, Coord(x, y));
      }
    }
  }

  /** `IsBoardChanging`: some tile still in the array is moving. */
  predicate IsBoardChanging(b: Board)
    requires WellFormed(b)
  {
    exists x, y :: 0 <= x < b.width && 0 <= y < b.height && b.cells[x][y].Some?
      && Hexes.IsMoving(b.hexes[b.cells[x][y].value])
  }

  /** Every tile reaches its target: the presentation layer's fall, collapsed into one step. */
  function Settle(b: Board): (r: Board)
    requires WellFormed(b)
    ensures WellFormed(r) && r.cells == b.cells && r.hexes.Keys == b.hexes.Keys
    ensures !IsBoardChanging(r)
    ensures forall id :: id in b.hexes ==> r.hexes[id] == Hexes.Settle(b.hexes[id])
  {
    b.(hexes := map id | id in b.hexes :: Hexes.Settle(b.hexes[id]))
  }

  /** Settling moves no tile and keeps every record's index and type. */
  lemma {:induction false} SettleKeepsIndices(b: Board)
    requires WellFormed(b)
    ensures IndicesAgree(b) ==> IndicesAgree(Settle(b))
    ensures Anchored(b) ==> Anchored(Settle(b))
    ensures Full(b) ==> Full(Settle(b))
  {
    var r := Settle(b);
    if IndicesAgree(b) {
      forall x | 0 <= x < r.width
        ensures ColumnAgrees(r, x)
      {
        assert ColumnAgrees(b, x);
      }
    }
  }
}

=== FILE: bombs.dfy ===
/** The bomb countdown (`BombBehaviour`). */
module Bombs {

  /** The moves a bomb has left. The count is an unbounded integer: the game never clamps it. */
  datatype Bomb = Bomb(remaining: int)

  /** What one movement increment produces: the new countdown and whether it called game over. */
  datatype Tick = Tick(bomb: Bomb, gameOver: bool)

  /** `Init`: the countdown starts at the configured movement limit. */
  function Init(limit: int): (b: Bomb)
    ensures b.remaining == limit
  {
    Bomb(limit)
  }

  /** `OnMovementIncremented`: one move is used up; game over is called exactly when the count reaches zero. */
  function OnMovementIncremented(b: Bomb): (t: Tick)
    ensures b.remaining - t.bomb.remaining == 1
    ensures t.gameOver <==> b.remaining == 1
  {
    var left := b.remaining - 1;
    Tick(Bomb(left), left == 0)
  }

  /** The game-over flags raised by `n` successive increments, in order. */
  function Run(b: Bomb, n: nat): (fired: seq<bool>)
    ensures |fired| == n
    decreases n
  {
    if n == 0 then []
    else
      var t := OnMovementIncremented(b);
      [t.gameOver] + Run(t.bomb, n - 1)
  }

  /** The countdown after `n` successive increments. */
  function After(b: Bomb, n: nat): Bomb
    decreases n
  {
    if n == 0 then b else After(OnMovementIncremented(b).bomb, n - 1)
  }

  /** Each increment takes exactly one from the count; there is no lower bound. */
  lemma {:induction false} AfterCountsDown(b: Bomb, n: nat)
    ensures After(b, n).remaining == b.remaining - n
    decreases n
  {
    if n > 0 {
      AfterCountsDown(OnMovementIncremented(b).bomb, n - 1);
    }
  }

  /** The k-th increment (counting from 0) fires game over exactly when k + 1 moves were left. */
  lemma {:induction false} RunFires(b: Bomb, n: nat, k: nat)
    requires k < n
    ensures Run(b, n)[k] <==> b.remaining == k + 1
    decreases k
  {
    var t := OnMovementIncremented(b);
    assert Run(b, n) == [t.gameOver] + Run(t.bomb, n - 1);
    if k > 0 {
      RunFires(t.bomb, n - 1, k - 1);
    }
  }

  /**
   * A freshly initialised bomb calls game over on exactly the `limit`-th increment and on no
   * other; later increments drive the count negative and never fire again.
   */
  lemma {:induction false} GameOverExactlyAtLimit(limit: int, n: nat)
    ensures forall k :: 0 <= k < n ==> (Run(Init(limit), n)[k] <==> k + 1 == limit)
  {
    forall k | 0 <= k < n
      ensures Run(Init(limit), n)[k] <==> k + 1 == limit
    {
      RunFires(Init(limit), n, k);
    }
  }

  /** Two different increments of one run never both fire game over. */
  lemma {:induction false} GameOverAtMostOnce(b: Bomb, n: nat, i: nat, j: nat)
    requires i < j < n
    ensures !(Run(b, n)[i] && Run(b, n)[j])
  {
    RunFires(b, n, i);
    RunFires(b, n, j);
  }
}

=== FILE: cells.dfy ===
/** Basic vocabulary shared by the board engine: optional cell contents and grid coordinates. */
module Cells {

  /** An optional value; `None` is the code's `null` reference. */
  datatype Option<+T> = None | Some(value: T)

  /** A grid, socket or dot coordinate (`Vector2Int` in the game). */
  datatype Coord = Coord(x: int, y: int)

  /** `c` addresses a cell of a `width` by `height` array. */
  predicate InBounds(c: Coord, width: int, height: int)
  {
    0 <= c.x < width && 0 <= c.y < height
  }

  /** The three coordinates of a triple are pairwise different. */
  predicate Distinct3(t: seq<Coord>)
    requires |t| == 3
  {
    t[0] != t[1] && t[1] != t[2] && t[0] != t[2]
  }
}

=== FILE: controller.dfy ===
/**
 * The input controller (`BoardController`): touch selects a dot, a swipe turns the selected
 * dot up to three times in one direction until the scan finds a match, then explodes it and
 * runs the cascade. The coroutine's waits are collapsed: a rotation runs to its end, and the
 * falling tiles land (`Boards.Settle`), before the next step. The events the controller
 * raises are tallied: `score` sums the points of `ScoreEvent`, `movements` counts
 * `MovementEvent`.
 *
 * The board is the one the code leaves behind: turns cycle the triad's cells without touching
 * the tile records, and explosions run the unguarded compaction on those records.
 */
module Controller {
  import opened Cells
  import opened Boards
  import Dots
  import Triads
  import Matching
  import Rotation
  import Explosion

  /** `_rotationTime`: the most turns one swipe makes. */
  const RotationTime: int := 3

  /** The points `OnHexExploded` reports for one exploded tile. */
  const ScorePerHex: int := 15

  /**
   * The controller's fields and the board and dots it drives. `selected` is
   * `_lastSelectedDot`, by its dot-grid coordinate; `fault` is the exception that stopped the
   * swipe coroutine, if one did (a stopped coroutine never reaches its closing assignments);
   * `stack` is how many nested calls the runtime's stack admits.
   */
  datatype Game = Game(
    board: Board,
    dots: map<Coord, Dots.Dot>,
    selected: Option<Coord>,
    isBoardChanging: bool,
    lastClockwise: bool,
    rotationCounter: int,
    isGameOver: bool,
    score: int,
    movements: nat,
    fault: Option<Explosion.Fault>,
    stack: nat)

  /** The selected dot, and only it, has its selection flag set. */
  predicate SelectionAgrees(g: Game)
  {
    (g.selected.Some? ==> g.selected.value in g.dots)
    && forall c :: c in g.dots ==> (g.dots[c].isSelected <==> g.selected == Some(c))
  }

  /** Every dot sits at its own coordinate of the dot grid and is at rest. */
  predicate DotsAtRest(g: Game)
  {
    forall c :: c in g.dots ==>
      Triads.ValidDot(g.board.width, g.board.height, c.x, c.y)
      && g.dots[c].x == c.x && g.dots[c].y == c.y && !g.dots[c].isRotating
  }

  /**
   * What holds between inputs: every tile records a cell of the array, the dots and the
   * selection are consistent, and unless a swipe is (or is stuck) in progress the board is
   * full, its indices agree, it holds no match, and the counter is reset.
   */
  predicate Consistent(g: Game)
  {
    Anchored(g.board) && g.board.width >= 2 && DotsAtRest(g) && SelectionAgrees(g)
    && (g.isBoardChanging ||
        (Full(g.board) && IndicesAgree(g.board) && Matching.FindMatches(g.board) == []
         && g.rotationCounter == 0 && g.fault.None?))
  }

  /** The controller right after `Init`, over a generated board and its dots. */
  function Start(b: Board, dots: map<Coord, Dots.Dot>, stack: nat): (g: Game)
    ensures !g.isBoardChanging && !g.isGameOver && g.selected.None? && g.score == 0 && g.movements == 0
    ensures g.board == b && g.dots == dots && g.stack == stack && g.fault.None? && g.rotationCounter == 0
  {
    Game(b, dots, None, false, false, 0, false, 0, 0, None, stack)
  }

  /**
   * `OnTouch` with the dot the circle cast picked (`None` when it picked none): ignored while
   * the game is over or the board is changing; otherwise the previously selected dot is
   * deselected and the touched dot becomes the selection. The code's guard at
   * BoardController.cs:76 compares a `GameObject` with a `DotBehaviour`, which are never the
   * same object, so it deselects even the touched dot itself (or, with no selection, the touched
   * dot). Deselecting and then selecting a dot leaves it as selecting alone does, so only the
   * deselection event differs, and events are not modelled: the model deselects another dot only.
   */
  function OnTouch(g: Game, touched: Option<Coord>): (r: Game)
    requires g.selected.Some? ==> g.selected.value in g.dots
    requires touched.Some? ==> touched.value in g.dots
    ensures g.isGameOver || g.isBoardChanging || touched.None? ==> r == g
    ensures Consistent(g) ==> Consistent(r)
    ensures r.board == g.board && r.dots.Keys == g.dots.Keys && r.isBoardChanging == g.isBoardChanging
    ensures r.isGameOver == g.isGameOver
    ensures !(g.isGameOver || g.isBoardChanging || touched.None?) ==>
      r.selected == touched && r.dots[touched.value].isSelected
    ensures SelectionAgrees(g) ==> SelectionAgrees(r)
  {
    if g.isGameOver || g.isBoardChanging || touched.None? then g
    else
      var c := touched.value;
      var last := if g.selected.None? then c else g.selected.value;
      var dots := if c != last then g.dots[last := Dots.Deselect(g.dots[last])] else g.dots;
      g.(dots := dots[c := Dots.Select(dots[c])], selected := Some(c))
  }

  /** The score went from `before` to `after` by whole tiles' worth of points. */
  predicate Scored(before: int, after: int)
  {
    after >= before && (after - before) % ScorePerHex == 0
  }

  /** Points for whole tiles, added in two steps, are points for whole tiles. */
  lemma {:induction false} ScoredTransitive(a: int, b: int, c: int)
    requires Scored(a, b) && Scored(b, c)
    ensures Scored(a, c)
  {
    var k1, k2 := (b - a) / ScorePerHex, (c - b) / ScorePerHex;
    assert b - a == ScorePerHex * k1;
    assert c - b == ScorePerHex * k2;
    assert c - a == ScorePerHex * (k1 + k2);
    WholeTiles(k1 + k2);
  }

  /** Points for `k` tiles are whole tiles' worth. */
  lemma {:induction false} WholeTiles(k: int)
    ensures (ScorePerHex * k) % ScorePerHex == 0
  {
  }

  /** The state `Attempts` works on: a full board, a selected dot at rest, a counter in range. */
  predicate Turnable(g: Game)
  {
    Anchored(g.board) && Full(g.board) && g.board.width >= 2 && DotsAtRest(g)
    && g.selected.Some? && g.selected.value in g.dots
    && 0 <= g.rotationCounter <= RotationTime
  }

  /**
   * `r` comes from `g` by turns of the selected dot, explosions and, possibly, the end of the
   * game: the flags, every other dot and the board's shape are as they were, the dots are at
   * rest, and either the selection is as it was or `OnGameOver` dropped it.
   */
  predicate Follows(g: Game, r: Game)
  {
    r.isBoardChanging == g.isBoardChanging && r.lastClockwise == g.lastClockwise && r.stack == g.stack
    && Anchored(r.board) && r.board.width == g.board.width && r.board.height == g.board.height
    && DotsAtRest(r) && r.dots.Keys == g.dots.Keys
    && (forall c :: c in g.dots && Some(c) != g.selected ==> r.dots[c] == g.dots[c])
    && ((r.selected == g.selected && r.isGameOver == g.isGameOver
         && forall c :: c in g.dots ==> r.dots[c].isSelected == g.dots[c].isSelected)
        || (r.selected.None? && r.isGameOver
            && forall c :: c in g.dots ==> r.dots[c].isSelected == (g.dots[c].isSelected && Some(c) != g.selected)))
  }

  /** Following a game keeps its selection consistent, and a game once over stays over. */
  lemma {:induction false} FollowsKeepsSelection(g: Game, r: Game)
    requires Follows(g, r) && SelectionAgrees(g)
    ensures SelectionAgrees(r)
    ensures g.isGameOver ==> r.isGameOver
  {
  }

  /** The attempt loop's result, with its `flag` and the number of turns it made. */
  datatype Attempted = Attempted(game: Game, matched: bool, turns: nat)

  /** A dot of the dot grid, at rest, over a full board of two or more columns whose tiles record cells of the array. */
  predicate Spinnable(b: Board, d: Dots.Dot)
  {
    Anchored(b) && Full(b) && b.width >= 2 && Triads.ValidDot(b.width, b.height, d.x, d.y) && !d.isRotating
  }

  /**
   * The first half of one pass of the attempt loop: `Board.RotateDot` on the selected dot,
   * then the wait until its turn has ended. The triad of a full board is filled, so neither
   * half throws; the board is the as-written turn of the dot's triad and the dot has turned a
   * third of a turn and come to rest.
   */
  function Turn(b: Board, d: Dots.Dot, clockwise: bool): (t: Rotation.Turned)
    requires Spinnable(b, d)
    ensures Spinnable(t.board, t.dot) && !t.thrown
    ensures t.board == Rotation.Turns(b, d.x, d.y, clockwise, 1)
    ensures t.dot.x == d.x && t.dot.y == d.y && t.dot.isSelected == d.isSelected
    ensures t.dot.angle == d.angle + Dots.AngleOffset(clockwise)
  {
    Rotation.FullTriadFilled(b, d.x, d.y);
    Rotation.RotateDotTurnsTriad(b, d, clockwise);
    Rotation.RotateKeepsFull(b, d.x, d.y, clockwise);
    Rotation.RotateKeepsAnchored(b, d.x, d.y, clockwise);
    Rotation.FinishRotation(b, Rotation.StartRotation(b, d, clockwise).value)
  }

  /**
   * The attempt loop's turns: the board and the dot, the counter, whether the last scan found
   * a match, how many turns were made, and the boards it passed through, first to last.
   */
  datatype Spun = Spun(board: Board, dot: Dots.Dot, counter: int, matched: bool, turns: nat, trail: seq<Board>)

  /** Each board of `trail` after the first is the one before it turned once about dot (dx, dy). */
  predicate Chain(trail: seq<Board>, dx: int, dy: int, clockwise: bool)
    decreases |trail|
  {
    && |trail| >= 1 && WellFormed(trail[0]) && Triads.ValidDot(trail[0].width, trail[0].height, dx, dy)
    && (|trail| > 1 ==> trail[1] == Rotation.Turns(trail[0], dx, dy, clockwise, 1) && Chain(trail[1..], dx, dy, clockwise))
  }

  /** The last board of a chain of `n + 1` boards is the first one `n` turns on. */
  lemma {:induction false} ChainTurns(trail: seq<Board>, dx: int, dy: int, clockwise: bool, n: nat)
    requires Chain(trail, dx, dy, clockwise) && n == |trail| - 1
    ensures trail[n] == Rotation.Turns(trail[0], dx, dy, clockwise, n)
    decreases n
  {
    if n == 0 {
      assert Rotation.Turns(trail[0], dx, dy, clockwise, 0) == trail[0];
    } else {
      var rest, m := trail[1..], n - 1;
      ChainTurns(rest, dx, dy, clockwise, m);
      assert rest[m] == trail[n] && rest[0] == trail[1];
      TurnsAfterOne(trail[0], dx, dy, clockwise, m);
    }
  }

  /**
   * The turns of the attempt loop: while the counter is below `_rotationTime`, turn the dot
   * and scan; the first scan that finds a match stops the loop on the board it scanned, and
   * an empty scan counts the turn. The loop ends on the board and the dot as many turns on as
   * it made: one more than it counted when it matched, the rest of the count otherwise.
   * `trail` holds every board the loop passed through; `SpinStopsAtFirstMatch` proves that
   * when the loop stops early, no turn before its last one made a match.
   */
  function Spin(b: Board, d: Dots.Dot, clockwise: bool, counter: int): (s: Spun)
    requires Spinnable(b, d) && 0 <= counter <= RotationTime
    ensures Spinnable(s.board, s.dot)
    ensures s.dot.x == d.x && s.dot.y == d.y && s.dot.isSelected == d.isSelected
    ensures counter <= s.counter <= RotationTime
    ensures s.matched <==> s.counter < RotationTime
    ensures s.matched ==> Matching.FindMatches(s.board) != [] && s.turns == s.counter - counter + 1
    ensures !s.matched ==> s.turns == RotationTime - counter
    ensures s.dot.angle == d.angle + s.turns * Dots.AngleOffset(clockwise)
    ensures !s.matched <==> NoMatchWithin(b, d.x, d.y, clockwise, RotationTime - counter)
    ensures |s.trail| == s.turns + 1 && s.trail[0] == b && s.trail[s.turns] == s.board
    ensures Chain(s.trail, d.x, d.y, clockwise)
    decreases RotationTime - counter
  {
    if counter == RotationTime then
      Spun(b, d, counter, false, 0, [b])
    else
      NoMatchWithinStep(b, d.x, d.y, clockwise, RotationTime - counter, RotationTime - (counter + 1));
      var t := Turn(b, d, clockwise);
      if Matching.FindMatches(t.board) != [] then
        assert [b, t.board][1..] == [t.board];
        Spun(t.board, t.dot, counter, true, 1, [b, t.board])
      else
        var s := Spin(t.board, t.dot, clockwise, counter + 1);
        AngleStep(d.angle, t.dot.angle, s.dot.angle, s.turns, Dots.AngleOffset(clockwise));
        assert ([b] + s.trail)[1..] == s.trail;
        Spun(s.board, s.dot, s.counter, s.matched, s.turns + 1, [b] + s.trail)
  }

  /**
   * The attempt loop stops at the first match: when it stops early after `turns` turns,
   * none of the turns before the last one made a match.
   */
  lemma {:induction false} SpinStopsAtFirstMatch(b: Board, d: Dots.Dot, clockwise: bool, counter: int)
    requires Spinnable(b, d) && 0 <= counter <= RotationTime
    ensures var s := Spin(b, d, clockwise, counter);
      s.matched ==> NoMatchWithin(b, d.x, d.y, clockwise, s.turns - 1)
    decreases RotationTime - counter
  {
    if counter < RotationTime {
      var t := Turn(b, d, clockwise);
      if Matching.FindMatches(t.board) == [] {
        SpinStopsAtFirstMatch(t.board, t.dot, clockwise, counter + 1);
        var s := Spin(t.board, t.dot, clockwise, counter + 1);
        assert Spin(b, d, clockwise, counter).turns == s.turns + 1;
        if s.matched {
          NoMatchWithinStep(b, d.x, d.y, clockwise, s.turns, s.turns - 1);
        }
      } else {
        assert Spin(b, d, clockwise, counter).turns == 1;
      }
    }
  }

  /** One more turn of `offset` after `n` of them is `n + 1` of them. */
  lemma {:induction false} AngleStep(a0: int, a1: int, a2: int, n: nat, offset: int)
    requires a1 == a0 + offset && a2 == a1 + n * offset
    ensures a2 == a0 + (n + 1) * offset
  {
  }

  /**
   * `ExplodeMatches`, as written, on the game's board; each exploded tile raises one score
   * event, so a list scores at most its length in tiles, and exactly that when it is clean
   * (every cell in the array and holding a tile, none listed twice). It returns normally only on a clean
   * list clear of the top row, and then leaves an empty cell unless the list is empty.
   */
  function ExplodeFound(g: Game, ms: seq<Coord>): (r: Game)
    requires Anchored(g.board)
    ensures r == g.(board := r.board, score := r.score, fault := r.fault)
    ensures r.score <= g.score + ScorePerHex * |ms|
    ensures r.score == g.score + ScorePerHex * |ms| <==> Explosion.Clean(g.board, ms)
    ensures Anchored(r.board) && r.board.width == g.board.width && r.board.height == g.board.height
    ensures Scored(g.score, r.score)
    ensures r.fault.None? ==> Explosion.Clean(g.board, ms) && Explosion.BelowTop(g.board, ms)
    ensures ms != [] && r.fault.None? ==> !Full(r.board)
    ensures ms == [] ==> r == g.(fault := None)
  {
    var o := Explosion.ExplodeMatchesAsWritten(g.board, ms, g.stack);
    Explosion.ExplodeMatchesAsWrittenEffect(g.board, ms, g.stack);
    AfterExplosion(g.board, ms, g.stack);
    WholeTiles(o.exploded);
    g.(board := o.board, score := g.score + ScorePerHex * o.exploded, fault := o.fault)
  }

  /** An empty list explodes nothing and changes nothing. */
  lemma {:induction false} AfterExplosion(b: Board, ms: seq<Coord>, stack: nat)
    requires Anchored(b)
    ensures ms == [] ==> Explosion.ExplodeMatchesAsWritten(b, ms, stack) == Explosion.Outcome(b, 0, None)
  {
  }

  /**
   * The turns of the attempt loop on the game: the selected dot's turns, with the board, the
   * dot and the counter they leave, and whether the last scan found a match.
   */
  function SpinSelected(g: Game, clockwise: bool): (a: Attempted)
    requires Turnable(g)
    ensures a.game == g.(board := a.game.board, dots := a.game.dots, rotationCounter := a.game.rotationCounter)
    ensures Follows(g, a.game) && Full(a.game.board) && a.game.board.hexes == g.board.hexes
    ensures g.rotationCounter <= a.game.rotationCounter <= RotationTime
    ensures a.matched <==> a.game.rotationCounter < RotationTime
    ensures a.matched ==> Matching.FindMatches(a.game.board) != [] && a.game.board.height >= 2
    ensures a.matched ==> a.turns == a.game.rotationCounter - g.rotationCounter + 1
    ensures !a.matched ==> a.turns == RotationTime - g.rotationCounter
    ensures var c := g.selected.value; a.game.board == Rotation.Turns(g.board, c.x, c.y, clockwise, a.turns)
    ensures var c := g.selected.value;
      !a.matched ==> a.game.board == Rotation.Turns(g.board, c.x, c.y, clockwise, RotationTime - g.rotationCounter)
    ensures var c := g.selected.value; a.game.dots[c].angle == g.dots[c].angle + a.turns * Dots.AngleOffset(clockwise)
    ensures var c := g.selected.value;
      !a.matched <==> NoMatchWithin(g.board, c.x, c.y, clockwise, RotationTime - g.rotationCounter)
  {
    var c := g.selected.value;
    var s := Spin(g.board, g.dots[c], clockwise, g.rotationCounter);
    var g1 := g.(board := s.board, dots := g.dots[c := s.dot], rotationCounter := s.counter);
    ChainTurns(s.trail, c.x, c.y, clockwise, s.turns);
    TurnedFollows(g, s.board, s.dot, s.counter);
    if s.matched then
      Matching.FindMatchesNeedsTwoRows(s.board);
      Attempted(g1, true, s.turns)
    else
      ChainTurns(s.trail, c.x, c.y, clockwise, RotationTime - g.rotationCounter);
      Attempted(g1, false, s.turns)
  }

  /** The attempt loop on the game stops at the first turn of the selected dot that makes a match. */
  lemma {:induction false} SpinSelectedStopsAtFirstMatch(g: Game, clockwise: bool)
    requires Turnable(g)
    ensures var a, c := SpinSelected(g, clockwise), g.selected.value;
      a.matched ==> NoMatchWithin(g.board, c.x, c.y, clockwise, a.turns - 1)
  {
    var c := g.selected.value;
    SpinStopsAtFirstMatch(g.board, g.dots[c], clockwise, g.rotationCounter);
  }

  /** Replacing the board by one of the same shape and the selected dot by a turned copy of it at rest follows the game. */
  lemma {:induction false} TurnedFollows(g: Game, b: Board, d: Dots.Dot, counter: int)
    requires Turnable(g)
    requires Anchored(b) && b.width == g.board.width && b.height == g.board.height
    requires var c := g.selected.value; d.x == c.x && d.y == c.y && d.isSelected == g.dots[c].isSelected && !d.isRotating
    ensures Follows(g, g.(board := b, dots := g.dots[g.selected.value := d], rotationCounter := counter))
  {
  }

  /**
   * The attempt loop of the `RotateDot` coroutine on the selected dot: its turns, and then,
   * if the last scan found matches, their explosion and one movement event. `fires` says
   * whether that movement event, passed on to the tiles, brings a bomb's countdown to zero.
   */
  function Attempts(g: Game, clockwise: bool, fires: bool): (a: Attempted)
    requires Turnable(g)
    ensures a.game == g.(board := a.game.board, dots := a.game.dots, rotationCounter := a.game.rotationCounter,
                         score := a.game.score, movements := a.game.movements, fault := a.game.fault,
                         selected := a.game.selected, isGameOver := a.game.isGameOver)
    ensures Follows(g, a.game)
    ensures g.rotationCounter <= a.game.rotationCounter <= RotationTime
    ensures !a.matched ==>
      && a.game.rotationCounter == RotationTime && a.game.fault == g.fault && Full(a.game.board)
      && a.game.score == g.score && a.game.movements == g.movements
      && a.game.selected == g.selected && a.game.isGameOver == g.isGameOver
    ensures var c := g.selected.value;
      !a.matched ==>
        a.turns == RotationTime - g.rotationCounter
        && a.game.board == Rotation.Turns(g.board, c.x, c.y, clockwise, RotationTime - g.rotationCounter)
    ensures a.matched ==>
      && a.game.rotationCounter < RotationTime && a.game.board.height >= 2
      && Scored(g.score, a.game.score)
      && (a.game.fault.None? ==> a.game.movements == g.movements + 1 && !Full(a.game.board))
      && (a.game.fault.Some? ==> a.game.movements == g.movements)
    ensures a.game.isGameOver <==> g.isGameOver || (a.matched && fires && a.game.fault.None?)
    ensures !fires ==> a.game.selected == g.selected
    ensures a.matched == SpinSelected(g, clockwise).matched
  {
    var s := SpinSelected(g, clockwise);
    if s.matched then Attempted(ExplodeTurned(s.game, Matching.FindMatches(s.game.board), fires), true, s.turns)
    else s
  }

  /** The matches the attempt loop explodes are those of the first turn that makes any. */
  lemma {:induction false} AttemptsStopAtFirstMatch(g: Game, clockwise: bool, fires: bool)
    requires Turnable(g)
    ensures var a, c := Attempts(g, clockwise, fires), g.selected.value;
      a.matched ==> NoMatchWithin(g.board, c.x, c.y, clockwise, a.turns - 1)
  {
    SpinSelectedStopsAtFirstMatch(g, clockwise);
  }

  /**
   * The matching pass of the attempt loop: the matches explode and, if that returns, one
   * movement event is raised; when it makes a bomb fire, `OnGameOver` runs before the
   * coroutine goes on.
   */
  function ExplodeTurned(g: Game, ms: seq<Coord>, fires: bool): (r: Game)
    requires Anchored(g.board) && DotsAtRest(g) && ms != [] && g.selected.Some? && g.selected.value in g.dots
    ensures r == g.(board := r.board, score := r.score, movements := r.movements, fault := r.fault,
                    dots := r.dots, selected := r.selected, isGameOver := r.isGameOver)
    ensures Follows(g, r) && Scored(g.score, r.score)
    ensures r.fault.None? ==> r.movements == g.movements + 1 && !Full(r.board)
    ensures r.fault.Some? ==> r.movements == g.movements
    ensures r.isGameOver <==> g.isGameOver || (fires && r.fault.None?)
    ensures !(fires && r.fault.None?) ==> r.selected == g.selected && r.dots == g.dots
  {
    var r := ExplodeFound(g, ms);
    if r.fault.Some? then r
    else
      var moved := r.(movements := r.movements + 1);
      if fires then OnGameOver(moved) else moved
  }

  /** `Board.FindMatches` as it behaves on any board: an empty cell the scan reaches throws. */
  datatype Scan = Found(matches: seq<Coord>) | Thrown(fault: Explosion.Fault)

  /**
   * The scan of a board of two or more columns: it reads every cell when there are two or
   * more rows, so it throws on a board with an empty cell, and otherwise lists the matches.
   */
  function ScanBoard(b: Board): (s: Scan)
    requires WellFormed(b) && b.width >= 2
    ensures s.Found? <==> Matching.Scannable(b)
    ensures s.Thrown? ==> b.height >= 2 && !Full(b)
    ensures s.Found? ==> s.matches == Matching.FindMatches(b)
  {
    if Matching.Scannable(b) then Found(Matching.FindMatches(b)) else Thrown(Explosion.NullReference)
  }

  /**
   * The cascade: wait for the tiles to land, scan, explode what the scan found, and repeat
   * while the scan found something. An exception stops it where it is.
   */
  function Cascade(g: Game): (r: Game)
    requires Anchored(g.board) && g.board.width >= 2
    ensures r == g.(board := r.board, score := r.score, fault := r.fault)
    ensures Anchored(r.board) && r.board.width == g.board.width && r.board.height == g.board.height
    ensures Scored(g.score, r.score)
    ensures r.fault.None? ==> Matching.Scannable(r.board) && Matching.FindMatches(r.board) == []
    decreases if Full(g.board) then 1 else 0
  {
    var b := Settle(g.board);
    SettleKeepsIndices(g.board);
    match ScanBoard(b)
    case Thrown(f) => g.(board := b, fault := Some(f))
    case Found(ms) =>
      var g1 := ExplodeFound(g.(board := b), ms);
      if g1.fault.Some? || ms == [] then g1
      else
        Matching.FindMatchesNeedsTwoRows(b);
        var r := Cascade(g1);
        ScoredTransitive(g.score, g1.score, r.score);
        r
  }

  /**
   * A cascade that starts on a board with an empty cell and two or more rows throws at its
   * first scan, whatever the tiles record, and leaves the array as it was.
   */
  lemma {:induction false} CascadeThrows(g: Game)
    requires Anchored(g.board) && g.board.width >= 2 && g.board.height >= 2 && !Full(g.board)
    ensures Cascade(g).fault == Some(Explosion.NullReference)
    ensures Cascade(g).board.cells == g.board.cells
  {
    var b := Settle(g.board);
    assert !Full(b);
  }

  /**
   * The `RotateDot` coroutine: the board is marked as changing, the attempt loop runs, the
   * cascade follows a match, and only a run that no exception stopped clears the flag and
   * the counter. A run that found no match ends on the board three turns from where the
   * counter stood. Nothing in the attempt loop reads the flag, so it is set here once the
   * loop is done.
   */
  function RotateDot(g: Game, clockwise: bool, fires: bool): (r: Game)
    requires Turnable(g)
    ensures Follows(g.(isBoardChanging := r.isBoardChanging), r)
    ensures r.fault.None? <==> !r.isBoardChanging
    ensures r.fault.None? ==> r.rotationCounter == 0
    ensures r.movements <= g.movements + 1 && Scored(g.score, r.score)
    ensures !fires ==> r.selected == g.selected && r.isGameOver == g.isGameOver
  {
    var a := Attempts(g, clockwise, fires);
    var r := Conclude(a.game.(isBoardChanging := true), a.matched);
    ScoredTransitive(g.score, a.game.score, r.score);
    ConcludeFollows(g, a.game, r);
    r
  }

  /**
   * A run of the coroutine that makes a match within the turns left stops on an exception;
   * one that makes none keeps the fault it started with.
   */
  lemma {:induction false} RotateDotFault(g: Game, clockwise: bool, fires: bool)
    requires Turnable(g)
    ensures var r, c := RotateDot(g, clockwise, fires), g.selected.value;
      && (!NoMatchWithin(g.board, c.x, c.y, clockwise, RotationTime - g.rotationCounter) ==> r.fault.Some?)
      && (NoMatchWithin(g.board, c.x, c.y, clockwise, RotationTime - g.rotationCounter) ==> r.fault == g.fault)
  {
    var a := Attempts(g, clockwise, fires);
    assert a.matched == SpinSelected(g, clockwise).matched;
  }

  /** A run of the coroutine that no exception stopped ends on the board its remaining turns leave. */
  lemma {:induction false} RotateDotBoard(g: Game, clockwise: bool, fires: bool)
    requires Turnable(g)
    ensures var r, c := RotateDot(g, clockwise, fires), g.selected.value;
      r.fault.None? ==> r.board == Rotation.Turns(g.board, c.x, c.y, clockwise, RotationTime - g.rotationCounter)
  {
    var a := Attempts(g, clockwise, fires);
    assert RotateDot(g, clockwise, fires) == Conclude(a.game.(isBoardChanging := true), a.matched);
  }

  /** The closing steps of the coroutine change only the board, the tallies and the flags a run keeps. */
  lemma {:induction false} ConcludeFollows(g: Game, m: Game, r: Game)
    requires Follows(g, m)
    requires r == m.(board := r.board, score := r.score, fault := r.fault,
                     isBoardChanging := r.isBoardChanging, rotationCounter := r.rotationCounter)
    requires Anchored(r.board) && r.board.width == m.board.width && r.board.height == m.board.height
    ensures Follows(g.(isBoardChanging := r.isBoardChanging), r)
  {
  }

  /**
   * The rest of the coroutine after the attempt loop: the cascade if the loop found a match,
   * then, unless an exception stopped it, the closing assignments. A match always ends in an
   * exception, because nothing refills the emptied cells.
   */
  function Conclude(g: Game, matched: bool): (r: Game)
    requires Anchored(g.board) && g.board.width >= 2 && DotsAtRest(g) && g.isBoardChanging
    requires matched ==> g.board.height >= 2 && (g.fault.None? ==> !Full(g.board))
    ensures r == g.(board := r.board, score := r.score, fault := r.fault,
                    isBoardChanging := r.isBoardChanging, rotationCounter := r.rotationCounter)
    ensures Anchored(r.board) && r.board.width == g.board.width && r.board.height == g.board.height
    ensures r.fault.None? <==> !r.isBoardChanging
    ensures r.fault.None? ==> r.rotationCounter == 0 && r.board == g.board
    ensures matched ==> r.fault.Some?
    ensures !matched ==> r.fault == g.fault
    ensures Scored(g.score, r.score)
  {
    var g1 :=
      if matched && g.fault.None? then
        CascadeThrows(g);
        Cascade(g)
      else g;
    if g1.fault.Some? then g1 else g1.(isBoardChanging := false, rotationCounter := 0)
  }

  /**
   * `OnSwipe` with the direction the swipe's signed angle gives: ignored while the game is
   * over, the board is changing or no dot is selected; otherwise the counter is reset, the
   * direction recorded and the coroutine started. `fires` is as for `Attempts`.
   */
  function OnSwipe(g: Game, clockwise: bool, fires: bool): (r: Game)
    requires Consistent(g)
    ensures g.isGameOver || g.isBoardChanging || g.selected.None? ==> r == g
    ensures Consistent(r) && r.dots.Keys == g.dots.Keys
    ensures g.isGameOver ==> r.isGameOver
    ensures !fires ==> r.isGameOver == g.isGameOver && r.selected == g.selected
  {
    if g.isGameOver || g.isBoardChanging || g.selected.None? then g
    else
      var g0 := g.(rotationCounter := 0, lastClockwise := clockwise);
      var r := RotateDot(g0, clockwise, fires);
      var c := g.selected.value;
      FollowsKeepsSelection(g0.(isBoardChanging := r.isBoardChanging), r);
      RotateDotBoard(g0, clockwise, fires);
      Rotation.TurnsThrice(g.board, c.x, c.y, clockwise);
      r
  }

  /**
   * `OnGameOver`: the selected dot is deselected, the selection dropped and the game marked
   * over. With no selection its first statement dereferences null and throws before any
   * assignment, so nothing changes and the game is not marked over.
   */
  function OnGameOver(g: Game): (r: Game)
    requires g.selected.Some? ==> g.selected.value in g.dots
    ensures r.board == g.board && r.dots.Keys == g.dots.Keys
    ensures g.selected.None? ==> r == g
    ensures g.selected.Some? ==> r.isGameOver && r.selected.None? && !r.dots[g.selected.value].isSelected
    ensures forall c :: c in g.dots && Some(c) != g.selected ==> r.dots[c] == g.dots[c]
    ensures r == g.(dots := r.dots, selected := r.selected, isGameOver := r.isGameOver)
  {
    match g.selected
    case None => g
    case Some(c) => g.(dots := g.dots[c := Dots.Deselect(g.dots[c])], selected := None, isGameOver := true)
  }

  /**
   * The inputs the controller receives: a touch that picked a dot or none, a swipe in a
   * direction, with whether its movement event would make a bomb fire.
   */
  datatype Input = Touch(dot: Option<Coord>) | Swipe(clockwise: bool, fires: bool)

  /** Every touch picks a dot of the game. */
  predicate Picks(g: Game, inputs: seq<Input>)
  {
    forall i :: 0 <= i < |inputs| && inputs[i].Touch? && inputs[i].dot.Some? ==> inputs[i].dot.value in g.dots
  }

  /** No swipe's movement event makes a bomb fire. */
  predicate Quiet(inputs: seq<Input>)
  {
    forall i :: 0 <= i < |inputs| && inputs[i].Swipe? ==> !inputs[i].fires
  }

  /** The inputs after the first still pick dots of a game with the same dots, and stay quiet. */
  lemma {:induction false} RestPicks(g: Game, g1: Game, inputs: seq<Input>)
    requires inputs != [] && Picks(g, inputs) && g1.dots.Keys == g.dots.Keys
    ensures Picks(g1, inputs[1..])
    ensures Quiet(inputs) ==> Quiet(inputs[1..]) && (inputs[0].Swipe? ==> !inputs[0].fires)
  {
    forall i | 0 <= i < |inputs[1..]| && inputs[1..][i].Touch? && inputs[1..][i].dot.Some?
      ensures inputs[1..][i].dot.value in g1.dots
    {
      assert inputs[1..][i] == inputs[i + 1];
    }
    if Quiet(inputs) {
      forall i | 0 <= i < |inputs[1..]| && inputs[1..][i].Swipe?
        ensures !inputs[1..][i].fires
      {
        assert inputs[1..][i] == inputs[i + 1];
      }
    }
  }

  /**
   * The controller fed a sequence of inputs, one handler call after the other. A game once
   * over stays over, and only a swipe whose movement event makes a bomb fire ends it.
   */
  function Run(g: Game, inputs: seq<Input>): (r: Game)
    requires Consistent(g) && Picks(g, inputs)
    ensures Consistent(r) && r.dots.Keys == g.dots.Keys
    ensures g.isGameOver ==> r.isGameOver
    ensures Quiet(inputs) ==> r.isGameOver == g.isGameOver
    decreases |inputs|
  {
    if inputs == [] then g
    else
      var g1 := match inputs[0]
        case Touch(t) => OnTouch(g, t)
        case Swipe(cw, fires) => OnSwipe(g, cw, fires);
      RestPicks(g, g1, inputs);
      Run(g1, inputs[1..])
  }

  /**
   * A controller whose game is over, or whose board is changing (a swipe in progress, or one
   * an exception stopped), ignores every touch and swipe: nothing changes, whatever comes.
   */
  lemma {:induction false} BusyIgnoresInput(g: Game, inputs: seq<Input>)
    requires Consistent(g) && Picks(g, inputs) && (g.isGameOver || g.isBoardChanging)
    ensures Run(g, inputs) == g
  {
    if inputs != [] {
      RestPicks(g, g, inputs);
      BusyIgnoresInput(g, inputs[1..]);
    }
  }

  /**
   * After `OnGameOver` on a controller with a selection, the game is over, no dot is
   * selected, and every later touch and swipe is ignored.
   */
  lemma {:induction false} GameOverIsFinal(g: Game, inputs: seq<Input>)
    requires Consistent(g) && g.selected.Some? && Picks(g, inputs)
    ensures var r := OnGameOver(g);
      && r.isGameOver && r.selected.None? && Consistent(r)
      && (forall c :: c in r.dots ==> !r.dots[c].isSelected)
      && Run(r, inputs) == r
  {
    var r := OnGameOver(g);
    assert Consistent(r);
    BusyIgnoresInput(r, inputs);
  }

  /** None of the first `n` turns of the triad of dot (dx, dy) leaves a board with a match. */
  predicate NoMatchWithin(b: Board, dx: int, dy: int, clockwise: bool, n: int)
    requires Full(b) && b.width >= 2 && Triads.ValidDot(b.width, b.height, dx, dy)
  {
    forall k :: 1 <= k <= n ==> Matching.FindMatches(Rotation.Turns(b, dx, dy, clockwise, k)) == []
  }

  /** No match within `n` turns: none after the first turn, and none within `n - 1` turns of the turned board. */
  lemma {:induction false} NoMatchWithinStep(b: Board, dx: int, dy: int, clockwise: bool, n: int, m: int)
    requires Full(b) && b.width >= 2 && Triads.ValidDot(b.width, b.height, dx, dy)
    requires n >= 1 && m == n - 1
    ensures Full(Rotation.Turns(b, dx, dy, clockwise, 1))
    ensures NoMatchWithin(b, dx, dy, clockwise, n) <==>
      Matching.FindMatches(Rotation.Turns(b, dx, dy, clockwise, 1)) == []
      && NoMatchWithin(Rotation.Turns(b, dx, dy, clockwise, 1), dx, dy, clockwise, m)
  {
    var b1 := Rotation.Turns(b, dx, dy, clockwise, 1);
    forall k | 1 <= k <= n
      ensures Rotation.Turns(b, dx, dy, clockwise, k) == Rotation.Turns(b1, dx, dy, clockwise, k - 1)
    {
      var j := k - 1;
      TurnsAfterOne(b, dx, dy, clockwise, j);
    }
    if NoMatchWithin(b, dx, dy, clockwise, n) {
      forall k | 1 <= k <= m
        ensures Matching.FindMatches(Rotation.Turns(b1, dx, dy, clockwise, k)) == []
      {
        TurnsAfterOne(b, dx, dy, clockwise, k);
      }
    }
  }

  /** `m + 1` turns are one turn followed by `m` more. */
  lemma {:induction false} TurnsAfterOne(b: Board, dx: int, dy: int, clockwise: bool, m: nat)
    requires WellFormed(b) && Triads.ValidDot(b.width, b.height, dx, dy)
    ensures Rotation.RotateCells(b, dx, dy, clockwise) == Rotation.Turns(b, dx, dy, clockwise, 1)
    ensures Rotation.Turns(b, dx, dy, clockwise, m + 1)
      == Rotation.Turns(Rotation.Turns(b, dx, dy, clockwise, 1), dx, dy, clockwise, m)
  {
    var r := Rotation.RotateCells(b, dx, dy, clockwise);
    Rotation.TurnsUnfold(b, dx, dy, clockwise, 0);
    Rotation.TurnsUnfold(b, dx, dy, clockwise, m);
    assert Rotation.Turns(r, dx, dy, clockwise, 0) == r;
  }

  /**
   * A swipe none of whose three turns makes a match turns the triad a full circle: the board,
   * records included, is the one it started from, the dot has turned a full circle, nothing
   * exploded, no event was raised, and the controller is at rest again.
   */
  lemma {:induction false} SwipeWithoutMatch(g: Game, clockwise: bool, fires: bool)
    requires Consistent(g) && !g.isGameOver && !g.isBoardChanging && g.selected.Some?
    requires var c := g.selected.value; NoMatchWithin(g.board, c.x, c.y, clockwise, RotationTime)
    ensures var r := OnSwipe(g, clockwise, fires); var c := g.selected.value;
      && r.board == g.board
      && r.dots[c].angle == g.dots[c].angle + RotationTime * Dots.AngleOffset(clockwise)
      && r.score == g.score && r.movements == g.movements
      && !r.isBoardChanging && r.rotationCounter == 0 && r.fault.None? && !r.isGameOver
  {
    var c := g.selected.value;
    Rotation.TurnsThrice(g.board, c.x, c.y, clockwise);
  }

  /**
   * The board a scoring swipe explodes is one on which some tile reports a cell it no longer
   * occupies: the board at rest holds no match and three turns bring it back, so the match
   * appears after the first or second turn, and each of those leaves a moved tile with the
   * record of the cell it left. The explosion therefore always runs on stale records.
   */
  lemma {:induction false} ScoringSwipeIsStale(g: Game, clockwise: bool)
    requires Consistent(g) && !g.isGameOver && !g.isBoardChanging && g.selected.Some?
    requires var c := g.selected.value; !NoMatchWithin(g.board, c.x, c.y, clockwise, RotationTime)
    ensures var a := SpinSelected(g.(rotationCounter := 0, lastClockwise := clockwise), clockwise);
      && a.matched && a.game.rotationCounter < RotationTime - 1
      && !IndicesAgree(a.game.board) && a.game.board.hexes == g.board.hexes
  {
    var g0 := g.(rotationCounter := 0, lastClockwise := clockwise);
    var a, b, c := SpinSelected(g0, clockwise), g0.board, g0.selected.value;
    MatchBeforeFullCircle(b, c.x, c.y, clockwise, a.turns);
  }

  /**
   * On a full board with agreeing indices and no match, a match that some of the first three
   * turns of a triad makes appears after the first or the second, and the board it appears on
   * has a tile that records a cell it left.
   */
  lemma {:induction false} MatchBeforeFullCircle(b: Board, dx: int, dy: int, clockwise: bool, n: nat)
    requires Full(b) && IndicesAgree(b) && b.width >= 2 && Triads.ValidDot(b.width, b.height, dx, dy)
    requires Matching.FindMatches(b) == [] && 1 <= n <= RotationTime
    requires Matching.FindMatches(Rotation.Turns(b, dx, dy, clockwise, n)) != []
    ensures n < RotationTime && !IndicesAgree(Rotation.Turns(b, dx, dy, clockwise, n))
  {
    Rotation.TurnsThrice(b, dx, dy, clockwise);
    assert n != RotationTime;
    Rotation.FullTriadFilled(b, dx, dy);
    Rotation.TurnsBreakIndices(b, dx, dy, clockwise, n);
  }

  /**
   * A swipe one of whose three turns makes a match never brings the controller back to rest:
   * nothing refills the emptied cells, so either the explosion throws or the cascade's first
   * scan meets an empty cell. The board stays marked as changing and every later touch and
   * swipe is ignored. At most one movement event was raised, and the score grew by whole
   * tiles.
   */
  lemma {:induction false} SwipeWithMatch(g: Game, clockwise: bool, fires: bool, inputs: seq<Input>)
    requires Consistent(g) && !g.isGameOver && !g.isBoardChanging && g.selected.Some?
    requires var c := g.selected.value; !NoMatchWithin(g.board, c.x, c.y, clockwise, RotationTime)
    requires Picks(g, inputs)
    ensures var r := OnSwipe(g, clockwise, fires);
      && r.isBoardChanging && r.fault.Some?
      && r.movements <= g.movements + 1 && Scored(g.score, r.score)
      && Run(r, inputs) == r
  {
    SwipeStalls(g, clockwise, fires);
    BusyIgnoresInput(OnSwipe(g, clockwise, fires), inputs);
  }

  /** A swipe whose turns make a match leaves the coroutine stopped, with the dots it started with. */
  lemma {:induction false} SwipeStalls(g: Game, clockwise: bool, fires: bool)
    requires Consistent(g) && !g.isGameOver && !g.isBoardChanging && g.selected.Some?
    requires var c := g.selected.value; !NoMatchWithin(g.board, c.x, c.y, clockwise, RotationTime)
    ensures var r := OnSwipe(g, clockwise, fires);
      && r.isBoardChanging && r.fault.Some? && r.dots.Keys == g.dots.Keys
      && r.movements <= g.movements + 1 && Scored(g.score, r.score)
  {
    var g1 := g.(rotationCounter := 0, lastClockwise := clockwise);
  }

  /**
   * A generated board, full, with agreeing indices and no match, and its dots start a
   * consistent controller.
   */
  lemma {:induction false} StartConsistent(b: Board, dots: map<Coord, Dots.Dot>, stack: nat)
    requires Full(b) && IndicesAgree(b) && b.width >= 2 && Matching.FindMatches(b) == []
    requires forall c :: c in dots <==> Triads.ValidDot(b.width, b.height, c.x, c.y)
    requires forall c :: c in dots ==>
      dots[c].x == c.x && dots[c].y == c.y && !dots[c].isSelected && !dots[c].isRotating
    ensures Consistent(Start(b, dots, stack))
  {
    AgreeAnchored(b);
  }
}

=== FILE: dots.dfy ===
/** The rotation pivot (`DotBehaviour`): selection flag, rotating flag and a one-shot end-of-rotation callback. */
module Dots {
  import opened Cells

  /** The work the board hands to a dot: permute the triad of dot (dx, dy) in the given direction. */
  datatype Callback = RotateTriad(dx: int, dy: int, clockwise: bool)

  /**
   * One dot. `angle` is its z rotation in whole degrees and `endAngle` the angle the current
   * rotation turns it to; `callback` is the stored end-of-rotation action.
   */
  datatype Dot = Dot(
    x: int,
    y: int,
    isSelected: bool,
    isRotating: bool,
    rotatingClockwise: bool,
    angle: int,
    endAngle: int,
    callback: Option<Callback>)

  /** A freshly instantiated component. */
  const Blank: Dot := Dot(0, 0, false, false, false, 0, 0, None)

  /** `Init`: records the dot coordinate and leaves the dot unselected. */
  function Init(d: Dot, x: int, y: int): (r: Dot)
    ensures r.x == x && r.y == y && !r.isSelected
    ensures r.isRotating == d.isRotating && r.callback == d.callback && r.angle == d.angle
    ensures r.(x := d.x, y := d.y, isSelected := d.isSelected) == d
  {
    d.(x := x, y := y, isSelected := false)
  }

  /** `Select`: the dot ends up selected; a selected dot is left alone. */
  function Select(d: Dot): (r: Dot)
    ensures r.isSelected
    ensures d.isSelected ==> r == d
    ensures r.(isSelected := d.isSelected) == d
  {
    if d.isSelected then d else d.(isSelected := true)
  }

  /** `Deselect`: the dot ends up unselected, whatever it was. */
  function Deselect(d: Dot): (r: Dot)
    ensures !r.isSelected
    ensures r.(isSelected := d.isSelected) == d
  {
    d.(isSelected := false)
  }

  /**
   * Selecting twice is selecting once; deselecting undoes a selection of an unselected dot;
   * a selection made right after a deselection ends where the selection alone would.
   */
  lemma {:induction false} SelectIdempotent(d: Dot)
    ensures Select(Select(d)) == Select(d)
    ensures !d.isSelected ==> Deselect(Select(d)) == d
    ensures Select(Deselect(d)) == Select(d)
  {
  }

  /** The signed angle one rotation turns a dot by: clockwise is negative. */
  function AngleOffset(clockwise: bool): (a: int)
    ensures a == 120 || a == -120
    ensures clockwise <==> a < 0
  {
    if clockwise then -120 else 120
  }

  /** `Rotate`: starts a rotation a third of a turn away and stores the callback. */
  function Rotate(d: Dot, clockwise: bool, cb: Callback): (r: Dot)
    ensures r.isRotating && r.callback == Some(cb) && r.rotatingClockwise == clockwise
    ensures r.endAngle - d.angle == AngleOffset(clockwise)
    ensures r.x == d.x && r.y == d.y && r.isSelected == d.isSelected && r.angle == d.angle
  {
    d.(isRotating := true, rotatingClockwise := clockwise, callback := Some(cb),
       endAngle := d.angle + AngleOffset(clockwise))
  }

  /** What `OnRotationEnd` produces: the dot and the callback it invoked. */
  datatype RotationEnd = RotationEnd(dot: Dot, invoked: Callback)

  /**
   * `OnRotationEnd`: the dot stops rotating at its end angle, invokes the stored callback and
   * drops it. Invoking with no stored callback is a null dereference, so one must be stored.
   */
  function OnRotationEnd(d: Dot): (e: RotationEnd)
    requires d.callback.Some?
    ensures !e.dot.isRotating && e.dot.callback.None?
    ensures e.invoked == d.callback.value
    ensures e.dot.angle == d.endAngle
    ensures e.dot.x == d.x && e.dot.y == d.y && e.dot.isSelected == d.isSelected
  {
    RotationEnd(d.(isRotating := false, callback := None, angle := d.endAngle), d.callback.value)
  }

  /** The end of a rotation touches only the rotation state: every other field keeps its value. */
  lemma {:induction false} OnRotationEndFrame(d: Dot)
    requires d.callback.Some?
    ensures OnRotationEnd(d).dot.(isRotating := d.isRotating, callback := d.callback, angle := d.angle) == d
  {
  }

  /**
   * A rotation started with `Rotate` ends by invoking exactly the callback it was given,
   * once: afterwards no callback is stored, and the dot has turned by one third of a turn.
   */
  lemma {:induction false} RotateThenEnd(d: Dot, clockwise: bool, cb: Callback)
    ensures OnRotationEnd(Rotate(d, clockwise, cb)).invoked == cb
    ensures OnRotationEnd(Rotate(d, clockwise, cb)).dot.callback.None?
    ensures OnRotationEnd(Rotate(d, clockwise, cb)).dot.angle == d.angle + AngleOffset(clockwise)
    ensures !d.isRotating && d.callback.None? ==>
      OnRotationEnd(Rotate(d, clockwise, cb)).dot
        == d.(rotatingClockwise := clockwise, angle := d.angle + AngleOffset(clockwise),
              endAngle := d.angle + AngleOffset(clockwise))
  {
  }

  /** Three rotations in one direction turn the dot a full circle. */
  lemma {:induction false} ThreeRotationsFullCircle(d: Dot, clockwise: bool, cb: Callback)
    ensures
      var d1 := OnRotationEnd(Rotate(d, clockwise, cb)).dot;
      var d2 := OnRotationEnd(Rotate(d1, clockwise, cb)).dot;
      var d3 := OnRotationEnd(Rotate(d2, clockwise, cb)).dot;
      d3.angle - d.angle == (if clockwise then -360 else 360)
  {
  }
}

=== FILE: explode.dfy ===
/**
 * `Board.ExplodeMatches`: two passes over the list of matched cells. The first explodes the
 * tile in each listed cell and empties the cell; the second, for each listed cell, tells the
 * tile just above it (if any) that the cell below is empty, which compacts that column.
 * Neither pass checks its input, so a listed cell that is out of the array, already empty, or
 * on the top row makes the call throw part-way; `Outcome` records how far it got.
 */
module Explosion {
  import opened Cells
  import opened Boards
  import Hexes
  import Gravity

  /**
   * The exceptions the board's array accesses can raise, and the overflow of the runtime's
   * stack by a recursion that does not end.
   */
  datatype Fault = NullReference | IndexOutOfRange | StackOverflow

  /**
   * What a call leaves behind: the board as it stands when the call returns or throws, how
   * many tiles it exploded (each raised one `HexExplodedEvent`), and the exception, if any.
   */
  datatype Outcome = Outcome(board: Board, exploded: nat, fault: Option<Fault>)

  /** The listed cells are in the array, hold tiles, and are listed once each. */
  predicate Clean(b: Board, ms: seq<Coord>)
    requires WellFormed(b)
  {
    (forall i :: 0 <= i < |ms| ==> InBounds(ms[i], b.width, b.height) && Get(b, ms[i]).Some?)
    && (forall i, j :: 0 <= i < j < |ms| ==> ms[i] != ms[j])
  }

  /** Every listed cell has a row above it. */
  predicate BelowTop(b: Board, ms: seq<Coord>)
  {
    forall i :: 0 <= i < |ms| ==> ms[i].y + 1 < b.height
  }

  /** The listed cells are below the top row when the first is and the rest are. */
  lemma {:induction false} BelowTopRest(b: Board, next: Board, ms: seq<Coord>)
    requires ms != [] && ms[0].y + 1 < b.height && next.height == b.height
    ensures BelowTop(b, ms) <==> BelowTop(next, ms[1..])
  {
    assert forall i :: 0 <= i < |ms| - 1 ==> ms[1..][i] == ms[i + 1];
    if BelowTop(next, ms[1..]) {
      forall i | 0 <= i < |ms| ensures ms[i].y + 1 < b.height {
        if i > 0 {
          assert ms[1..][i - 1] == ms[i];
        }
      }
    }
  }

  /** Whether the listed cells are below the top row depends on the height alone. */
  lemma {:induction false} BelowTopSameHeight(a: Board, b: Board, ms: seq<Coord>)
    requires a.height == b.height
    ensures BelowTop(a, ms) <==> BelowTop(b, ms)
  {
  }

  /** One step of the first pass: the tile in `c` explodes and its cell is emptied. */
  function ExplodeAt(b: Board, c: Coord): (r: Board)
    requires WellFormed(b) && InBounds(c, b.width, b.height) && Get(b, c).Some?
    ensures WellFormed(r) && r.width == b.width && r.height == b.height && r.nextId == b.nextId
    ensures r.hexes.Keys == b.hexes.Keys
  {
    var id := Get(b, c).value;
    var b1 := b.(hexes := b.hexes[id := Hexes.Explode(b.hexes[id])]);
    SetWellFormed(b1, c, None);
    Set(b1, c, None)
  }

  /**
   * The cell is emptied and no other cell changes; the tile's record is marked exploded and
   * no other record changes; agreeing indices still agree, tiles that record cells of the
   * array still do, and one tile becomes one empty cell.
   */
  lemma {:induction false} ExplodeAtEffect(b: Board, c: Coord)
    requires WellFormed(b) && InBounds(c, b.width, b.height) && Get(b, c).Some?
    ensures var r := ExplodeAt(b, c);
      && Get(r, c) == None
      && (forall d :: InBounds(d, b.width, b.height) && d != c ==> Get(r, d) == Get(b, d))
      && r.hexes == b.hexes[Get(b, c).value := Hexes.Explode(b.hexes[Get(b, c).value])]
      && (IndicesAgree(b) ==> IndicesAgree(r))
      && (Anchored(b) ==> Anchored(r))
      && Contents(r) == Contents(b) - multiset{Get(b, c)} + multiset{None}
  {
    var id := Get(b, c).value;
    var b1 := b.(hexes := b.hexes[id := Hexes.Explode(b.hexes[id])]);
    ContentsSet(b1, c, None);
    ExplodeAtKeeps(b, c);
  }

  /** Agreeing indices still agree, and tiles that record cells of the array still do. */
  lemma {:induction false} ExplodeAtKeeps(b: Board, c: Coord)
    requires WellFormed(b) && InBounds(c, b.width, b.height) && Get(b, c).Some?
    ensures IndicesAgree(b) ==> IndicesAgree(ExplodeAt(b, c))
    ensures Anchored(b) ==> Anchored(ExplodeAt(b, c))
  {
    var r := ExplodeAt(b, c);
    if Anchored(b) {
      forall x, y | 0 <= x < r.width && 0 <= y < r.height && r.cells[x][y].Some?
        ensures InBounds(IndexOf(r, r.cells[x][y].value), r.width, r.height)
      {
        assert Get(r, Coord(x, y)) == Get(b, Coord(x, y));
      }
    }
    if IndicesAgree(b) {
      ExplodeAtAgrees(b, c);
    }
  }

  lemma {:induction false} ExplodeAtAgrees(b: Board, c: Coord)
    requires IndicesAgree(b) && InBounds(c, b.width, b.height) && Get(b, c).Some?
    ensures IndicesAgree(ExplodeAt(b, c))
  {
    var r := ExplodeAt(b, c);
    forall x | 0 <= x < r.width
      ensures ColumnAgrees(r, x)
    {
      assert ColumnAgrees(b, x);
      forall y | 0 <= y < r.height && r.cells[x][y].Some?
        ensures r.hexes[r.cells[x][y].value].indexX == x
        ensures r.hexes[r.cells[x][y].value].indexY == y
      {
        assert Get(r, Coord(x, y)) == Get(b, Coord(x, y));
      }
    }
  }

  /** The first pass of `ExplodeMatches`. */
  function Clear(b: Board, ms: seq<Coord>): (o: Outcome)
    requires WellFormed(b)
    ensures WellFormed(o.board) && o.board.width == b.width && o.board.height == b.height
    ensures IndicesAgree(b) ==> IndicesAgree(o.board)
    ensures Anchored(b) ==> Anchored(o.board)
    ensures o.board.hexes.Keys == b.hexes.Keys && o.board.nextId == b.nextId
    ensures o.exploded <= |ms| && (o.fault.None? <==> o.exploded == |ms|)
    ensures o.fault.None? ==> forall i :: 0 <= i < |ms| ==> InBounds(ms[i], b.width, b.height)
    decreases |ms|
  {
    if ms == [] then Outcome(b, 0, None)
    else if !InBounds(ms[0], b.width, b.height) then Outcome(b, 0, Some(IndexOutOfRange))
    else if Get(b, ms[0]).None? then Outcome(b, 0, Some(NullReference))
    else
      ExplodeAtKeeps(b, ms[0]);
      var rest := Clear(ExplodeAt(b, ms[0]), ms[1..]);
      assert rest.fault.None? ==> forall i :: 1 <= i < |ms| ==> ms[1..][i - 1] == ms[i];
      rest.(exploded := rest.exploded + 1)
  }

  /**
   * `NotifyDownIsEmpty` on the tile in cell (x, r): as written when `checked` is false, with
   * the guard against losing a tile when it is true.
   */
  function Drop(b: Board, x: int, r: int, checked: bool): (res: Board)
    requires IndicesAgree(b) && 0 <= x < b.width && 0 <= r < b.height
    ensures IndicesAgree(res) && res.width == b.width && res.height == b.height
    ensures res.hexes.Keys == b.hexes.Keys && res.nextId == b.nextId
    ensures OnlyLoses(Contents(b), Contents(res))
    ensures checked ==> Contents(res) == Contents(b)
  {
    if checked then
      Gravity.NotifyDownIsEmptyCheckedKeepsAgreement(b, x, r);
      Gravity.NotifyDownIsEmptyCheckedKeeps(b, x, r);
      Gravity.NotifyDownIsEmptyChecked(b, x, r)
    else
      Gravity.NotifyDownIsEmptyKeepsAgreement(b, x, r);
      Gravity.NotifyDownIsEmptyContents(b, x, r);
      Gravity.NotifyDownIsEmpty(b, x, r)
  }

  /** One step of the second pass: the tile above `m`, if any, is told the cell below is empty. */
  function NotifyAbove(b: Board, m: Coord, checked: bool): (next: Board)
    requires IndicesAgree(b) && InBounds(m, b.width, b.height) && m.y + 1 < b.height
    ensures IndicesAgree(next) && next.width == b.width && next.height == b.height
    ensures next.hexes.Keys == b.hexes.Keys && next.nextId == b.nextId
    ensures OnlyLoses(Contents(b), Contents(next))
    ensures checked ==> Contents(next) == Contents(b)
  {
    if Get(b, Coord(m.x, m.y + 1)).Some? then Drop(b, m.x, m.y + 1, checked) else b
  }

  /**
   * The second pass of `ExplodeMatches`, run on the cleared board. It runs to the end exactly
   * when no listed cell is on the top row, and it never puts a tile into the array: it can
   * only move tiles or, as written, lose them. With the guard it keeps the contents exactly.
   */
  function Notify(b: Board, ms: seq<Coord>, checked: bool): (o: Outcome)
    requires IndicesAgree(b)
    requires forall i :: 0 <= i < |ms| ==> InBounds(ms[i], b.width, b.height)
    ensures IndicesAgree(o.board) && o.board.width == b.width && o.board.height == b.height
    ensures o.board.hexes.Keys == b.hexes.Keys && o.board.nextId == b.nextId
    ensures o.exploded == 0
    ensures o.fault.None? <==> BelowTop(b, ms)
    ensures OnlyLoses(Contents(b), Contents(o.board))
    ensures checked ==> Contents(o.board) == Contents(b)
    decreases |ms|
  {
    if ms == [] then Outcome(b, 0, None)
    else
      var m := ms[0];
      assert InBounds(m, b.width, b.height);
      if m.y + 1 >= b.height then Outcome(b, 0, Some(IndexOutOfRange))
      else
        var next := NotifyAbove(b, m, checked);
        assert forall i :: 0 <= i < |ms| - 1 ==> ms[1..][i] == ms[i + 1];
        var rest := Notify(next, ms[1..], checked);
        BelowTopRest(b, next, ms);
        OnlyLosesTransitive(Contents(b), Contents(next), Contents(rest.board));
        rest
  }

  /** `Board.ExplodeMatches`: the second pass runs only if the first did not throw. */
  function ExplodeMatchesWith(b: Board, ms: seq<Coord>, checked: bool): (o: Outcome)
    requires IndicesAgree(b)
    ensures IndicesAgree(o.board) && o.board.width == b.width && o.board.height == b.height
    ensures o.board.hexes.Keys == b.hexes.Keys && o.board.nextId == b.nextId
  {
    var cleared := Clear(b, ms);
    if cleared.fault.Some? then cleared
    else Notify(cleared.board, ms, checked).(exploded := cleared.exploded)
  }

  /**
   * One step of the second pass as written, on records that may be stale: when the cell
   * above `m` holds a tile, that tile is notified through the cell its own record names.
   * Every notification starts at the same stack depth, with room for `stack` calls.
   */
  function NotifyAboveStale(b: Board, m: Coord, stack: nat): (res: Gravity.Compacted)
    requires Anchored(b) && InBounds(m, b.width, b.height) && m.y + 1 < b.height
    ensures Anchored(res.board) && res.board.width == b.width && res.board.height == b.height
    ensures res.board.hexes.Keys == b.hexes.Keys && res.board.nextId == b.nextId
    ensures !Full(b) ==> !Full(res.board)
  {
    var above := Coord(m.x, m.y + 1);
    if Get(b, above).None? then Gravity.Compacted(b, false)
    else
      Gravity.NotifiableCell(b, above);
      Gravity.NotifyStale(b, Get(b, above), stack)
  }

  /**
   * The second pass of `ExplodeMatches` as written, on records that may be stale. A listed
   * cell on the top row throws `IndexOutOfRange`; a notification that recurses without end
   * overflows the stack. It never throws `NullReference`, and a board with an empty cell
   * keeps one, whichever way the pass ends.
   */
  function NotifyAsWritten(b: Board, ms: seq<Coord>, stack: nat): (o: Outcome)
    requires Anchored(b)
    requires forall i :: 0 <= i < |ms| ==> InBounds(ms[i], b.width, b.height)
    ensures Anchored(o.board) && o.board.width == b.width && o.board.height == b.height
    ensures o.board.hexes.Keys == b.hexes.Keys && o.board.nextId == b.nextId
    ensures o.exploded == 0
    ensures o.fault.None? ==> BelowTop(b, ms)
    ensures BelowTop(b, ms) ==> o.fault != Some(IndexOutOfRange)
    ensures o.fault != Some(NullReference)
    ensures !Full(b) ==> !Full(o.board)
    decreases |ms|
  {
    if ms == [] then Outcome(b, 0, None)
    else
      var m := ms[0];
      assert InBounds(m, b.width, b.height);
      if m.y + 1 >= b.height then Outcome(b, 0, Some(IndexOutOfRange))
      else
        var next := NotifyAboveStale(b, m, stack);
        if next.overflow then Outcome(next.board, 0, Some(StackOverflow))
        else
          assert forall i :: 0 <= i < |ms| - 1 ==> ms[1..][i] == ms[i + 1];
          BelowTopRest(b, next.board, ms);
          NotifyAsWritten(next.board, ms[1..], stack)
  }

  /**
   * `ExplodeMatches` exactly as written, on a board whose records may be stale, with room for
   * `stack` nested calls of `NotifyDownIsEmpty`. A falling tile can be lost or written to a
   * second cell, and the compaction can recurse without end.
   */
  function ExplodeMatchesAsWritten(b: Board, ms: seq<Coord>, stack: nat): (o: Outcome)
    requires Anchored(b)
    ensures Anchored(o.board) && o.board.width == b.width && o.board.height == b.height
    ensures o.board.hexes.Keys == b.hexes.Keys && o.board.nextId == b.nextId
  {
    var cleared := Clear(b, ms);
    if cleared.fault.Some? then cleared
    else NotifyAsWritten(cleared.board, ms, stack).(exploded := cleared.exploded)
  }

  /**
   * As written, the call explodes one tile per entry exactly when the list is clean, and at
   * most one per entry otherwise. It returns normally only when the list is clean and clear
   * of the top row, and on such a list the only exception left is a stack overflow. A clean,
   * non-empty list leaves an empty cell however the call ends.
   */
  lemma {:induction false} ExplodeMatchesAsWrittenEffect(b: Board, ms: seq<Coord>, stack: nat)
    requires Anchored(b)
    ensures var o := ExplodeMatchesAsWritten(b, ms, stack);
      && o.exploded <= |ms| && (o.exploded == |ms| <==> Clean(b, ms))
      && (o.fault.None? ==> Clean(b, ms) && BelowTop(b, ms))
      && (Clean(b, ms) && BelowTop(b, ms) ==> o.fault.None? || o.fault == Some(StackOverflow))
      && (Clean(b, ms) && ms != [] ==> !Full(o.board))
  {
    ClearSucceedsIff(b, ms);
    if Clean(b, ms) {
      ClearEffect(b, ms);
      var cleared := Clear(b, ms).board;
      BelowTopSameHeight(b, cleared, ms);
      var n := NotifyAsWritten(cleared, ms, stack);
      assert ExplodeMatchesAsWritten(b, ms, stack).fault == n.fault;
      if BelowTop(b, ms) {
        OnlyOverflowLeft(n.fault);
      }
      if ms != [] {
        assert InBounds(ms[0], b.width, b.height) && ms[0] in ms;
        assert Get(cleared, ms[0]) == None;
        assert !Full(cleared);
      }
    }
  }

  /** A fault that is neither of the array's exceptions is the stack overflow. */
  lemma {:induction false} OnlyOverflowLeft(f: Option<Fault>)
    requires f != Some(IndexOutOfRange) && f != Some(NullReference)
    ensures f.None? || f == Some(StackOverflow)
  {
    if f.Some? {
      assert f.value != IndexOutOfRange && f.value != NullReference;
    }
  }

  /** The code's notification of the tile above `m`, unfolded. */
  lemma {:induction false} NotifyAboveStaleUnfolds(b: Board, m: Coord, stack: nat)
    requires Anchored(b) && InBounds(m, b.width, b.height) && m.y + 1 < b.height
    ensures Gravity.Notifiable(b, Get(b, Coord(m.x, m.y + 1)))
    ensures var v := Get(b, Coord(m.x, m.y + 1));
      NotifyAboveStale(b, m, stack) == if v.None? then Gravity.Compacted(b, false) else Gravity.NotifyStale(b, v, stack)
  {
    Gravity.NotifiableCell(b, Coord(m.x, m.y + 1));
  }

  /** The unguarded notification of the tile above `m`, unfolded. */
  lemma {:induction false} NotifyAboveUnchecked(b: Board, m: Coord)
    requires IndicesAgree(b) && InBounds(m, b.width, b.height) && m.y + 1 < b.height
    ensures NotifyAbove(b, m, false) ==
      if Get(b, Coord(m.x, m.y + 1)).Some? then Gravity.NotifyDownIsEmpty(b, m.x, m.y + 1) else b
  {
  }

  /**
   * On a board whose records agree with their cells, and with room for one call per row,
   * the code's second pass is the agreeing-index pass.
   */
  lemma {:induction false} NotifyAboveStaleAgrees(b: Board, m: Coord, stack: nat)
    requires IndicesAgree(b) && InBounds(m, b.width, b.height) && m.y + 1 < b.height && stack >= b.height
    ensures Anchored(b)
    ensures NotifyAboveStale(b, m, stack) == Gravity.Compacted(NotifyAbove(b, m, false), false)
  {
    AgreeAnchored(b);
    var y := m.y + 1;
    var v := Get(b, Coord(m.x, y));
    assert NotifyAboveStale(b, m, stack) == if v.None? then Gravity.Compacted(b, false) else Gravity.NotifyStale(b, v, stack) by {
      NotifyAboveStaleUnfolds(b, m, stack);
    }
    assert NotifyAbove(b, m, false) == if v.Some? then Gravity.NotifyDownIsEmpty(b, m.x, y) else b by {
      NotifyAboveUnchecked(b, m);
    }
    if v.Some? {
      assert Gravity.NotifyStale(b, v, stack) == Gravity.Compacted(Gravity.NotifyDownIsEmpty(b, m.x, y), false) by {
        Gravity.NotifyStaleAgrees(b, m.x, y, stack);
      }
    }
  }

  lemma {:induction false} NotifyAsWrittenAgrees(b: Board, ms: seq<Coord>, stack: nat)
    requires IndicesAgree(b) && stack >= b.height
    requires forall i :: 0 <= i < |ms| ==> InBounds(ms[i], b.width, b.height)
    ensures Anchored(b)
    ensures NotifyAsWritten(b, ms, stack) == Notify(b, ms, false)
    decreases |ms|
  {
    AgreeAnchored(b);
    if ms != [] && ms[0].y + 1 < b.height {
      var m, rest := ms[0], ms[1..];
      assert InBounds(m, b.width, b.height);
      NotifyAboveStaleAgrees(b, m, stack);
      var next := NotifyAbove(b, m, false);
      assert forall i :: 0 <= i < |rest| ==> rest[i] == ms[i + 1];
      NotifyAsWrittenAgrees(next, rest, stack);
      NotifyAsWrittenStep(b, ms, stack, next, rest);
    }
  }

  /** One step of both second passes, unfolded with the same next board. */
  lemma {:induction false} NotifyAsWrittenStep(b: Board, ms: seq<Coord>, stack: nat, next: Board, rest: seq<Coord>)
    requires IndicesAgree(b) && Anchored(b) && ms != [] && ms[0].y + 1 < b.height && rest == ms[1..]
    requires forall i :: 0 <= i < |ms| ==> InBounds(ms[i], b.width, b.height)
    requires next == NotifyAbove(b, ms[0], false)
    requires NotifyAboveStale(b, ms[0], stack) == Gravity.Compacted(next, false)
    requires forall i :: 0 <= i < |rest| ==> InBounds(rest[i], b.width, b.height)
    requires Anchored(next) && NotifyAsWritten(next, rest, stack) == Notify(next, rest, false)
    ensures NotifyAsWritten(b, ms, stack) == Notify(b, ms, false)
  {
  }

  /**
   * On a board whose records agree with their cells, and with room for one call per row, the
   * code's `ExplodeMatches` is the agreeing-index version, lost tiles included.
   */
  lemma {:induction false} ExplodeMatchesAsWrittenAgrees(b: Board, ms: seq<Coord>, stack: nat)
    requires IndicesAgree(b) && stack >= b.height
    ensures Anchored(b)
    ensures ExplodeMatchesAsWritten(b, ms, stack) == ExplodeMatchesWith(b, ms, false)
  {
    AgreeAnchored(b);
    var cleared := Clear(b, ms);
    if cleared.fault.None? {
      NotifyAsWrittenAgrees(cleared.board, ms, stack);
    }
  }

  /** `ExplodeMatches` with the guarded compaction; the rest of the model uses this one. */
  function ExplodeMatches(b: Board, ms: seq<Coord>): (o: Outcome)
    requires IndicesAgree(b)
  {
    ExplodeMatchesWith(b, ms, true)
  }

  /** Exploding the first listed cell leaves the rest of the list clean exactly when the whole list was. */
  lemma {:induction false} CleanStep(b: Board, ms: seq<Coord>)
    requires WellFormed(b) && ms != []
    requires InBounds(ms[0], b.width, b.height) && Get(b, ms[0]).Some?
    ensures Clean(b, ms) <==> Clean(ExplodeAt(b, ms[0]), ms[1..])
  {
    var r := ExplodeAt(b, ms[0]);
    ExplodeAtEffect(b, ms[0]);
    var rest := ms[1..];
    if Clean(r, rest) {
      forall i | 1 <= i < |ms|
        ensures ms[i] != ms[0] && Get(b, ms[i]).Some?
      {
        assert rest[i - 1] == ms[i];
      }
      forall i, j | 0 <= i < j < |ms|
        ensures ms[i] != ms[j]
      {
        if 0 < i {
          assert rest[i - 1] == ms[i] && rest[j - 1] == ms[j];
        }
      }
    }
    if Clean(b, ms) {
      forall i | 0 <= i < |rest|
        ensures InBounds(rest[i], r.width, r.height) && Get(r, rest[i]).Some?
      {
        assert rest[i] == ms[i + 1];
      }
      forall i, j | 0 <= i < j < |rest|
        ensures rest[i] != rest[j]
      {
        assert rest[i] == ms[i + 1] && rest[j] == ms[j + 1];
      }
    }
  }

  /** The first pass runs to the end exactly when its list is clean. */
  lemma {:induction false} ClearSucceedsIff(b: Board, ms: seq<Coord>)
    requires WellFormed(b)
    ensures Clear(b, ms).fault.None? <==> Clean(b, ms)
    decreases |ms|
  {
    if ms != [] && InBounds(ms[0], b.width, b.height) && Get(b, ms[0]).Some? {
      CleanStep(b, ms);
      ExplodeAtEffect(b, ms[0]);
      ClearSucceedsIff(ExplodeAt(b, ms[0]), ms[1..]);
    }
  }

  /**
   * A first pass that runs to the end explodes one tile per listed cell, empties exactly the
   * listed cells, and turns each of their tiles into one more empty cell.
   */
  lemma {:induction false} ClearEffect(b: Board, ms: seq<Coord>)
    requires WellFormed(b) && Clear(b, ms).fault.None?
    ensures var o := Clear(b, ms);
      && o.exploded == |ms|
      && (forall c :: InBounds(c, b.width, b.height) ==> Get(o.board, c) == if c in ms then None else Get(b, c))
      && Vacancies(o.board) == Vacancies(b) + |ms|
    decreases |ms|
  {
    if ms != [] {
      var r := ExplodeAt(b, ms[0]);
      ExplodeAtEffect(b, ms[0]);
      ClearEffect(r, ms[1..]);
      var o := Clear(b, ms);
      assert o.board == Clear(r, ms[1..]).board;
      forall c | InBounds(c, b.width, b.height)
        ensures Get(o.board, c) == if c in ms then None else Get(b, c)
      {
        assert c in ms <==> c == ms[0] || c in ms[1..];
      }
    }
  }

  /** From `before` to `after` no tile was added and no empty cell was filled. */
  predicate OnlyLoses(before: multiset<Option<TileId>>, after: multiset<Option<TileId>>)
  {
    (forall v :: v in after && v != None ==> after[v] <= before[v]) && after[None] >= before[None]
  }

  lemma {:induction false} OnlyLosesTransitive(a: multiset<Option<TileId>>, b: multiset<Option<TileId>>, c: multiset<Option<TileId>>)
    requires OnlyLoses(a, b) && OnlyLoses(b, c)
    ensures OnlyLoses(a, c)
  {
  }

  /**
   * After a first pass that ran to the end, none of the exploded tiles is anywhere in the
   * array: each was in one cell only, because indices agree.
   */
  lemma {:induction false} ClearRemovesTiles(b: Board, ms: seq<Coord>)
    requires IndicesAgree(b) && Clear(b, ms).fault.None?
    ensures forall i :: 0 <= i < |ms| ==> Get(b, ms[i]).Some? && Get(b, ms[i]) !in Contents(Clear(b, ms).board)
  {
    ClearSucceedsIff(b, ms);
    forall i | 0 <= i < |ms|
      ensures Get(b, ms[i]) !in Contents(Clear(b, ms).board)
    {
      ClearRemovesTile(b, ms, i);
    }
  }

  lemma {:induction false} ClearRemovesTile(b: Board, ms: seq<Coord>, i: int)
    requires IndicesAgree(b) && Clear(b, ms).fault.None? && 0 <= i < |ms|
    ensures InBounds(ms[i], b.width, b.height) && Get(b, ms[i]) !in Contents(Clear(b, ms).board)
  {
    var cb := Clear(b, ms).board;
    ClearSucceedsIff(b, ms);
    var v := Get(b, ms[i]);
    assert v.Some?;
    if v in Contents(cb) {
      ConcatFrom(cb.cells, v);
      var x, y :| 0 <= x < |cb.cells| && 0 <= y < |cb.cells[x]| && cb.cells[x][y] == v;
      var c := Coord(x, y);
      assert Get(cb, c) == v;
      ClearEffect(b, ms);
      assert Get(cb, c) == if c in ms then None else Get(b, c);
      assert Get(b, c) == v;
      AgreeImpliesDistinct(b);
      assert false;
    }
  }

  /** `ExplodeMatches` returns normally exactly when its list is clean and clear of the top row. */
  lemma {:induction false} ExplodeMatchesSucceedsIff(b: Board, ms: seq<Coord>, checked: bool)
    requires IndicesAgree(b)
    ensures ExplodeMatchesWith(b, ms, checked).fault.None? <==> Clean(b, ms) && BelowTop(b, ms)
  {
    ClearSucceedsIff(b, ms);
    var cleared := Clear(b, ms);
  }

  /** Every listed tile explodes, and so raises its event, exactly when the list is clean. */
  lemma {:induction false} ExplodeMatchesCount(b: Board, ms: seq<Coord>, checked: bool)
    requires IndicesAgree(b)
    ensures ExplodeMatchesWith(b, ms, checked).exploded <= |ms|
    ensures ExplodeMatchesWith(b, ms, checked).exploded == |ms| <==> Clean(b, ms)
  {
    ClearSucceedsIff(b, ms);
  }

  /**
   * A call that returns normally explodes one tile per listed cell, leaves none of those tiles
   * in the array, adds at least one empty cell per listed cell, and so leaves a board that is
   * no longer full. With the guard it adds exactly one empty cell per listed cell and keeps
   * every other tile in the array.
   */
  lemma {:induction false} ExplodeMatchesEffect(b: Board, ms: seq<Coord>, checked: bool)
    requires IndicesAgree(b) && ExplodeMatchesWith(b, ms, checked).fault.None?
    ensures var o := ExplodeMatchesWith(b, ms, checked);
      && o.exploded == |ms|
      && (forall i :: 0 <= i < |ms| ==>
            InBounds(ms[i], b.width, b.height) && Get(b, ms[i]).Some? && Get(b, ms[i]) !in Contents(o.board))
      && Vacancies(o.board) >= Vacancies(b) + |ms|
      && (ms != [] ==> !Full(o.board))
      && (checked ==> Vacancies(o.board) == Vacancies(b) + |ms| && Contents(o.board) == Contents(Clear(b, ms).board))
  {
    var cleared := Clear(b, ms);
    var o := ExplodeMatchesWith(b, ms, checked);
    ClearEffect(b, ms);
    ClearRemovesTiles(b, ms);
    assert o.board == Notify(cleared.board, ms, checked).board;
    forall i | 0 <= i < |ms|
      ensures Get(b, ms[i]) !in Contents(o.board)
    {
      var v := Get(b, ms[i]);
      assert Contents(cleared.board)[v] == 0;
    }
    FullIffNoVacancy(o.board);
  }

  /** One column of four tiles, each placed with `Init` in its own cell. */
  function Tower(): (b: Board)
  {
    var tile := (y: int) => Hexes.Init(Hexes.Blank, Coord(0, y), 0, y, y);
    Board(1, 4, [[Some(0), Some(1), Some(2), Some(3)]],
      map[0 := tile(0), 1 := tile(1), 2 := tile(2), 3 := tile(3)], 4)
  }

  /**
   * Exploding the two bottom cells, the upper one listed first, loses a tile as written: the
   * second pass drops tiles 2 and 3 onto rows 0 and 1, then tells tile 3, now on row 1 above
   * tile 2, that the cell below it is empty, and tile 3 leaves the array without exploding.
   * The tower's records agree with their cells, so the code's call is the agreeing-index one
   * whenever the stack has room for four calls. With the guard, only the two exploded tiles
   * leave.
   */
  lemma {:induction false} TowerLosesTile(stack: nat)
    requires stack >= 4
    ensures IndicesAgree(Tower())
    ensures var ms := [Coord(0, 1), Coord(0, 0)];
      && Clean(Tower(), ms) && BelowTop(Tower(), ms)
      && ExplodeMatchesAsWritten(Tower(), ms, stack).fault.None?
      && Vacancies(ExplodeMatchesAsWritten(Tower(), ms, stack).board) == Vacancies(Tower()) + |ms| + 1
      && Vacancies(ExplodeMatches(Tower(), ms).board) == Vacancies(Tower()) + |ms|
  {
    var b := Tower();
    var ms := [Coord(0, 1), Coord(0, 0)];
    TowerClean();
    ExplodeMatchesAsWrittenAgrees(b, ms, stack);
    ExplodeMatchesSucceedsIff(b, ms, false);
    ExplodeMatchesSucceedsIff(b, ms, true);
    ExplodeMatchesEffect(b, ms, true);
    var o := TowerAsWritten();
    TowerVacancies(o);
  }

  lemma {:induction false} TowerVacancies(o: Board)
    requires o.cells == [[Some(2), None, None, None]]
    ensures Vacancies(Tower()) == 0 && Vacancies(o) == 3
  {
    var b := Tower();
    assert Concat(b.cells) == b.cells[0];
    assert Concat(o.cells) == o.cells[0];
    assert multiset(o.cells[0]) == multiset{Some(2), None, None, None};
  }

  lemma {:induction false} TowerClean()
    ensures IndicesAgree(Tower())
    ensures Clean(Tower(), [Coord(0, 1), Coord(0, 0)]) && BelowTop(Tower(), [Coord(0, 1), Coord(0, 0)])
  {
    assert ColumnAgrees(Tower(), 0);
  }

  /** Without the guard, the call leaves only tile 2 in the array. */
  lemma {:induction false} TowerAsWritten() returns (o: Board)
    ensures IndicesAgree(Tower())
    ensures ExplodeMatchesWith(Tower(), [Coord(0, 1), Coord(0, 0)], false).board == o
    ensures o.cells == [[Some(2), None, None, None]]
  {
    var b := Tower();
    var ms := [Coord(0, 1), Coord(0, 0)];
    TowerClean();
    var cleared := TowerCleared(b, ms);
    var dropped := TowerFirstDrop(cleared);
    o := TowerSecondDrop(dropped);
    assert ms[1..] == [Coord(0, 0)] && ms[1..][1..] == [];
    NotifyUnfolds(cleared, ms, false);
    NotifyUnfolds(dropped, ms[1..], false);
  }

  /** One step of the second pass, unfolded. */
  lemma {:induction false} NotifyUnfolds(b: Board, ms: seq<Coord>, checked: bool)
    requires IndicesAgree(b) && ms != [] && ms[0].y + 1 < b.height
    requires forall i :: 0 <= i < |ms| ==> InBounds(ms[i], b.width, b.height)
    ensures forall i :: 0 <= i < |ms| - 1 ==> InBounds(ms[1..][i], b.width, b.height)
    ensures Notify(b, ms, checked) == Notify(NotifyAbove(b, ms[0], checked), ms[1..], checked)
  {
    assert InBounds(ms[0], b.width, b.height);
    assert forall i :: 0 <= i < |ms| - 1 ==> ms[1..][i] == ms[i + 1];
  }

  /** The first pass on the tower empties rows 0 and 1. */
  lemma {:induction false} TowerCleared(b: Board, ms: seq<Coord>) returns (cleared: Board)
    requires b == Tower() && ms == [Coord(0, 1), Coord(0, 0)] && IndicesAgree(b)
    ensures IndicesAgree(cleared) && cleared.width == 1 && cleared.height == 4
    ensures cleared.cells == [[None, None, Some(2), Some(3)]]
    ensures Clear(b, ms) == Outcome(cleared, 2, None)
  {
    var b1 := ExplodeAt(b, Coord(0, 1));
    ExplodeAtAgrees(b, Coord(0, 1));
    assert Get(b1, Coord(0, 0)) == Some(0);
    cleared := ExplodeAt(b1, Coord(0, 0));
    TowerClearedCells(b, b1, cleared);
    assert ms[1..] == [Coord(0, 0)] && ms[1..][1..] == [];
    assert Clear(b1, ms[1..]) == Clear(cleared, []).(exploded := 1);
  }

  lemma {:induction false} TowerClearedCells(b: Board, b1: Board, cleared: Board)
    requires b == Tower() && IndicesAgree(b)
    requires b1 == ExplodeAt(b, Coord(0, 1)) && IndicesAgree(b1) && Get(b1, Coord(0, 0)).Some?
    requires cleared == ExplodeAt(b1, Coord(0, 0))
    ensures IndicesAgree(cleared) && cleared.cells == [[None, None, Some(2), Some(3)]]
  {
    ExplodeAtAgrees(b1, Coord(0, 0));
    ExplodeAtCells(b, Coord(0, 1));
    ExplodeAtCells(b1, Coord(0, 0));
    assert b.cells == [[Some(0), Some(1), Some(2), Some(3)]];
    assert b.cells[0][1 := None] == [Some(0), None, Some(2), Some(3)];
    assert b1.cells == [[Some(0), None, Some(2), Some(3)]];
    assert b1.cells[0][0 := None] == [None, None, Some(2), Some(3)];
  }

  /** The first pass's step as an update of the column array. */
  lemma {:induction false} ExplodeAtCells(b: Board, c: Coord)
    requires WellFormed(b) && InBounds(c, b.width, b.height) && Get(b, c).Some?
    ensures ExplodeAt(b, c).cells == b.cells[c.x := b.cells[c.x][c.y := None]]
  {
  }

  /** Telling tile 2 that row 1 is empty drops tiles 2 and 3 onto rows 0 and 1. */
  lemma {:induction false} TowerFirstDrop(cleared: Board) returns (dropped: Board)
    requires IndicesAgree(cleared) && cleared.width == 1 && cleared.height == 4
    requires cleared.cells == [[None, None, Some(2), Some(3)]]
    ensures IndicesAgree(dropped) && dropped.width == 1 && dropped.height == 4
    ensures dropped.cells == [[Some(2), Some(3), None, None]]
    ensures NotifyAbove(cleared, Coord(0, 1), false) == dropped
  {
    assert Get(cleared, Coord(0, 2)) == Some(2);
    dropped := Drop(cleared, 0, 2, false);
    TowerFirstFall();
    TowerFallCells(cleared, 2, [Some(2), Some(3), None, None]);
  }

  /** Telling tile 3, now on row 1 above tile 2, that row 0 is empty loses it. */
  lemma {:induction false} TowerSecondDrop(dropped: Board) returns (o: Board)
    requires IndicesAgree(dropped) && dropped.width == 1 && dropped.height == 4
    requires dropped.cells == [[Some(2), Some(3), None, None]]
    ensures IndicesAgree(o) && o.width == 1 && o.height == 4
    ensures o.cells == [[Some(2), None, None, None]]
    ensures NotifyAbove(dropped, Coord(0, 0), false) == o
  {
    assert Get(dropped, Coord(0, 1)) == Some(3);
    o := Drop(dropped, 0, 1, false);
    TowerSecondFall();
    TowerFallCells(dropped, 1, [Some(2), None, None, None]);
  }

  /** On the one-column tower, the unchecked drop from row `r` leaves the column compacted as `after`. */
  lemma {:induction false} TowerFallCells(b: Board, r: int, after: Gravity.Column)
    requires IndicesAgree(b) && b.width == 1 && b.height == 4 && 0 <= r < 4
    requires Gravity.Fallen(b.cells[0], r) == after
    ensures Drop(b, 0, r, false).cells == [after]
  {
    var d := Drop(b, 0, r, false);
    Gravity.NotifyDownIsEmptyFalls(b, 0, r);
    assert d.cells[0] == after;
    assert d.cells == [d.cells[0]];
  }

  lemma {:induction false} TowerFirstFall()
    ensures Gravity.Fallen([None, None, Some(2), Some(3)], 2) == [Some(2), Some(3), None, None]
  {
    var col: Gravity.Column := [None, None, Some(2), Some(3)];
    assert Gravity.Landing(col, 1) == 0;
    assert Gravity.Landing(col, 2) == 0;
    assert Gravity.RunLength(col, 4) == 0;
    assert Gravity.RunLength(col, 3) == 1;
    assert Gravity.RunLength(col, 2) == 2;
    var f := Gravity.Fallen(col, 2);
    assert f[0] == Some(2);
    assert f[1] == Some(3);
    assert f[2] == None;
    assert f[3] == None;
  }

  lemma {:induction false} TowerSecondFall()
    ensures Gravity.Fallen([Some(2), Some(3), None, None], 1) == [Some(2), None, None, None]
  {
    var col: Gravity.Column := [Some(2), Some(3), None, None];
    assert Gravity.Landing(col, 1) == 1;
    assert Gravity.RunLength(col, 2) == 0;
    assert Gravity.RunLength(col, 1) == 1;
    var f := Gravity.Fallen(col, 1);
    assert f[0] == Some(2);
    assert f[1] == None;
    assert f[2] == None;
    assert f[3] == None;
  }
}

=== FILE: gravity.dfy ===
/**
 * Column compaction (`Board.NotifyDownIsEmpty`): a tile drops to the lowest empty cell of the
 * run of empty cells beneath it, and then the tile that was above its old cell is notified in
 * turn, so a contiguous stack of tiles falls together.
 */
module Gravity {
  import opened Cells
  import opened Boards
  import Hexes

  /** A column of cells, bottom row first. */
  type Column = seq<Option<TileId>>

  /**
   * The row a tile in row `r` drops to: scanning down from `r - 1`, one above the first
   * occupied cell, or row 0 when every cell below is empty.
   */
  function Landing(col: Column, r: int): (n: int)
    requires 0 <= r <= |col|
    ensures 0 <= n <= r
    ensures forall y :: n <= y < r ==> col[y].None?
    ensures n > 0 ==> col[n - 1].Some?
  {
    if r == 0 then 0
    else if col[r - 1].Some? then r
    else Landing(col, r - 1)
  }

  /** The landing row is the only row with the three properties above. */
  lemma {:induction false} LandingUnique(col: Column, r: int, n: int)
    requires 0 <= n <= r <= |col|
    requires forall y :: n <= y < r ==> col[y].None?
    requires n > 0 ==> col[n - 1].Some?
    ensures Landing(col, r) == n
  {
  }

  /** The number of occupied cells in the unbroken stack that starts at row `r`. */
  function RunLength(col: Column, r: int): (k: nat)
    requires 0 <= r <= |col|
    ensures r + k <= |col|
    ensures forall y :: r <= y < r + k ==> col[y].Some?
    ensures r + k < |col| ==> col[r + k].None?
    decreases |col| - r
  {
    if r == |col| || col[r].None? then 0 else 1 + RunLength(col, r + 1)
  }

  /** The stack length is the only length with the three properties above. */
  lemma {:induction false} RunLengthUnique(col: Column, r: int, k: nat)
    requires 0 <= r <= |col| && r + k <= |col|
    requires forall y :: r <= y < r + k ==> col[y].Some?
    requires r + k < |col| ==> col[r + k].None?
    ensures RunLength(col, r) == k
  {
  }

  /** `n` empty cells. */
  function Nones(n: nat): (s: Column)
    ensures |s| == n && forall y :: 0 <= y < n ==> s[y].None?
  {
    if n == 0 then [] else Nones(n - 1) + [None]
  }

  /**
   * What compaction does to row `y` of a column, stated directly. The stack of `k` tiles
   * starting at row `r` moves down, in order, to start at the landing row `n`, and the cells
   * it vacates become empty. When the cell below row `r` is occupied (or `r` is row 0) the
   * landing row is `r` itself, and the tile there is lost: the rest of the stack moves down
   * by one over it.
   */
  function FallenCell(col: Column, r: int, y: int): Option<TileId>
    requires 0 <= r < |col| && 0 <= y < |col|
  {
    var n := Landing(col, r);
    var k := RunLength(col, r);
    if k == 0 then col[y]
    else if n < r then
      if n <= y < n + k then col[y + (r - n)]
      else if n + k <= y < r + k then None
      else col[y]
    else
      if r <= y < r + k - 1 then col[y + 1]
      else if y == r + k - 1 then None
      else col[y]
  }

  /** The whole column after compaction from row `r`. */
  function Fallen(col: Column, r: int): (c: Column)
    requires 0 <= r < |col|
    ensures |c| == |col|
    ensures forall y :: 0 <= y < |col| ==> c[y] == FallenCell(col, r, y)
  {
    seq(|col|, y requires 0 <= y < |col| => FallenCell(col, r, y))
  }

  /**
   * One move of `NotifyDownIsEmpty`, for tile `id`, through the cell its own record names:
   * the tile is written into the landing cell below that row, told its new row with
   * `SetPosition`, and the recorded cell is emptied. The record need not name the cell the
   * tile occupies; whatever it names is where the move reads and writes, and that cell is
   * always left empty.
   */
  function Move(b: Board, id: TileId): (res: Board)
    requires WellFormed(b) && id in b.hexes && InBounds(IndexOf(b, id), b.width, b.height)
    ensures WellFormed(res) && res.width == b.width && res.height == b.height && res.nextId == b.nextId
    ensures res.hexes.Keys == b.hexes.Keys
    ensures var c := IndexOf(b, id); res.cells[c.x][c.y].None? && res.hexes[id].indexX == c.x
    ensures forall i :: 0 <= i < b.width && i != IndexOf(b, id).x ==> res.cells[i] == b.cells[i]
    ensures forall j :: j in b.hexes && j != id ==> res.hexes[j] == b.hexes[j]
  {
    var hex := b.hexes[id];
    var oldY := hex.indexY;
    var nextY := Landing(b.cells[hex.indexX], oldY);
    var b1 := Set(b, Coord(hex.indexX, nextY), Some(id));
    SetWellFormed(b, Coord(hex.indexX, nextY), Some(id));
    var b2 := b1.(hexes := b1.hexes[id := Hexes.SetPosition(hex, nextY, Coord(hex.indexX, nextY))]);
    SetWellFormed(b2, Coord(hex.indexX, oldY), None);
    Set(b2, Coord(hex.indexX, oldY), None)
  }

  /**
   * A move hands the moved tile a cell of the array and writes only that tile into the array,
   * so a board whose tiles all record cells of the array keeps that property.
   */
  lemma {:induction false} MoveAnchored(b: Board, id: TileId)
    requires Anchored(b) && id in b.hexes && InBounds(IndexOf(b, id), b.width, b.height)
    ensures Anchored(Move(b, id))
  {
    var res := Move(b, id);
    var c := IndexOf(b, id);
    var nextY := Landing(b.cells[c.x], c.y);
    assert res.hexes[id] == Hexes.SetPosition(b.hexes[id], nextY, Coord(c.x, nextY));
    forall x, y | 0 <= x < res.width && 0 <= y < res.height && res.cells[x][y].Some?
      ensures InBounds(IndexOf(res, res.cells[x][y].value), res.width, res.height)
    {
      var j := res.cells[x][y].value;
      if j != id {
        assert res.cells[x][y] == b.cells[x][y];
      }
    }
  }

  /** The move of the tile in cell (x, r) of an agreeing column, through that tile's record. */
  function MoveDown(b: Board, x: int, r: int): (res: Board)
    requires WellFormed(b) && 0 <= x < b.width && 0 <= r < b.height && ColumnAgrees(b, x)
    requires b.cells[x][r].Some?
    ensures WellFormed(res) && res.width == b.width && res.height == b.height && res.nextId == b.nextId
    ensures res.hexes.Keys == b.hexes.Keys
    ensures forall i :: 0 <= i < b.width && i != x ==> res.cells[i] == b.cells[i]
  {
    Move(b, b.cells[x][r].value)
  }

  /**
   * The effect of one move: the tile from row `r` is in its landing row and nowhere else it
   * was, its record reports the landing row, no other record changes, and the column still
   * agrees with its tiles' indices.
   */
  lemma {:induction false} MoveDownEffect(b: Board, x: int, r: int)
    requires WellFormed(b) && 0 <= x < b.width && 0 <= r < b.height && ColumnAgrees(b, x)
    requires b.cells[x][r].Some?
    ensures
      var id := b.cells[x][r].value;
      var n := Landing(b.cells[x], r);
      var res := MoveDown(b, x, r);
      res.cells[x] == b.cells[x][n := Some(id)][r := None]
      && res.hexes[id] == Hexes.SetPosition(b.hexes[id], n, Coord(x, n))
      && res.hexes[id].indexY == n
      && (forall j :: j in b.hexes && j != id ==> res.hexes[j] == b.hexes[j])
    ensures ColumnAgrees(MoveDown(b, x, r), x)
  {
    var id := b.cells[x][r].value;
    var res := MoveDown(b, x, r);
    var n := Landing(b.cells[x], r);
    assert b.hexes[id].indexX == x && b.hexes[id].indexY == r;
    forall y | 0 <= y < b.height && res.cells[x][y].Some?
      ensures res.hexes[res.cells[x][y].value].indexX == x && res.hexes[res.cells[x][y].value].indexY == y
    {
      if y != n {
        assert res.cells[x][y] == b.cells[x][y];
        var j := b.cells[x][y].value;
        assert b.hexes[j].indexY == y;
      }
    }
  }

  /** The column after one move: the tile from row `r` written to its landing row, row `r` emptied. */
  function Moved(col: Column, r: int): (c: Column)
    requires 0 <= r < |col|
    ensures |c| == |col|
  {
    col[Landing(col, r) := col[r]][r := None]
  }

  /** When the tile in the top row moves, that one move is the whole compaction. */
  lemma {:induction false} FallenLast(col: Column, r: int)
    requires 0 <= r && r + 1 == |col| && col[r].Some?
    ensures Fallen(col, r) == Moved(col, r)
  {
    RunLengthUnique(col, r, 1);
  }

  /**
   * A move that does not lose its tile leaves the rest of the stack to land one row above it,
   * so compacting from the next row finishes the same compaction.
   */
  lemma {:induction false} FallenStepDrop(col: Column, r: int)
    requires 0 <= r && r + 1 < |col| && col[r].Some? && Landing(col, r) < r
    ensures Fallen(Moved(col, r), r + 1) == Fallen(col, r)
  {
    var c := Moved(col, r);
    forall y | 0 <= y < |col|
      ensures Fallen(c, r + 1)[y] == Fallen(col, r)[y]
    {
      FallenStepDropAt(col, r, y);
    }
  }

  lemma {:induction false} FallenStepDropAt(col: Column, r: int, y: int)
    requires 0 <= r && r + 1 < |col| && col[r].Some? && Landing(col, r) < r && 0 <= y < |col|
    ensures FallenCell(Moved(col, r), r + 1, y) == FallenCell(col, r, y)
  {
    var n := Landing(col, r);
    var k := RunLength(col, r);
    var c := Moved(col, r);
    LandingUnique(c, r + 1, n + 1);
    assert RunLength(col, r) == 1 + RunLength(col, r + 1);
    RunLengthUnique(c, r + 1, k - 1);
  }


  /**
   * A move that loses its tile (its landing row is its own row) empties row `r`; the rest of
   * the stack then lands on row `r`, so compacting from the next row finishes the compaction.
   */
  lemma {:induction false} FallenStepErase(col: Column, r: int)
    requires 0 <= r && r + 1 < |col| && col[r].Some? && Landing(col, r) == r
    ensures Fallen(Moved(col, r), r + 1) == Fallen(col, r)
  {
    var c := Moved(col, r);
    forall y | 0 <= y < |col|
      ensures Fallen(c, r + 1)[y] == Fallen(col, r)[y]
    {
      FallenStepEraseAt(col, r, y);
    }
  }

  lemma {:induction false} FallenStepEraseAt(col: Column, r: int, y: int)
    requires 0 <= r && r + 1 < |col| && col[r].Some? && Landing(col, r) == r && 0 <= y < |col|
    ensures FallenCell(Moved(col, r), r + 1, y) == FallenCell(col, r, y)
  {
    var n := Landing(col, r);
    var k := RunLength(col, r);
    var c := Moved(col, r);
    LandingUnique(c, r + 1, r);
    assert RunLength(col, r) == 1 + RunLength(col, r + 1);
    RunLengthUnique(c, r + 1, k - 1);
  }


  /**
   * `NotifyDownIsEmpty` on the tile in cell (x, r): nothing for an empty cell; otherwise the
   * tile moves down and the cell above its old row is notified, while there is one. The
   * recursion climbs one row per call, so it ends within `height` calls.
   */
  function NotifyDownIsEmpty(b: Board, x: int, r: int): (res: Board)
    requires WellFormed(b) && 0 <= x < b.width && 0 <= r < b.height && ColumnAgrees(b, x)
    ensures WellFormed(res) && res.width == b.width && res.height == b.height && res.nextId == b.nextId
    ensures res.hexes.Keys == b.hexes.Keys
    ensures ColumnAgrees(res, x)
    ensures forall i :: 0 <= i < b.width && i != x ==> res.cells[i] == b.cells[i]
    decreases b.height - r
  {
    match b.cells[x][r]
    case None => b
    case Some(id) =>
      var oldY := b.hexes[id].indexY;
      MoveDownEffect(b, x, r);
      var moved := MoveDown(b, x, r);
      if oldY + 1 < b.height then NotifyDownIsEmpty(moved, x, oldY + 1) else moved
  }

  /** The column `NotifyDownIsEmpty` leaves behind is exactly the compacted column. */
  lemma {:induction false} NotifyDownIsEmptyFalls(b: Board, x: int, r: int)
    requires WellFormed(b) && 0 <= x < b.width && 0 <= r < b.height && ColumnAgrees(b, x)
    ensures NotifyDownIsEmpty(b, x, r).cells[x] == Fallen(b.cells[x], r)
    decreases b.height - r
  {
    if b.cells[x][r].Some? {
      MoveDownEffect(b, x, r);
      if r + 1 < b.height {
        NotifyDownIsEmptyFalls(MoveDown(b, x, r), x, r + 1);
        FallsStep(b, x, r);
      } else {
        FallsLast(b, x, r);
      }
    } else {
      RunLengthUnique(b.cells[x], r, 0);
    }
  }

  /** The step of `NotifyDownIsEmptyFalls`: the first move, then the compaction of the rows above. */
  lemma {:induction false} FallsStep(b: Board, x: int, r: int)
    requires WellFormed(b) && 0 <= x < b.width && 0 <= r && r + 1 < b.height && ColumnAgrees(b, x)
    requires b.cells[x][r].Some?
    requires WellFormed(MoveDown(b, x, r)) && ColumnAgrees(MoveDown(b, x, r), x)
    requires NotifyDownIsEmpty(MoveDown(b, x, r), x, r + 1).cells[x] == Fallen(MoveDown(b, x, r).cells[x], r + 1)
    ensures NotifyDownIsEmpty(b, x, r).cells[x] == Fallen(b.cells[x], r)
  {
    var col := b.cells[x];
    MoveDownNoSecondLoss(b, x, r);
    MoveDownEffect(b, x, r);
    assert MoveDown(b, x, r).cells[x] == Moved(col, r);
    if Landing(col, r) < r {
      FallenStepDrop(col, r);
    } else {
      FallenStepErase(col, r);
    }
  }

  /** On the bottom row compaction is the one move. */
  lemma {:induction false} FallsLast(b: Board, x: int, r: int)
    requires WellFormed(b) && 0 <= x < b.width && 0 <= r && r + 1 == b.height && ColumnAgrees(b, x)
    requires b.cells[x][r].Some?
    ensures NotifyDownIsEmpty(b, x, r).cells[x] == Fallen(b.cells[x], r)
  {
    MoveDownLast(b, x, r);
    MoveDownEffect(b, x, r);
    assert MoveDown(b, x, r).cells[x] == Moved(b.cells[x], r);
    FallenLast(b.cells[x], r);
  }

  /** Compaction from row `r` loses a tile exactly when the tile there has nowhere to fall. */
  predicate Erases(col: Column, r: int)
    requires 0 <= r < |col|
  {
    col[r].Some? && Landing(col, r) == r
  }

  /**
   * One move keeps the multiset of cell contents, unless it loses its tile: then that tile
   * is replaced by one more empty cell.
   */
  lemma {:induction false} MoveDownContents(b: Board, x: int, r: int)
    requires WellFormed(b) && 0 <= x < b.width && 0 <= r < b.height && ColumnAgrees(b, x)
    requires b.cells[x][r].Some?
    ensures Contents(MoveDown(b, x, r)) ==
      if Erases(b.cells[x], r) then Contents(b) - multiset{b.cells[x][r]} + multiset{None} else Contents(b)
  {
    var id := b.cells[x][r].value;
    var n := Landing(b.cells[x], r);
    assert b.hexes[id].indexX == x && b.hexes[id].indexY == r;
    var b1 := Set(b, Coord(x, n), Some(id));
    var b2 := b1.(hexes := b1.hexes[id := Hexes.SetPosition(b.hexes[id], n, Coord(x, n))]);
    var res := Set(b2, Coord(x, r), None);
    assert res == MoveDown(b, x, r);
    var m, held := Contents(b), Get(b, Coord(x, n));
    ContentsSet(b, Coord(x, n), Some(id));
    assert Contents(b1) == m - multiset{held} + multiset{Some(id)};
    assert Contents(b2) == Contents(b1);
    ContentsSet(b2, Coord(x, r), None);
    assert Get(b2, Coord(x, r)) == Some(id);
    assert Contents(res) == m - multiset{held} + multiset{Some(id)} - multiset{Some(id)} + multiset{None};
    if n < r {
      assert held == None;
      ReplaceUndone(m, None, Some(id));
    } else {
      assert held == Some(id) == b.cells[x][r];
      ReplaceRedone(m, Some(id), None);
    }
  }

  /** Replacing `a` by `c` and then `c` by `a` changes nothing. */
  lemma {:induction false} ReplaceUndone<T>(m: multiset<T>, a: T, c: T)
    requires a in m
    ensures m - multiset{a} + multiset{c} - multiset{c} + multiset{a} == m
  {
  }

  /** Putting `a` back and taking it out again leaves only the last replacement. */
  lemma {:induction false} ReplaceRedone<T>(m: multiset<T>, a: T, c: T)
    requires a in m
    ensures m - multiset{a} + multiset{a} - multiset{a} + multiset{c} == m - multiset{a} + multiset{c}
  {
  }

  /** The row a move leaves is empty, so the tile above it always has somewhere to fall. */
  lemma {:induction false} MoveDownNoSecondLoss(b: Board, x: int, r: int)
    requires WellFormed(b) && 0 <= x < b.width && 0 <= r < b.height && ColumnAgrees(b, x)
    requires b.cells[x][r].Some? && r + 1 < b.height
    ensures WellFormed(MoveDown(b, x, r)) && ColumnAgrees(MoveDown(b, x, r), x)
    ensures b.hexes[b.cells[x][r].value].indexY == r
    ensures !Erases(MoveDown(b, x, r).cells[x], r + 1)
    ensures NotifyDownIsEmpty(b, x, r) == NotifyDownIsEmpty(MoveDown(b, x, r), x, r + 1)
  {
    MoveDownEffect(b, x, r);
    var col := MoveDown(b, x, r).cells[x];
    assert col[r] == None;
    assert Landing(col, r + 1) != r + 1;
    MoveDownClimbs(b, x, r);
  }

  /** After the move from row `r`, the notification goes on with the row above it. */
  lemma {:induction false} MoveDownClimbs(b: Board, x: int, r: int)
    requires WellFormed(b) && 0 <= x < b.width && 0 <= r < b.height && ColumnAgrees(b, x)
    requires b.cells[x][r].Some? && r + 1 < b.height
    requires WellFormed(MoveDown(b, x, r)) && ColumnAgrees(MoveDown(b, x, r), x)
    ensures NotifyDownIsEmpty(b, x, r) == NotifyDownIsEmpty(MoveDown(b, x, r), x, r + 1)
  {
    var id := b.cells[x][r].value;
    IndexYAgrees(b, x, r);
    assert b.cells[x][r] == Some(id);
  }

  /** In an agreeing column, the tile in row `r` records row `r`. */
  lemma {:induction false} IndexYAgrees(b: Board, x: int, r: int)
    requires WellFormed(b) && 0 <= x < b.width && 0 <= r < b.height && ColumnAgrees(b, x)
    requires b.cells[x][r].Some?
    ensures b.cells[x][r].value in b.hexes && b.hexes[b.cells[x][r].value].indexY == r
  {
  }

  /** On the bottom row the first move is the whole compaction. */
  lemma {:induction false} MoveDownLast(b: Board, x: int, r: int)
    requires WellFormed(b) && 0 <= x < b.width && 0 <= r < b.height && ColumnAgrees(b, x)
    requires b.cells[x][r].Some? && r + 1 == b.height
    ensures NotifyDownIsEmpty(b, x, r) == MoveDown(b, x, r)
  {
    MoveDownEffect(b, x, r);
  }

  /**
   * Compaction keeps the multiset of cell contents, except that a lost tile becomes one more
   * empty cell. After the first move the cell below the next row is the one just vacated, so only the
   * first move can lose its tile.
   */
  lemma {:induction false} NotifyDownIsEmptyContents(b: Board, x: int, r: int)
    requires WellFormed(b) && 0 <= x < b.width && 0 <= r < b.height && ColumnAgrees(b, x)
    ensures Contents(NotifyDownIsEmpty(b, x, r)) ==
      if Erases(b.cells[x], r) then Contents(b) - multiset{b.cells[x][r]} + multiset{None} else Contents(b)
    decreases b.height - r, 1
  {
    if b.cells[x][r].None? {
      assert NotifyDownIsEmpty(b, x, r) == b;
    } else if r + 1 < b.height {
      NotifyDownIsEmptyContentsStep(b, x, r);
    } else {
      MoveDownLast(b, x, r);
      MoveDownContents(b, x, r);
    }
  }

  /** The inductive step: the first move, then compaction from the row it vacated. */
  lemma {:induction false} NotifyDownIsEmptyContentsStep(b: Board, x: int, r: int)
    requires WellFormed(b) && 0 <= x < b.width && 0 <= r < b.height && ColumnAgrees(b, x)
    requires b.cells[x][r].Some? && r + 1 < b.height
    ensures Contents(NotifyDownIsEmpty(b, x, r)) ==
      if Erases(b.cells[x], r) then Contents(b) - multiset{b.cells[x][r]} + multiset{None} else Contents(b)
    decreases b.height - r, 0
  {
    var moved := MoveDown(b, x, r);
    MoveDownContents(b, x, r);
    MoveDownNoSecondLoss(b, x, r);
    NotifyDownIsEmptyContents(moved, x, r + 1);
  }

  /** The tiles of a column from the bottom up, gaps left out. */
  function Occupants(col: Column): (ids: seq<TileId>)
  {
    if col == [] then []
    else (if col[0].Some? then [col[0].value] else []) + Occupants(col[1..])
  }

  lemma {:induction false} OccupantsAppend(a: Column, c: Column)
    ensures Occupants(a + c) == Occupants(a) + Occupants(c)
  {
    if a == [] {
      assert a + c == c;
    } else {
      var head := if a[0].Some? then [a[0].value] else [];
      var ac := a + c;
      assert ac[0] == a[0];
      assert ac[1..] == a[1..] + c;
      OccupantsAppend(a[1..], c);
      calc {
        Occupants(ac);
        head + Occupants(a[1..] + c);
        head + (Occupants(a[1..]) + Occupants(c));
        (head + Occupants(a[1..])) + Occupants(c);
        Occupants(a) + Occupants(c);
      }
    }
  }

  lemma {:induction false} OccupantsOfGap(s: Column)
    requires forall y :: 0 <= y < |s| ==> s[y].None?
    ensures Occupants(s) == []
  {
    if s != [] {
      OccupantsOfGap(s[1..]);
    }
  }

  /** Compaction that drops its stack onto a lower landing row, as four blocks. */
  lemma {:induction false} FallenDropLayout(col: Column, r: int)
    requires 0 <= r < |col| && RunLength(col, r) > 0 && Landing(col, r) < r
    ensures var n, k := Landing(col, r), RunLength(col, r);
      Fallen(col, r) == col[..n] + col[r..r + k] + Nones(r - n) + col[r + k..]
  {
    var n, k := Landing(col, r), RunLength(col, r);
    var f := Fallen(col, r);
    forall y {:trigger f[y]} | 0 <= y < |col|
      ensures f[y] == if n <= y < n + k then col[y + (r - n)] else if n + k <= y < r + k then None else col[y]
    {
      assert f[y] == FallenCell(col, r, y);
    }
    DropBlocks(col, f, n, r, k);
  }

  /** A column that is `col` with the stack at rows `r .. r + k` moved down to row `n`, as four blocks. */
  lemma {:induction false} DropBlocks(col: Column, f: Column, n: int, r: int, k: int)
    requires 0 <= n < r && 0 < k && r + k <= |col| && |f| == |col|
    requires forall y {:trigger f[y]} :: 0 <= y < |col| ==>
      f[y] == if n <= y < n + k then col[y + (r - n)] else if n + k <= y < r + k then None else col[y]
    ensures f == col[..n] + col[r..r + k] + Nones(r - n) + col[r + k..]
  {
    var low := col[..n] + col[r..r + k];
    var lower := low + Nones(r - n);
    var g := lower + col[r + k..];
    assert |low| == n + k && |lower| == r + k && |g| == |f|;
    forall y | 0 <= y < |f|
      ensures f[y] == g[y]
    {
      if y < r + k {
        assert g[y] == lower[y];
        if y < n + k {
          assert lower[y] == low[y];
          if y < n {
            assert low[y] == col[..n][y];
          } else {
            assert low[y] == col[r..r + k][y - n];
          }
        } else {
          assert lower[y] == Nones(r - n)[y - (n + k)];
        }
      } else {
        assert g[y] == col[r + k..][y - (r + k)];
      }
    }
  }

  /** Compaction that loses the tile at row `r`, as four blocks. */
  lemma {:induction false} FallenEraseLayout(col: Column, r: int)
    requires 0 <= r < |col| && col[r].Some? && Landing(col, r) == r
    ensures var k := RunLength(col, r);
      k > 0 && Fallen(col, r) == col[..r] + col[r + 1..r + k] + [None] + col[r + k..]
  {
    var k := RunLength(col, r);
    var f := Fallen(col, r);
    forall y {:trigger f[y]} | 0 <= y < |col|
      ensures f[y] == if r <= y < r + k - 1 then col[y + 1] else if y == r + k - 1 then None else col[y]
    {
      assert f[y] == FallenCell(col, r, y);
    }
    EraseBlocks(col, f, r, k);
  }

  /** A column that is `col` with row `r` taken out of the stack at rows `r .. r + k` and a gap left on top, as four blocks. */
  lemma {:induction false} EraseBlocks(col: Column, f: Column, r: int, k: int)
    requires 0 <= r && 0 < k && r + k <= |col| && |f| == |col|
    requires forall y {:trigger f[y]} :: 0 <= y < |col| ==>
      f[y] == if r <= y < r + k - 1 then col[y + 1] else if y == r + k - 1 then None else col[y]
    ensures f == col[..r] + col[r + 1..r + k] + [None] + col[r + k..]
  {
    var low := col[..r] + col[r + 1..r + k];
    var lower := low + [None];
    var g := lower + col[r + k..];
    assert |low| == r + k - 1 && |lower| == r + k && |g| == |f|;
    forall y | 0 <= y < |f|
      ensures f[y] == g[y]
    {
      if y < r + k {
        assert g[y] == lower[y];
        if y < r + k - 1 {
          assert lower[y] == low[y];
          if y < r {
            assert low[y] == col[..r][y];
          } else {
            assert low[y] == col[r + 1..r + k][y - r];
          }
        }
      } else {
        assert g[y] == col[r + k..][y - (r + k)];
      }
    }
  }

  /**
   * Compaction keeps the column's tiles in their bottom-to-top order: no tile passes another,
   * none is duplicated and none arrives from elsewhere. Only the tile at row `r` can go, and
   * it goes exactly when it has nowhere to fall.
   */
  lemma {:induction false} FallenKeepsOrder(col: Column, r: int)
    requires 0 <= r < |col|
    ensures !Erases(col, r) ==> Occupants(Fallen(col, r)) == Occupants(col)
    ensures Erases(col, r) ==> Occupants(Fallen(col, r)) == Occupants(col[..r]) + Occupants(col[r + 1..])
  {
    if RunLength(col, r) == 0 {
      assert Fallen(col, r) == col;
    } else if Landing(col, r) < r {
      FallenDropOrder(col, r);
    } else {
      FallenEraseOrder(col, r);
    }
  }

  /** `Occupants` of four consecutive blocks. */
  lemma {:induction false} OccupantsOfFour(a: Column, c: Column, d: Column, e: Column)
    ensures Occupants(a + c + d + e) == Occupants(a) + Occupants(c) + Occupants(d) + Occupants(e)
  {
    OccupantsAppend(a + c + d, e);
    OccupantsAppend(a + c, d);
    OccupantsAppend(a, c);
  }

  lemma {:induction false} FallenDropOrder(col: Column, r: int)
    requires 0 <= r < |col| && RunLength(col, r) > 0 && Landing(col, r) < r
    ensures Occupants(Fallen(col, r)) == Occupants(col)
  {
    var n, k := Landing(col, r), RunLength(col, r);
    FallenDropLayout(col, r);
    var below, gap, stack, above := col[..n], col[n..r], col[r..r + k], col[r + k..];
    SplitFour(col, n, r, r + k);
    OccupantsOfGap(gap);
    OccupantsOfGap(Nones(r - n));
    SwapGap(below, gap, stack, Nones(r - n), above);
  }

  /** A column is its four consecutive slices laid end to end. */
  lemma {:induction false} SplitFour(col: Column, i: int, j: int, l: int)
    requires 0 <= i <= j <= l <= |col|
    ensures col == col[..i] + col[i..j] + col[j..l] + col[l..]
  {
  }

  /** Moving a stack down over one gap and leaving another behind keeps the tiles' order. */
  lemma {:induction false} SwapGap(below: Column, gap: Column, stack: Column, left: Column, above: Column)
    requires Occupants(gap) == [] && Occupants(left) == []
    ensures Occupants(below + stack + left + above) == Occupants(below + gap + stack + above)
  {
    OccupantsOfFour(below, gap, stack, above);
    OccupantsOfFour(below, stack, left, above);
  }

  lemma {:induction false} FallenEraseOrder(col: Column, r: int)
    requires 0 <= r < |col| && col[r].Some? && Landing(col, r) == r
    ensures Occupants(Fallen(col, r)) == Occupants(col[..r]) + Occupants(col[r + 1..])
  {
    var k := RunLength(col, r);
    FallenEraseLayout(col, r);
    assert col[r + 1..] == col[r + 1..r + k] + col[r + k..];
    OccupantsDropGap(col[..r], col[r + 1..r + k], col[r + k..]);
  }

  /** A gap between two blocks drops out of the occupants. */
  lemma {:induction false} OccupantsDropGap(a: Column, c: Column, e: Column)
    ensures Occupants(a + c + [None] + e) == Occupants(a) + Occupants(c + e)
  {
    OccupantsSkipGap(a, c, e);
    OccupantsAppend(c, e);
  }

  lemma {:induction false} OccupantsSkipGap(a: Column, c: Column, e: Column)
    ensures Occupants(a + c + [None] + e) == Occupants(a) + (Occupants(c) + Occupants(e))
  {
    OccupantsOfGap([None]);
    OccupantsOfFour(a, c, [None], e);
    var oa, oc, oe := Occupants(a), Occupants(c), Occupants(e);
    assert oa + oc + [] + oe == oa + (oc + oe);
  }

  /** `NotifyDownIsEmpty` keeps the order of the column's tiles and loses at most the first. */
  lemma {:induction false} NotifyDownIsEmptyKeepsOrder(b: Board, x: int, r: int)
    requires WellFormed(b) && 0 <= x < b.width && 0 <= r < b.height && ColumnAgrees(b, x)
    ensures var col, res := b.cells[x], NotifyDownIsEmpty(b, x, r).cells[x];
      && (!Erases(col, r) ==> Occupants(res) == Occupants(col))
      && (Erases(col, r) ==> Occupants(res) == Occupants(col[..r]) + Occupants(col[r + 1..]))
  {
    NotifyDownIsEmptyFalls(b, x, r);
    FallenKeepsOrder(b.cells[x], r);
  }

  /** A move keeps every tile's indices in agreement with its cell, across the whole board. */
  lemma {:induction false} MoveDownKeepsAgreement(b: Board, x: int, r: int)
    requires IndicesAgree(b) && 0 <= x < b.width && 0 <= r < b.height
    requires b.cells[x][r].Some?
    ensures IndicesAgree(MoveDown(b, x, r))
  {
    var id := b.cells[x][r].value;
    var res := MoveDown(b, x, r);
    MoveDownEffect(b, x, r);
    forall i | 0 <= i < res.width && i != x
      ensures ColumnAgrees(res, i)
    {
      forall y | 0 <= y < res.height && res.cells[i][y].Some?
        ensures res.hexes[res.cells[i][y].value].indexX == i
        ensures res.hexes[res.cells[i][y].value].indexY == y
      {
        var j := res.cells[i][y].value;
        assert b.cells[i][y] == Some(j);
        assert ColumnAgrees(b, i);
        assert b.hexes[j].indexX == i && b.hexes[j].indexY == y;
        assert ColumnAgrees(b, x);
        assert j != id;
        assert res.hexes[j] == b.hexes[j];
      }
    }
  }

  /** `NotifyDownIsEmpty` keeps every tile's indices in agreement with its cell. */
  lemma {:induction false} NotifyDownIsEmptyKeepsAgreement(b: Board, x: int, r: int)
    requires IndicesAgree(b) && 0 <= x < b.width && 0 <= r < b.height
    ensures IndicesAgree(NotifyDownIsEmpty(b, x, r))
    decreases b.height - r
  {
    if b.cells[x][r].None? {
      assert NotifyDownIsEmpty(b, x, r) == b;
    } else if r + 1 < b.height {
      MoveDownKeepsAgreement(b, x, r);
      MoveDownNoSecondLoss(b, x, r);
      NotifyDownIsEmptyKeepsAgreement(MoveDown(b, x, r), x, r + 1);
    } else {
      MoveDownKeepsAgreement(b, x, r);
      MoveDownLast(b, x, r);
    }
  }

  /**
   * `NotifyDownIsEmpty` with the evidently intended guard: a tile whose cell below is occupied
   * (or which is on row 0) stays where it is, and so do the tiles stacked on it.
   */
  function NotifyDownIsEmptyChecked(b: Board, x: int, r: int): (res: Board)
    requires WellFormed(b) && 0 <= x < b.width && 0 <= r < b.height && ColumnAgrees(b, x)
    ensures WellFormed(res) && res.width == b.width && res.height == b.height && res.nextId == b.nextId
    ensures res.hexes.Keys == b.hexes.Keys
    ensures ColumnAgrees(res, x)
    ensures forall i :: 0 <= i < b.width && i != x ==> res.cells[i] == b.cells[i]
  {
    if Erases(b.cells[x], r) then b else NotifyDownIsEmpty(b, x, r)
  }

  /**
   * The guarded compaction loses nothing: the array holds the same tiles and empty cells, and
   * the column's tiles keep their bottom-to-top order.
   */
  lemma {:induction false} NotifyDownIsEmptyCheckedKeeps(b: Board, x: int, r: int)
    requires WellFormed(b) && 0 <= x < b.width && 0 <= r < b.height && ColumnAgrees(b, x)
    ensures Contents(NotifyDownIsEmptyChecked(b, x, r)) == Contents(b)
    ensures Occupants(NotifyDownIsEmptyChecked(b, x, r).cells[x]) == Occupants(b.cells[x])
  {
    if !Erases(b.cells[x], r) {
      NotifyDownIsEmptyContents(b, x, r);
      NotifyDownIsEmptyKeepsOrder(b, x, r);
    }
  }

  /** The guarded compaction keeps every tile's indices in agreement with its cell. */
  lemma {:induction false} NotifyDownIsEmptyCheckedKeepsAgreement(b: Board, x: int, r: int)
    requires IndicesAgree(b) && 0 <= x < b.width && 0 <= r < b.height
    ensures IndicesAgree(NotifyDownIsEmptyChecked(b, x, r))
  {
    if !Erases(b.cells[x], r) {
      NotifyDownIsEmptyKeepsAgreement(b, x, r);
    }
  }

  /**
   * What `NotifyDownIsEmpty` leaves when the tiles' records may be stale: the board, and
   * whether the recursion ran deeper than the runtime's stack allows (a
   * `StackOverflowException`, a fault like any other thrown exception).
   */
  datatype Compacted = Compacted(board: Board, overflow: bool)

  /** The tile read from a cell, if any, records a cell of the array. */
  predicate Notifiable(b: Board, v: Option<TileId>)
  {
    v.Some? ==> v.value in b.hexes && InBounds(IndexOf(b, v.value), b.width, b.height)
  }

  /**
   * `NotifyDownIsEmpty` as written, on any board whose tiles record cells of the array: a
   * null argument returns; otherwise the tile moves through the cell its record names, and
   * the cell above that recorded row is read and notified in turn. `stack` is the number of
   * calls the runtime's stack still has room for; with stale records the recursion need not
   * climb, so it is not bounded by the height.
   */
  function NotifyStale(b: Board, v: Option<TileId>, stack: nat): (res: Compacted)
    requires Anchored(b) && Notifiable(b, v)
    ensures Anchored(res.board) && res.board.width == b.width && res.board.height == b.height
    ensures res.board.hexes.Keys == b.hexes.Keys && res.board.nextId == b.nextId
    ensures !Full(b) ==> !Full(res.board)
    ensures v.Some? && !res.overflow ==> !Full(res.board)
    ensures v.None? ==> res == Compacted(b, stack == 0)
    decreases stack
  {
    if stack == 0 then Compacted(b, true)
    else
      match v
      case None => Compacted(b, false)
      case Some(id) =>
        var c := IndexOf(b, id);
        var moved := Move(b, id);
        MoveAnchored(b, id);
        assert !Full(moved) by {
          assert moved.cells[c.x][c.y].None?;
        }
        if c.y + 1 < b.height then
          var above := Get(moved, Coord(c.x, c.y + 1));
          NotifiableCell(moved, Coord(c.x, c.y + 1));
          NotifyStale(moved, above, stack - 1)
        else Compacted(moved, false)
  }

  /** Whatever a cell of an anchored board holds can be notified. */
  lemma {:induction false} NotifiableCell(b: Board, c: Coord)
    requires Anchored(b) && InBounds(c, b.width, b.height)
    ensures Notifiable(b, Get(b, c))
  {
  }

  /**
   * With records that agree with their cells and room for one call per row above `r`, the
   * code's recursion is exactly the agreeing-index compaction: it climbs one row per call and
   * never overflows.
   */
  lemma {:induction false} NotifyStaleAgrees(b: Board, x: int, r: int, stack: nat)
    requires IndicesAgree(b) && 0 <= x < b.width && 0 <= r < b.height && stack >= b.height - r
    ensures Anchored(b) && Notifiable(b, Get(b, Coord(x, r)))
    ensures NotifyStale(b, Get(b, Coord(x, r)), stack) == Compacted(NotifyDownIsEmpty(b, x, r), false)
    decreases b.height - r
  {
    AgreeAnchored(b);
    NotifiableCell(b, Coord(x, r));
    if b.cells[x][r].None? {
      assert NotifyDownIsEmpty(b, x, r) == b;
    } else if r + 1 < b.height {
      MoveDownKeepsAgreement(b, x, r);
      var moved, above, st := MoveDown(b, x, r), r + 1, stack - 1;
      NotifyStaleAgrees(moved, x, above, st);
      NotifyStaleAgreesStep(b, x, r, stack, moved, above, st);
    } else {
      NotifyStaleAgreesTop(b, x, r, stack);
    }
  }

  /** The step of `NotifyStaleAgrees`: the tile in (x, r) records (x, r), so the code's move is the agreeing move. */
  lemma {:induction false} NotifyStaleAgreesStep(b: Board, x: int, r: int, stack: nat, moved: Board, above: int, st: nat)
    requires IndicesAgree(b) && 0 <= x < b.width && 0 <= r && r + 1 < b.height && stack >= b.height - r
    requires b.cells[x][r].Some?
    requires moved == MoveDown(b, x, r) && above == r + 1 && st == stack - 1
    requires Anchored(b) && IndicesAgree(moved)
    requires Anchored(moved) && Notifiable(moved, Get(moved, Coord(x, above)))
    requires NotifyStale(moved, Get(moved, Coord(x, above)), st) == Compacted(NotifyDownIsEmpty(moved, x, above), false)
    ensures Notifiable(b, Get(b, Coord(x, r)))
    ensures NotifyStale(b, Get(b, Coord(x, r)), stack) == Compacted(NotifyDownIsEmpty(b, x, r), false)
  {
    var id := b.cells[x][r].value;
    IndexYAgrees(b, x, r);
    assert Get(b, Coord(x, r)) == Some(id);
    assert IndexOf(b, id) == Coord(x, r);
    assert Move(b, id) == moved;
    NotifyStaleStep(b, id, stack, moved, Coord(x, above), st);
    MoveDownClimbs(b, x, r);
    assert NotifyDownIsEmpty(b, x, r) == NotifyDownIsEmpty(moved, x, above);
  }

  /** On the top row the code's one move is the agreeing move. */
  lemma {:induction false} NotifyStaleAgreesTop(b: Board, x: int, r: int, stack: nat)
    requires IndicesAgree(b) && 0 <= x < b.width && 0 <= r && r + 1 == b.height && stack >= 1
    requires b.cells[x][r].Some? && Anchored(b)
    ensures Notifiable(b, Get(b, Coord(x, r)))
    ensures NotifyStale(b, Get(b, Coord(x, r)), stack) == Compacted(NotifyDownIsEmpty(b, x, r), false)
  {
    var id := b.cells[x][r].value;
    IndexYAgrees(b, x, r);
    assert ColumnAgrees(b, x);
    assert IndexOf(b, id) == Coord(x, r);
    NotifyStaleTop(b, id, stack);
    MoveDownLast(b, x, r);
  }

  /** A call on a tile whose recorded row is the top row is the one move. */
  lemma {:induction false} NotifyStaleTop(b: Board, id: TileId, stack: nat)
    requires Anchored(b) && Notifiable(b, Some(id)) && stack > 0
    requires IndexOf(b, id).y + 1 >= b.height
    ensures NotifyStale(b, Some(id), stack) == Compacted(Move(b, id), false)
  {
  }

  /** A call on a tile below the top row is the move, then a call on the cell above the recorded row. */
  lemma {:induction false} NotifyStaleStep(b: Board, id: TileId, stack: nat, moved: Board, up: Coord, st: nat)
    requires Anchored(b) && Notifiable(b, Some(id)) && stack > 0 && st == stack - 1
    requires moved == Move(b, id) && up == Coord(IndexOf(b, id).x, IndexOf(b, id).y + 1)
    requires InBounds(up, b.width, b.height) && Anchored(moved) && Notifiable(moved, Get(moved, up))
    ensures NotifyStale(b, Some(id), stack) == NotifyStale(moved, Get(moved, up), st)
  {
  }

  /**
   * The loop stale records allow: tile `id` sits in cell (x, y + 1) but records (x, y); that
   * cell is empty and the one below it is occupied (or y is row 0). The move then lands on
   * row y and empties it again, leaving the board as it was, and the cell above the recorded
   * row is the tile's own cell, so the recursion notifies the same tile forever and overflows
   * whatever the stack.
   */
  lemma {:induction false} NotifyStaleLoops(b: Board, id: TileId, x: int, y: int, stack: nat)
    requires Anchored(b) && 0 <= x < b.width && 0 <= y && y + 1 < b.height
    requires b.cells[x][y + 1] == Some(id) && id in b.hexes && IndexOf(b, id) == Coord(x, y)
    requires b.cells[x][y].None? && (y == 0 || b.cells[x][y - 1].Some?)
    ensures NotifyStale(b, Some(id), stack).overflow
    decreases stack
  {
    if stack > 0 {
      var st: nat := stack - 1;
      MoveInPlace(b, id, x, y);
      assert Get(b, Coord(x, y + 1)) == Some(id);
      NotifyStaleStep(b, id, stack, b, Coord(x, y + 1), st);
      NotifyStaleLoops(b, id, x, y, st);
    }
  }

  /** A tile whose recorded cell is empty and has nowhere below to go is moved onto that cell and off it again: no change. */
  lemma {:induction false} MoveInPlace(b: Board, id: TileId, x: int, y: int)
    requires WellFormed(b) && 0 <= x < b.width && 0 <= y < b.height
    requires id in b.hexes && IndexOf(b, id) == Coord(x, y)
    requires b.cells[x][y].None? && (y == 0 || b.cells[x][y - 1].Some?)
    ensures Move(b, id) == b
  {
    LandingUnique(b.cells[x], y, y);
    var res := Move(b, id);
    assert res.hexes[id] == b.hexes[id];
    assert res.hexes == b.hexes;
    assert res.cells[x] == b.cells[x];
    BoardExt(res, b);
  }
}

=== FILE: hexes.dfy ===
/** The tile record (`HexBehaviour`): grid index, type, target socket, motion flags and bomb hook. */
module Hexes {
  import opened Cells
  import Bombs

  /**
   * One tile. `target` names the socket the tile falls towards by its grid coordinate;
   * `isOnTarget` is false while the presentation layer is still moving the tile there.
   * `bomb` is the attached countdown object, `isBomb`/`bombRemaining` the tile's own copy.
   */
  datatype Hex = Hex(
    indexX: int,
    indexY: int,
    typeId: int,
    target: Coord,
    isOnTarget: bool,
    isExploded: bool,
    isBomb: bool,
    bombRemaining: int,
    bomb: Option<Bombs.Bomb>)

  /** A freshly instantiated component: every field at its default value. */
  const Blank: Hex := Hex(0, 0, 0, Coord(0, 0), false, false, false, 0, None)

  /** `Init`: records the socket, the index and the type, and touches nothing else. */
  function Init(h: Hex, socket: Coord, x: int, y: int, typeId: int): (r: Hex)
    ensures r.indexX == x && r.indexY == y && r.typeId == typeId && r.target == socket
    ensures r.(indexX := h.indexX, indexY := h.indexY, typeId := h.typeId, target := h.target) == h
  {
    h.(target := socket, indexX := x, indexY := y, typeId := typeId)
  }

  /** `InitBomb`: marks the tile as a bomb and attaches a countdown started at `limit`. */
  function InitBomb(h: Hex, limit: int): (r: Hex)
    ensures IsBomb(r) && r.bomb == Some(Bombs.Init(limit)) && r.bombRemaining == limit
    ensures r.(isBomb := h.isBomb, bombRemaining := h.bombRemaining, bomb := h.bomb) == h
  {
    h.(isBomb := true, bombRemaining := limit, bomb := Some(Bombs.Init(limit)))
  }

  predicate IsBomb(h: Hex)
  {
    h.isBomb
  }

  /** `IsMoving`: a tile moves while it is neither exploded nor on its target. */
  predicate IsMoving(h: Hex)
  {
    !h.isExploded && !h.isOnTarget
  }

  /** `IsSameType`: two tiles match when their type ids are equal. */
  predicate IsSameType(a: Hex, b: Hex)
  {
    a.typeId == b.typeId
  }

  /** `IsSameType` is an equivalence relation. */
  lemma {:induction false} SameTypeIsEquivalence(a: Hex, b: Hex, c: Hex)
    ensures IsSameType(a, a)
    ensures IsSameType(a, b) <==> IsSameType(b, a)
    ensures IsSameType(a, b) && IsSameType(b, c) ==> IsSameType(a, c)
  {
  }

  /**
   * `SetPosition`: moving to the row the tile already has is a no-op; otherwise the row and
   * the target change and the tile starts moving. No other field ever changes.
   */
  function SetPosition(h: Hex, y: int, socket: Coord): (r: Hex)
    ensures r.indexX == h.indexX && r.typeId == h.typeId && r.bomb == h.bomb
    ensures r.indexY == y
    ensures y == h.indexY ==> r == h
    ensures y != h.indexY ==> r.target == socket && !r.isOnTarget && r.isExploded == h.isExploded
    ensures r.(indexY := h.indexY, target := h.target, isOnTarget := h.isOnTarget) == h
  {
    if y != h.indexY then h.(indexY := y, target := socket, isOnTarget := false) else h
  }

  /** A second `SetPosition` to the same row changes nothing. */
  lemma {:induction false} SetPositionIdempotent(h: Hex, y: int, s1: Coord, s2: Coord)
    ensures SetPosition(SetPosition(h, y, s1), y, s2) == SetPosition(h, y, s1)
  {
  }

  /** `SetIndex`: overwrites both indices and the target, and nothing else. */
  function SetIndex(h: Hex, x: int, y: int, socket: Coord): (r: Hex)
    ensures r.indexX == x && r.indexY == y && r.target == socket
    ensures r.(indexX := h.indexX, indexY := h.indexY, target := h.target) == h
  {
    h.(indexX := x, indexY := y, target := socket)
  }

  /**
   * `Explode` as written assigns `false` to the exploded flag, so the record is left as it
   * was; the particles, the deferred destroy and the exploded event are effects outside it.
   */
  function Explode(h: Hex): (r: Hex)
    ensures !r.isExploded
    ensures r.(isExploded := h.isExploded) == h
  {
    h.(isExploded := false)
  }

  /** Exploding a tile that was still falling leaves it reported as moving. */
  lemma {:induction false} ExplodeKeepsMoving(h: Hex)
    requires !h.isExploded
    ensures IsMoving(Explode(h)) == IsMoving(h)
  {
  }

  /** The presentation layer's `Update` landing the tile: it is on its target from now on. */
  function Settle(h: Hex): (r: Hex)
    ensures !IsMoving(r)
    ensures r.(isOnTarget := h.isOnTarget) == h
  {
    h.(isOnTarget := true)
  }

  /** `OnMovementIncremented`: forwarded to the attached bomb, if there is one. */
  function OnMovementIncremented(h: Hex): (t: (Hex, bool))
    ensures h.bomb.None? ==> t == (h, false)
    ensures h.bomb.Some? ==>
      t.0 == h.(bomb := Some(Bombs.OnMovementIncremented(h.bomb.value).bomb))
      && t.1 == Bombs.OnMovementIncremented(h.bomb.value).gameOver
  {
    match h.bomb
    case None => (h, false)
    case Some(b) =>
      var tick := Bombs.OnMovementIncremented(b);
      (h.(bomb := Some(tick.bomb)), tick.gameOver)
  }

  /** A bomb tile created with `InitBomb(limit)` calls game over on its first increment iff the limit is 1. */
  lemma {:induction false} BombTileFirstIncrement(h: Hex, limit: int)
    ensures OnMovementIncremented(InitBomb(h, limit)).1 <==> limit == 1
    ensures OnMovementIncremented(InitBomb(h, limit)).0.bomb.value.remaining == limit - 1
  {
  }
}

=== FILE: matching.dfy ===
/**
 * Match detection (`Board.FindMatches`). The scan visits the left column, the interior
 * columns (with a parity-dependent pair of rules each) and the right column, and appends three
 * coordinates per match. The model names each fired rule as a `Hit`; the coordinate list the
 * code returns is the hits' triples laid end to end, duplicates included.
 */
module Matching {
  import opened Cells
  import opened Boards
  import Hexes
  import Triads

  /** The rule of the scan that reported a match. */
  datatype Rule = LeftEdge | EvenNext | EvenPrev | OddNext | OddPrev | RightEdge

  /** Rule `rule` fired with scan position (x, y). */
  datatype Hit = Hit(rule: Rule, x: int, y: int)

  /** The three coordinates a hit appends, in the order the code appends them. */
  function Triple(h: Hit): (t: seq<Coord>)
    ensures |t| == 3 && t[0] == Coord(h.x, h.y) && t[1] == Coord(h.x, h.y + 1)
  {
    var x, y := h.x, h.y;
    match h.rule
    case LeftEdge => [Coord(x, y), Coord(x, y + 1), Coord(x + 1, y + 1)]
    case EvenNext => [Coord(x, y), Coord(x, y + 1), Coord(x + 1, y + 1)]
    case EvenPrev => [Coord(x, y), Coord(x, y + 1), Coord(x - 1, y + 1)]
    case OddNext => [Coord(x, y), Coord(x, y + 1), Coord(x + 1, y)]
    case OddPrev => [Coord(x, y), Coord(x, y + 1), Coord(x - 1, y)]
    case RightEdge => [Coord(x, y), Coord(x, y + 1), Coord(x - 1, y)]
  }

  /**
   * The positions at which the scan tries each rule: every row but the top one, in the left
   * column, in interior columns of the matching parity, and in the right column.
   */
  predicate Legal(width: int, height: int, h: Hit)
  {
    0 <= h.y < height - 1
    && match h.rule
       case LeftEdge => h.x == 0
       case EvenNext => 1 <= h.x < width - 1 && h.x % 2 == 0
       case EvenPrev => 1 <= h.x < width - 1 && h.x % 2 == 0
       case OddNext => 1 <= h.x < width - 1 && h.x % 2 == 1
       case OddPrev => 1 <= h.x < width - 1 && h.x % 2 == 1
       case RightEdge => h.x == width - 1
  }

  /** The triple of a legal hit is three different cells of the board. */
  lemma {:induction false} TripleInBounds(width: int, height: int, h: Hit)
    requires width >= 2 && Legal(width, height, h)
    ensures Distinct3(Triple(h))
    ensures forall i :: 0 <= i < 3 ==> InBounds(Triple(h)[i], width, height)
  {
  }

  /**
   * The scan may run on this board: it is at least two columns wide (the edge rules read
   * column 1 and column `width - 2`) and every cell it dereferences holds a tile. With two or
   * more rows that is every cell; with fewer the scan reads none.
   */
  predicate Scannable(b: Board)
  {
    WellFormed(b) && b.width >= 2 && (b.height < 2 || Full(b))
  }

  /** `IsSameType` on the tiles of two occupied cells. */
  predicate Same(b: Board, c: Coord, d: Coord)
    requires WellFormed(b) && InBounds(c, b.width, b.height) && InBounds(d, b.width, b.height)
    requires Get(b, c).Some? && Get(b, d).Some?
  {
    Hexes.IsSameType(b.hexes[Get(b, c).value], b.hexes[Get(b, d).value])
  }

  /** A rule fires when its first two cells and its last two cells hold tiles of the same type. */
  predicate Fires(b: Board, h: Hit)
    requires Scannable(b) && Legal(b.width, b.height, h)
  {
    var t := Triple(h);
    Same(b, t[0], t[1]) && Same(b, t[1], t[2])
  }

  /** The rules the scan tries at position (x, y), in the order it tries them. */
  function Candidates(width: int, x: int, y: int): seq<Hit>
  {
    if x == 0 then [Hit(LeftEdge, x, y)]
    else if x == width - 1 then [Hit(RightEdge, x, y)]
    else if x % 2 == 0 then [Hit(EvenNext, x, y), Hit(EvenPrev, x, y)]
    else [Hit(OddNext, x, y), Hit(OddPrev, x, y)]
  }

  /** The candidates at a scanned position are exactly the legal hits at that position. */
  lemma {:induction false} CandidatesExact(width: int, height: int, x: int, y: int, h: Hit)
    requires width >= 2 && 0 <= x < width && 0 <= y < height - 1
    ensures h in Candidates(width, x, y) <==> Legal(width, height, h) && h.x == x && h.y == y
  {
  }

  /** The candidates that fire, in order. */
  function Fired(b: Board, cs: seq<Hit>): (r: seq<Hit>)
    requires Scannable(b)
    requires forall h :: h in cs ==> Legal(b.width, b.height, h)
  {
    if cs == [] then []
    else (if Fires(b, cs[0]) then [cs[0]] else []) + Fired(b, cs[1..])
  }

  /** A candidate is kept iff it fires. */
  lemma {:induction false} FiredExact(b: Board, cs: seq<Hit>, h: Hit)
    requires Scannable(b)
    requires forall h :: h in cs ==> Legal(b.width, b.height, h)
    ensures h in Fired(b, cs) <==> h in cs && Fires(b, h)
  {
    if cs != [] {
      FiredExact(b, cs[1..], h);
    }
  }

  /** The hits the scan reports at position (x, y), in the order it tries the rules. */
  function FiredAt(b: Board, x: int, y: int): seq<Hit>
    requires Scannable(b) && 0 <= x < b.width && 0 <= y < b.height - 1
  {
    assert forall h :: h in Candidates(b.width, x, y) ==> Legal(b.width, b.height, h);
    Fired(b, Candidates(b.width, x, y))
  }

  /** The hits of the scan from position (x, y) on, in scan order: column by column, bottom to top. */
  function HitsFrom(b: Board, x: int, y: int): seq<Hit>
    requires Scannable(b) && 0 <= x && 0 <= y
    decreases b.width - x, b.height - y
  {
    if x >= b.width then []
    else if y >= b.height - 1 then HitsFrom(b, x + 1, 0)
    else
      FiredAt(b, x, y) + HitsFrom(b, x, y + 1)
  }

  /** Every hit of the whole scan. */
  function Hits(b: Board): seq<Hit>
    requires Scannable(b)
  {
    HitsFrom(b, 0, 0)
  }

  /** The triples of a list of hits, end to end. */
  function Flatten(hs: seq<Hit>): seq<Coord>
  {
    if hs == [] then [] else Triple(hs[0]) + Flatten(hs[1..])
  }

  /** `FindMatches`: the flat coordinate list, three per hit. */
  function FindMatches(b: Board): seq<Coord>
    requires Scannable(b)
  {
    Flatten(Hits(b))
  }

  /** Position (x, y) of hit `h` is at or after scan position (x0, y0). */
  predicate NotBefore(h: Hit, x0: int, y0: int)
  {
    h.x > x0 || (h.x == x0 && h.y >= y0)
  }

  /** The scan from (x, y) reports exactly the legal hits at or after (x, y) that fire. */
  lemma {:induction false} HitsFromExact(b: Board, x: int, y: int, h: Hit)
    requires Scannable(b) && 0 <= x && 0 <= y
    ensures h in HitsFrom(b, x, y) <==>
      Legal(b.width, b.height, h) && Fires(b, h) && NotBefore(h, x, y)
    decreases b.width - x, b.height - y
  {
    if x >= b.width {
      HitsFromPastEnd(b, x, y, h);
    } else if y >= b.height - 1 {
      HitsFromExact(b, x + 1, 0, h);
      HitsFromColumnEnd(b, x, y, h);
    } else {
      HitsFromExact(b, x, y + 1, h);
      HitsFromRowStep(b, x, y, h);
    }
  }

  /** One row up the column: the hits at (x, y) are added to those from the row above. */
  lemma {:induction false} HitsFromRowStep(b: Board, x: int, y: int, h: Hit)
    requires Scannable(b) && 0 <= x < b.width && 0 <= y < b.height - 1
    requires h in HitsFrom(b, x, y + 1) <==>
      Legal(b.width, b.height, h) && Fires(b, h) && NotBefore(h, x, y + 1)
    ensures h in HitsFrom(b, x, y) <==>
      Legal(b.width, b.height, h) && Fires(b, h) && NotBefore(h, x, y)
  {
    HitsFromHere(b, x, y, h);
  }

  /** Past the last column the scan reports nothing, and no legal hit lies there. */
  lemma {:induction false} HitsFromPastEnd(b: Board, x: int, y: int, h: Hit)
    requires Scannable(b) && x >= b.width && 0 <= y
    ensures h !in HitsFrom(b, x, y) && !(Legal(b.width, b.height, h) && NotBefore(h, x, y))
  {
    assert HitsFrom(b, x, y) == [];
  }

  /** Past the top scanned row of a column, the scan and the legal hits both move on to the next column. */
  lemma {:induction false} HitsFromColumnEnd(b: Board, x: int, y: int, h: Hit)
    requires Scannable(b) && 0 <= x < b.width && 0 <= y && y >= b.height - 1
    requires h in HitsFrom(b, x + 1, 0) <==>
      Legal(b.width, b.height, h) && Fires(b, h) && NotBefore(h, x + 1, 0)
    ensures h in HitsFrom(b, x, y) <==>
      Legal(b.width, b.height, h) && Fires(b, h) && NotBefore(h, x, y)
  {
    ScanColumnEnd(b, x, y);
    assert Legal(b.width, b.height, h) ==> h.y < y;
  }

  /** At a scanned position, a hit is reported there iff it is a legal, firing hit at that position. */
  lemma {:induction false} HitsFromHere(b: Board, x: int, y: int, h: Hit)
    requires Scannable(b) && 0 <= x < b.width && 0 <= y < b.height - 1
    ensures h in HitsFrom(b, x, y) <==>
      (Legal(b.width, b.height, h) && Fires(b, h) && h.x == x && h.y == y) || h in HitsFrom(b, x, y + 1)
  {
    CandidatesExact(b.width, b.height, x, y, h);
    FiredExact(b, Candidates(b.width, x, y), h);
  }

  /**
   * Soundness and completeness of the scan: a hit is reported iff its rule applies at its
   * position and fires there.
   */
  lemma {:induction false} HitsExact(b: Board, h: Hit)
    requires Scannable(b)
    ensures h in Hits(b) <==> Legal(b.width, b.height, h) && Fires(b, h)
  {
    HitsFromExact(b, 0, 0, h);
  }

  lemma {:induction false} FlattenShape(hs: seq<Hit>)
    ensures |Flatten(hs)| == 3 * |hs|
    ensures forall i :: 0 <= i < |hs| ==> Flatten(hs)[3 * i..3 * i + 3] == Triple(hs[i])
  {
    if hs != [] {
      FlattenShape(hs[1..]);
      var f := Flatten(hs);
      assert f == Triple(hs[0]) + Flatten(hs[1..]);
      forall i | 0 <= i < |hs|
        ensures f[3 * i..3 * i + 3] == Triple(hs[i])
      {
        if i > 0 {
          assert f[3 * i..3 * i + 3] == Flatten(hs[1..])[3 * (i - 1)..3 * (i - 1) + 3];
          assert hs[1..][i - 1] == hs[i];
        }
      }
    }
  }

  lemma {:induction false} FlattenAppend(a: seq<Hit>, c: seq<Hit>)
    ensures Flatten(a + c) == Flatten(a) + Flatten(c)
  {
    if a == [] {
      assert a + c == c;
    } else {
      assert (a + c)[1..] == a[1..] + c;
      FlattenAppend(a[1..], c);
    }
  }

  /** Three cells of the board, pairwise different, holding tiles of one type. */
  predicate MatchTriple(b: Board, t: seq<Coord>)
    requires WellFormed(b)
  {
    |t| == 3 && Distinct3(t)
    && (forall i :: 0 <= i < 3 ==> InBounds(t[i], b.width, b.height) && Get(b, t[i]).Some?)
    && TypeAt(b, t[0]) == TypeAt(b, t[1]) == TypeAt(b, t[2])
  }

  /**
   * Soundness of `FindMatches`: its length is three times the number of hits, and the i-th
   * group of three is the triple of the i-th hit, a legal rule position whose three cells are
   * distinct, on the board and of one type.
   */
  lemma {:induction false} FindMatchesSound(b: Board)
    requires Scannable(b)
    ensures |FindMatches(b)| % 3 == 0 && |FindMatches(b)| == 3 * |Hits(b)|
    ensures forall i :: 0 <= i < |Hits(b)| ==>
      Legal(b.width, b.height, Hits(b)[i])
      && FindMatches(b)[3 * i..3 * i + 3] == Triple(Hits(b)[i])
      && MatchTriple(b, Triple(Hits(b)[i]))
    ensures forall j :: 0 <= j < |FindMatches(b)| ==> InBounds(FindMatches(b)[j], b.width, b.height)
  {
    FindMatchesGroups(b);
    HitsSound(b);
    forall j | 0 <= j < |FindMatches(b)|
      ensures InBounds(FindMatches(b)[j], b.width, b.height)
    {
      EntryInBounds(b, j);
    }
  }

  /** The coordinate list is the hits' triples, three entries per hit. */
  lemma {:induction false} FindMatchesGroups(b: Board)
    requires Scannable(b)
    ensures |FindMatches(b)| == 3 * |Hits(b)|
    ensures forall i :: 0 <= i < |Hits(b)| ==> FindMatches(b)[3 * i..3 * i + 3] == Triple(Hits(b)[i])
  {
    FlattenShape(Hits(b));
  }

  /** Every reported hit is legal and its cells hold tiles of one type. */
  lemma {:induction false} HitsSound(b: Board)
    requires Scannable(b)
    ensures forall i :: 0 <= i < |Hits(b)| ==>
      Legal(b.width, b.height, Hits(b)[i]) && MatchTriple(b, Triple(Hits(b)[i]))
  {
    forall i | 0 <= i < |Hits(b)|
      ensures Legal(b.width, b.height, Hits(b)[i]) && MatchTriple(b, Triple(Hits(b)[i]))
    {
      HitMatches(b, Hits(b)[i]);
    }
  }

  /** A reported hit is legal and its cells hold tiles of one type. */
  lemma {:induction false} HitMatches(b: Board, h: Hit)
    requires Scannable(b) && h in Hits(b)
    ensures Legal(b.width, b.height, h) && MatchTriple(b, Triple(h))
  {
    HitsExact(b, h);
    TripleInBounds(b.width, b.height, h);
  }

  lemma {:induction false} EntryInBounds(b: Board, j: int)
    requires Scannable(b) && 0 <= j < |FindMatches(b)|
    ensures InBounds(FindMatches(b)[j], b.width, b.height)
  {
    var hs := Hits(b);
    var r := FindMatches(b);
    FlattenShape(hs);
    var i := Group(j, |hs|);
    var t := r[3 * i..3 * i + 3];
    assert t == Triple(hs[i]);
    assert r[j] == t[j - 3 * i];
    HitMatches(b, hs[i]);
  }

  /** Entry `j` of a list of `n` groups of three lies in group `j / 3`. */
  lemma {:induction false} Group(j: int, n: int) returns (i: int)
    requires 0 <= j < 3 * n
    ensures i == j / 3 && 0 <= i < n && 3 * i <= j < 3 * i + 3
  {
    i := j / 3;
  }

  /** `FindMatches` is empty iff no rule fires at any position the scan visits. */
  lemma {:induction false} FindMatchesEmptyIff(b: Board)
    requires Scannable(b)
    ensures FindMatches(b) == [] <==>
      forall h :: Legal(b.width, b.height, h) ==> !Fires(b, h)
  {
    FlattenShape(Hits(b));
    if Hits(b) != [] {
      HitsExact(b, Hits(b)[0]);
    }
    forall h | Legal(b.width, b.height, h) && Fires(b, h)
      ensures Hits(b) != []
    {
      HitsExact(b, h);
    }
  }

  /** A scan that finds a match ran on a board of two or more rows, which is therefore full. */
  lemma {:induction false} FindMatchesNeedsTwoRows(b: Board)
    requires Scannable(b) && FindMatches(b) != []
    ensures b.height >= 2 && Full(b)
  {
    FindMatchesEmptyIff(b);
  }

  /** The set of cells a hit covers. */
  function TripleSet(h: Hit): set<Coord>
  {
    var t := Triple(h);
    {t[0], t[1], t[2]}
  }

  /**
   * On a board of even width every match the scan can report is the triad of a dot of the dot
   * grid, so matches are exactly the groups a rotation acts on.
   */
  lemma {:induction false} MatchIsTriad(width: int, height: int, h: Hit)
    requires width >= 2 && width % 2 == 0 && Legal(width, height, h)
    ensures exists dx, dy ::
      Triads.ValidDot(width, height, dx, dy) && Triads.TriadSet(dx, dy) == TripleSet(h)
  {
    var x, y := h.x, h.y;
    match h.rule
    case LeftEdge =>
      assert Triads.TriadSet(x, 2 * y + 1) == TripleSet(h);
    case EvenNext =>
      assert Triads.TriadSet(x, 2 * y + 1) == TripleSet(h);
    case EvenPrev =>
      assert Triads.TriadSet(x - 1, 2 * y + 1) == TripleSet(h);
    case OddNext =>
      assert Triads.TriadSet(x, 2 * y) == TripleSet(h);
    case OddPrev =>
      assert Triads.TriadSet(x - 1, 2 * y) == TripleSet(h);
    case RightEdge =>
      assert Triads.TriadSet(x - 1, 2 * y) == TripleSet(h);
  }

  /**
   * On a board of odd width the right-edge rule checks cells that are not the triad of any dot:
   * its third cell sits below the pair, not beside it.
   */
  lemma {:induction false} RightEdgeNotTriadOnOddWidth(width: int, height: int, y: int)
    requires width >= 3 && width % 2 == 1 && 0 <= y < height - 1
    ensures forall dx, dy :: Triads.ValidDot(width, height, dx, dy) ==>
      Triads.TriadSet(dx, dy) != TripleSet(Hit(RightEdge, width - 1, y))
  {
    forall dx, dy | Triads.ValidDot(width, height, dx, dy)
      ensures Coord(width - 2, y) !in Triads.TriadSet(dx, dy)
        || Coord(width - 1, y + 1) !in Triads.TriadSet(dx, dy)
    {
    }
  }

  /**
   * The coordinates the scan appends from position (x, y) on, written the way the loops build
   * them: the triples found at each position followed by the rest.
   */
  function Found(b: Board, x: int, y: int): seq<Coord>
    requires Scannable(b) && 0 <= x && 0 <= y
    decreases b.width - x, b.height - y
  {
    if x >= b.width then []
    else if y >= b.height - 1 then Found(b, x + 1, 0)
    else Flatten(FiredAt(b, x, y)) + Found(b, x, y + 1)
  }

  /** What the loops append from (x, y) on is the flattened list of the hits from (x, y) on. */
  lemma {:induction false} FoundFlattens(b: Board, x: int, y: int)
    requires Scannable(b) && 0 <= x && 0 <= y
    ensures Found(b, x, y) == Flatten(HitsFrom(b, x, y))
    decreases b.width - x, b.height - y
  {
    if x >= b.width {
      FoundPastEnd(b, x, y);
    } else if y >= b.height - 1 {
      FoundFlattens(b, x + 1, 0);
      ScanColumnEnd(b, x, y);
    } else {
      FoundFlattens(b, x, y + 1);
      FoundStep(b, x, y, FiredAt(b, x, y), HitsFrom(b, x, y + 1), Found(b, x, y + 1));
    }
  }

  /** Past the last column both sides are empty. */
  lemma {:induction false} FoundPastEnd(b: Board, x: int, y: int)
    requires Scannable(b) && x >= b.width && 0 <= y
    ensures Found(b, x, y) == Flatten(HitsFrom(b, x, y)) == []
  {
    assert HitsFrom(b, x, y) == [];
  }

  /** One position of the scan: both sides add the triples of the hits fired there. */
  lemma {:induction false} FoundStep(b: Board, x: int, y: int, fired: seq<Hit>, rest: seq<Hit>, later: seq<Coord>)
    requires Scannable(b) && 0 <= x < b.width && 0 <= y < b.height - 1
    requires fired == FiredAt(b, x, y) && rest == HitsFrom(b, x, y + 1) && later == Found(b, x, y + 1)
    requires later == Flatten(rest)
    ensures Found(b, x, y) == Flatten(HitsFrom(b, x, y))
  {
    assert HitsFrom(b, x, y) == fired + rest;
    assert Found(b, x, y) == Flatten(fired) + later;
    FlattenAppend(fired, rest);
  }

  /** Appending the triples found at (x, y) keeps the scan invariant: found so far + still to come = all. */
  lemma {:induction false} ScanAdvance(b: Board, x: int, y: int, done: seq<Coord>, step: seq<Coord>, total: seq<Coord>)
    requires Scannable(b) && 0 <= x < b.width && 0 <= y < b.height - 1
    requires done + Found(b, x, y) == total
    requires step == Flatten(FiredAt(b, x, y))
    ensures (done + step) + Found(b, x, y + 1) == total
  {
    Advance(done, step, Found(b, x, y), Found(b, x, y + 1), total);
  }

  /** Appending a whole column keeps the scan invariant. */
  lemma {:induction false} ColumnAdvance(b: Board, x: int, done: seq<Coord>, column: seq<Coord>, total: seq<Coord>)
    requires Scannable(b) && 0 <= x < b.width
    requires done + Found(b, x, 0) == total
    requires column + Found(b, x + 1, 0) == Found(b, x, 0)
    ensures (done + column) + Found(b, x + 1, 0) == total
  {
    Advance(done, column, Found(b, x, 0), Found(b, x + 1, 0), total);
  }

  /** Found so far + still to come = all, when what is still to come is split into a step and the rest. */
  lemma {:induction false} Advance(done: seq<Coord>, step: seq<Coord>, rest: seq<Coord>, later: seq<Coord>, total: seq<Coord>)
    requires done + rest == total && rest == step + later
    ensures (done + step) + later == total
  {
  }

  /** Past the top scanned row the scan continues with the next column; past the last column it stops. */
  lemma {:induction false} ScanColumnEnd(b: Board, x: int, y: int)
    requires Scannable(b) && 0 <= x < b.width && 0 <= y && y >= b.height - 1
    ensures HitsFrom(b, x, y) == HitsFrom(b, x + 1, 0)
    ensures Found(b, x, y) == Found(b, x + 1, 0)
    ensures x == b.width - 1 ==> Found(b, x, y) == []
  {
  }

  /** When the right-column loop ends nothing is left to scan, so what it found is everything. */
  lemma {:induction false} ScanRightEnd(b: Board, y: int, done: seq<Coord>, total: seq<Coord>)
    requires Scannable(b) && 0 <= y && y >= b.height - 1
    requires done + Found(b, b.width - 1, y) == total
    ensures done == total
  {
    ScanColumnEnd(b, b.width - 1, y);
    assert done + [] == done;
  }

  /** The triples one candidate contributes. */
  function Contribution(b: Board, h: Hit): seq<Coord>
    requires Scannable(b) && Legal(b.width, b.height, h)
  {
    if Fires(b, h) then Triple(h) else []
  }

  lemma {:induction false} FiredOne(b: Board, h: Hit)
    requires Scannable(b) && Legal(b.width, b.height, h)
    ensures Flatten(Fired(b, [h])) == Contribution(b, h)
  {
    assert [h][1..] == [];
  }

  lemma {:induction false} FiredTwo(b: Board, h1: Hit, h2: Hit)
    requires Scannable(b) && Legal(b.width, b.height, h1) && Legal(b.width, b.height, h2)
    ensures Flatten(Fired(b, [h1, h2])) == Contribution(b, h1) + Contribution(b, h2)
  {
    assert [h1, h2][1..] == [h2];
    FiredOne(b, h2);
    FlattenAppend(if Fires(b, h1) then [h1] else [], Fired(b, [h2]));
  }

  /**
   * `FindMatches` as the code runs it: a loop over the rows of the left column, a loop over the
   * interior columns with a parity-dependent pair of checks, and a loop over the rows of the
   * right column, appending three coordinates per match.
   */
  method FindMatchesScan(b: Board) returns (matched: seq<Coord>)
    requires Scannable(b)
    ensures matched == FindMatches(b)
  {
    matched := ScanLeftColumn(b);
    var interior := ScanInteriorColumns(b);
    var right := ScanRightColumn(b);
    ghost var total := FindMatches(b);
    FoundFlattens(b, 0, 0);
    assert matched + interior + right == total;
    matched := matched + interior + right;
  }

  /** The loop over the interior columns, left to right. */
  method ScanInteriorColumns(b: Board) returns (columns: seq<Coord>)
    requires Scannable(b)
    ensures columns + Found(b, b.width - 1, 0) == Found(b, 1, 0)
  {
    columns := [];
    assert columns + Found(b, 1, 0) == Found(b, 1, 0);
    var x := 1;
    while x < b.width - 1
      invariant 1 <= x <= b.width - 1
      invariant columns + Found(b, x, 0) == Found(b, 1, 0)
    {
      columns := AppendInteriorColumn(b, x, columns, Found(b, 1, 0));
      x := x + 1;
    }
  }

  /** One pass of the interior loop: the triples of column `x` are appended to those found so far. */
  method AppendInteriorColumn(b: Board, x: int, done: seq<Coord>, ghost total: seq<Coord>) returns (columns: seq<Coord>)
    requires Scannable(b) && 1 <= x < b.width - 1
    requires done + Found(b, x, 0) == total
    ensures columns + Found(b, x + 1, 0) == total
  {
    var column := ScanInteriorColumn(b, x);
    ColumnAdvance(b, x, done, column, total);
    columns := done + column;
  }


  /** The left-column loop: the triples reported by the left-edge rule, bottom to top. */
  method ScanLeftColumn(b: Board) returns (column: seq<Coord>)
    requires Scannable(b)
    ensures column + Found(b, 1, 0) == Found(b, 0, 0)
  {
    column := [];
    assert column + Found(b, 0, 0) == Found(b, 0, 0);
    var y := 0;
    while y < b.height - 1
      invariant 0 <= y && (y <= b.height - 1 || y == 0)
      invariant column + Found(b, 0, y) == Found(b, 0, 0)
    {
      column := AppendLeftCell(b, y, column, Found(b, 0, 0));
      y := y + 1;
    }
    ScanColumnEnd(b, 0, y);
  }

  /** One pass of the left-column loop: the triples found at row `y` are appended. */
  method AppendLeftCell(b: Board, y: int, done: seq<Coord>, ghost total: seq<Coord>) returns (column: seq<Coord>)
    requires Scannable(b) && 0 <= y < b.height - 1
    requires done + Found(b, 0, y) == total
    ensures column + Found(b, 0, y + 1) == total
  {
    var step := ScanLeftCell(b, y);
    ScanAdvance(b, 0, y, done, step, total);
    column := done + step;
  }

  /** The body of the left-column loop at row `y`. */
  method ScanLeftCell(b: Board, y: int) returns (found: seq<Coord>)
    requires Scannable(b) && 0 <= y < b.height - 1
    ensures found == Flatten(FiredAt(b, 0, y))
  {
    found := [];
    FiredOne(b, Hit(LeftEdge, 0, y));
    if Same(b, Coord(0, y), Coord(0, y + 1)) {
      if Same(b, Coord(0, y + 1), Coord(1, y + 1)) {
        found := [Coord(0, y), Coord(0, y + 1), Coord(1, y + 1)];
      }
    }
  }

  /** The body of the right-column loop at row `y`. */
  method ScanRightCell(b: Board, y: int) returns (found: seq<Coord>)
    requires Scannable(b) && 0 <= y < b.height - 1
    ensures found == Flatten(FiredAt(b, b.width - 1, y))
  {
    var w := b.width;
    found := [];
    FiredOne(b, Hit(RightEdge, w - 1, y));
    if Same(b, Coord(w - 1, y), Coord(w - 1, y + 1)) {
      if Same(b, Coord(w - 1, y + 1), Coord(w - 2, y)) {
        found := [Coord(w - 1, y), Coord(w - 1, y + 1), Coord(w - 2, y)];
      }
    }
  }

  /** The loop over one interior column: two checks per row, chosen by the column's parity. */
  method ScanInteriorColumn(b: Board, x: int) returns (column: seq<Coord>)
    requires Scannable(b) && 1 <= x < b.width - 1
    ensures column + Found(b, x + 1, 0) == Found(b, x, 0)
  {
    column := [];
    assert column + Found(b, x, 0) == Found(b, x, 0);
    var y := 0;
    while y < b.height - 1
      invariant 0 <= y && (y <= b.height - 1 || y == 0)
      invariant column + Found(b, x, y) == Found(b, x, 0)
    {
      column := AppendInteriorCell(b, x, y, column, Found(b, x, 0));
      y := y + 1;
    }
    ScanColumnEnd(b, x, y);
  }

  /** One pass of the loop over an interior column: the triples found at row `y` are appended. */
  method AppendInteriorCell(b: Board, x: int, y: int, done: seq<Coord>, ghost total: seq<Coord>) returns (column: seq<Coord>)
    requires Scannable(b) && 1 <= x < b.width - 1 && 0 <= y < b.height - 1
    requires done + Found(b, x, y) == total
    ensures column + Found(b, x, y + 1) == total
  {
    var step := ScanInteriorCell(b, x, y);
    ScanAdvance(b, x, y, done, step, total);
    column := done + step;
  }

  /** The body of the interior loop at row `y`: the checks for an even or an odd column. */
  method ScanInteriorCell(b: Board, x: int, y: int) returns (found: seq<Coord>)
    requires Scannable(b) && 1 <= x < b.width - 1 && 0 <= y < b.height - 1
    ensures found == Flatten(FiredAt(b, x, y))
  {
    if x % 2 == 0 {
      found := ScanEvenCell(b, x, y);
      FiredTwo(b, Hit(EvenNext, x, y), Hit(EvenPrev, x, y));
    } else {
      found := ScanOddCell(b, x, y);
      FiredTwo(b, Hit(OddNext, x, y), Hit(OddPrev, x, y));
    }
  }

  /** An even column compares the pair with the cells above-right and above-left. */
  method ScanEvenCell(b: Board, x: int, y: int) returns (found: seq<Coord>)
    requires Scannable(b) && 1 <= x < b.width - 1 && x % 2 == 0 && 0 <= y < b.height - 1
    ensures found == Contribution(b, Hit(EvenNext, x, y)) + Contribution(b, Hit(EvenPrev, x, y))
  {
    found := [];
    if Same(b, Coord(x, y), Coord(x, y + 1)) {
      if Same(b, Coord(x, y + 1), Coord(x + 1, y + 1)) {
        found := found + [Coord(x, y), Coord(x, y + 1), Coord(x + 1, y + 1)];
      }
      if Same(b, Coord(x, y + 1), Coord(x - 1, y + 1)) {
        found := found + [Coord(x, y), Coord(x, y + 1), Coord(x - 1, y + 1)];
      }
    }
  }

  /** An odd column compares the pair with the cells right and left on the same row. */
  method ScanOddCell(b: Board, x: int, y: int) returns (found: seq<Coord>)
    requires Scannable(b) && 1 <= x < b.width - 1 && x % 2 == 1 && 0 <= y < b.height - 1
    ensures found == Contribution(b, Hit(OddNext, x, y)) + Contribution(b, Hit(OddPrev, x, y))
  {
    found := [];
    if Same(b, Coord(x, y), Coord(x, y + 1)) {
      if Same(b, Coord(x, y + 1), Coord(x + 1, y)) {
        found := found + [Coord(x, y), Coord(x, y + 1), Coord(x + 1, y)];
      }
      if Same(b, Coord(x, y + 1), Coord(x - 1, y)) {
        found := found + [Coord(x, y), Coord(x, y + 1), Coord(x - 1, y)];
      }
    }
  }

  /** The right-column loop: the triples reported by the right-edge rule, bottom to top. */
  method ScanRightColumn(b: Board) returns (column: seq<Coord>)
    requires Scannable(b)
    ensures column == Found(b, b.width - 1, 0)
  {
    column := [];
    assert column + Found(b, b.width - 1, 0) == Found(b, b.width - 1, 0);
    var y := 0;
    while y < b.height - 1
      invariant 0 <= y && (y <= b.height - 1 || y == 0)
      invariant column + Found(b, b.width - 1, y) == Found(b, b.width - 1, 0)
    {
      column := AppendRightCell(b, y, column, Found(b, b.width - 1, 0));
      y := y + 1;
    }
    ScanRightEnd(b, y, column, Found(b, b.width - 1, 0));
  }

  /** One pass of the right-column loop: the triples found at row `y` are appended. */
  method AppendRightCell(b: Board, y: int, done: seq<Coord>, ghost total: seq<Coord>) returns (column: seq<Coord>)
    requires Scannable(b) && 0 <= y < b.height - 1
    requires done + Found(b, b.width - 1, y) == total
    ensures column + Found(b, b.width - 1, y + 1) == total
  {
    var step := ScanRightCell(b, y);
    ScanAdvance(b, b.width - 1, y, done, step, total);
    column := done + step;
  }
}

=== FILE: rotation.dfy ===
/**
 * Rotating a triad (`Board.RotateDot`): the dot turns, and when its rotation ends the board
 * cycles the three cells around it, in the enumeration order of `GetChildrenIndex` for a
 * counter-clockwise turn and in the reverse order for a clockwise one.
 */
module Rotation {
  import opened Cells
  import opened Boards
  import Triads
  import Hexes
  import Dots

  /** Three different cells of the board. */
  predicate Cyclable(b: Board, t: seq<Coord>)
  {
    |t| == 3 && Distinct3(t) && forall i :: 0 <= i < 3 ==> InBounds(t[i], b.width, b.height)
  }

  /** The cells in the order the cycle walks them: `Children`, reversed for a clockwise turn. */
  function Order(dx: int, dy: int, clockwise: bool): (t: seq<Coord>)
    ensures |t| == 3 && Distinct3(t)
    ensures {t[0], t[1], t[2]} == Triads.TriadSet(dx, dy)
  {
    var c := Triads.Children(dx, dy);
    if clockwise then [c[2], c[1], c[0]] else c
  }

  /** The two directions walk the same three cells in opposite orders. */
  lemma {:induction false} OrderReversed(dx: int, dy: int, clockwise: bool)
    ensures var t := Order(dx, dy, clockwise);
      Order(dx, dy, !clockwise) == [t[2], t[1], t[0]]
  {
  }

  /** The three cells of a dot of the dot grid are cells of the board. */
  lemma {:induction false} OrderCyclable(b: Board, dx: int, dy: int, clockwise: bool)
    requires Triads.ValidDot(b.width, b.height, dx, dy)
    ensures Cyclable(b, Order(dx, dy, clockwise))
  {
    Triads.ChildrenInBounds(b.width, b.height, dx, dy);
  }

  /**
   * The callback's swap through a temporary: the first cell takes the second's tile, the
   * second the third's, the third the first's.
   */
  function Cycle(b: Board, t: seq<Coord>): (r: Board)
    requires WellFormed(b) && Cyclable(b, t)
    ensures WellFormed(r) && r.width == b.width && r.height == b.height
    ensures r.hexes == b.hexes && r.nextId == b.nextId
    ensures Get(r, t[0]) == Get(b, t[1]) && Get(r, t[1]) == Get(b, t[2]) && Get(r, t[2]) == Get(b, t[0])
    ensures forall c :: InBounds(c, b.width, b.height) && c !in t ==> Get(r, c) == Get(b, c)
  {
    var v0, v1, v2 := Get(b, t[0]), Get(b, t[1]), Get(b, t[2]);
    var b1 := Set(b, t[0], v1);
    SetWellFormed(b, t[0], v1);
    var b2 := Set(b1, t[1], v2);
    SetWellFormed(b1, t[1], v2);
    SetWellFormed(b2, t[2], v0);
    Set(b2, t[2], v0)
  }

  /** Taking out `a`, putting in `b`, taking out `b`, putting in `c`, taking out `c` and putting back `a` is no change. */
  lemma {:induction false} MultisetRoundTrip<T>(m: multiset<T>, a: T, b: T, c: T)
    requires a in m
    ensures m - multiset{a} + multiset{b} - multiset{b} + multiset{c} - multiset{c} + multiset{a} == m
  {
  }

  /** A cycle permutes cells, so the multiset of cell contents is unchanged. */
  lemma {:induction false} CycleKeepsContents(b: Board, t: seq<Coord>)
    requires WellFormed(b) && Cyclable(b, t)
    ensures Contents(Cycle(b, t)) == Contents(b)
  {
    var v0, v1, v2 := Get(b, t[0]), Get(b, t[1]), Get(b, t[2]);
    var b1 := Set(b, t[0], v1);
    var b2 := Set(b1, t[1], v2);
    var b3 := Set(b2, t[2], v0);
    assert Cycle(b, t) == b3;
    ContentsSet(b, t[0], v1);
    ContentsSet(b1, t[1], v2);
    ContentsSet(b2, t[2], v0);
    MultisetRoundTrip(Contents(b), v0, v1, v2);
  }

  /** Walking the cells in the reverse order undoes a cycle. */
  lemma {:induction false} CycleInverse(b: Board, t: seq<Coord>)
    requires WellFormed(b) && Cyclable(b, t)
    ensures Cycle(Cycle(b, t), [t[2], t[1], t[0]]) == b
  {
    BoardExt(Cycle(Cycle(b, t), [t[2], t[1], t[0]]), b);
  }

  /** Three cycles over the same cells bring every tile back. */
  lemma {:induction false} CycleThrice(b: Board, t: seq<Coord>)
    requires WellFormed(b) && Cyclable(b, t)
    ensures Cycle(Cycle(Cycle(b, t), t), t) == b
  {
    BoardExt(Cycle(Cycle(Cycle(b, t), t), t), b);
  }

  /**
   * The end-of-rotation callback as written: the cells of dot (dx, dy) cycle, and only the
   * array changes. No tile record is touched, so each moved tile keeps the indices of the
   * cell it left.
   */
  function RotateCells(b: Board, dx: int, dy: int, clockwise: bool): (r: Board)
    requires WellFormed(b) && Triads.ValidDot(b.width, b.height, dx, dy)
    ensures WellFormed(r) && r.width == b.width && r.height == b.height
    ensures r.hexes == b.hexes && r.nextId == b.nextId
  {
    OrderCyclable(b, dx, dy, clockwise);
    Cycle(b, Order(dx, dy, clockwise))
  }

  /**
   * Turning dot (dx, dy) moves the tile of the second cell of `Order` to the first, of the
   * third to the second and of the first to the third (counter-clockwise `Order` is the
   * children's enumeration order, clockwise its reverse); no other cell changes.
   */
  lemma {:induction false} RotateMovesTriad(b: Board, dx: int, dy: int, clockwise: bool)
    requires WellFormed(b) && Triads.ValidDot(b.width, b.height, dx, dy)
    ensures Cyclable(b, Order(dx, dy, clockwise))
    ensures Order(dx, dy, false) == Triads.Children(dx, dy)
    ensures
      var t := Order(dx, dy, clockwise);
      var r := RotateCells(b, dx, dy, clockwise);
      Get(r, t[0]) == Get(b, t[1]) && Get(r, t[1]) == Get(b, t[2]) && Get(r, t[2]) == Get(b, t[0])
    ensures forall c :: InBounds(c, b.width, b.height) && c !in Triads.TriadSet(dx, dy) ==>
      Get(RotateCells(b, dx, dy, clockwise), c) == Get(b, c)
  {
    OrderCyclable(b, dx, dy, clockwise);
  }

  /** A rotation keeps the multiset of cell contents, hence the number of empty cells. */
  lemma {:induction false} RotateKeepsContents(b: Board, dx: int, dy: int, clockwise: bool)
    requires WellFormed(b) && Triads.ValidDot(b.width, b.height, dx, dy)
    ensures Contents(RotateCells(b, dx, dy, clockwise)) == Contents(b)
    ensures Vacancies(RotateCells(b, dx, dy, clockwise)) == Vacancies(b)
  {
    OrderCyclable(b, dx, dy, clockwise);
    CycleKeepsContents(b, Order(dx, dy, clockwise));
  }

  /** A rotation of a full board leaves it full. */
  lemma {:induction false} RotateKeepsFull(b: Board, dx: int, dy: int, clockwise: bool)
    requires WellFormed(b) && Triads.ValidDot(b.width, b.height, dx, dy)
    ensures Full(b) ==> Full(RotateCells(b, dx, dy, clockwise))
  {
    RotateKeepsContents(b, dx, dy, clockwise);
    FullIffNoVacancy(b);
    FullIffNoVacancy(RotateCells(b, dx, dy, clockwise));
  }

  /** A turn in one direction is undone by a turn in the other. */
  lemma {:induction false} RotateInverse(b: Board, dx: int, dy: int, clockwise: bool)
    requires WellFormed(b) && Triads.ValidDot(b.width, b.height, dx, dy)
    ensures RotateCells(RotateCells(b, dx, dy, clockwise), dx, dy, !clockwise) == b
  {
    OrderCyclable(b, dx, dy, clockwise);
    OrderReversed(dx, dy, clockwise);
    CycleInverse(b, Order(dx, dy, clockwise));
  }

  /** Three turns in one direction bring every tile back to its cell. */
  lemma {:induction false} RotateThrice(b: Board, dx: int, dy: int, clockwise: bool)
    requires WellFormed(b) && Triads.ValidDot(b.width, b.height, dx, dy)
    ensures
      var r1 := RotateCells(b, dx, dy, clockwise);
      var r2 := RotateCells(r1, dx, dy, clockwise);
      RotateCells(r2, dx, dy, clockwise) == b
  {
    OrderCyclable(b, dx, dy, clockwise);
    CycleThrice(b, Order(dx, dy, clockwise));
  }

  /**
   * As written the callback leaves the tile records alone, so on a board whose indices agree
   * a rotation that moves a tile leaves that tile reporting the cell it came from.
   */
  lemma {:induction false} RotateBreaksIndices(b: Board, dx: int, dy: int, clockwise: bool)
    requires IndicesAgree(b) && Triads.ValidDot(b.width, b.height, dx, dy)
    requires Get(b, Order(dx, dy, clockwise)[1]).Some?
    ensures !IndicesAgree(RotateCells(b, dx, dy, clockwise))
  {
    var t := Order(dx, dy, clockwise);
    OrderCyclable(b, dx, dy, clockwise);
    var r := RotateCells(b, dx, dy, clockwise);
    assert ColumnAgrees(b, t[1].x);
    var id := Get(b, t[1]).value;
    assert b.cells[t[1].x][t[1].y] == Some(id);
    assert r.cells[t[0].x][t[0].y] == Some(id);
    assert !ColumnAgrees(r, t[0].x);
  }

  /** Records in a tile the cell it occupies (`SetIndex`), if the cell holds one. */
  function Reindex(b: Board, c: Coord): (r: Board)
    requires WellFormed(b) && InBounds(c, b.width, b.height)
    ensures WellFormed(r) && r.cells == b.cells && r.hexes.Keys == b.hexes.Keys
    ensures r.width == b.width && r.height == b.height && r.nextId == b.nextId
    ensures Get(b, c).Some? ==>
      var h := r.hexes[Get(b, c).value];
      h.indexX == c.x && h.indexY == c.y && h.target == c
    ensures forall id :: id in b.hexes && Get(b, c) != Some(id) ==> r.hexes[id] == b.hexes[id]
    ensures forall id :: id in b.hexes ==> r.hexes[id].typeId == b.hexes[id].typeId
  {
    match Get(b, c)
    case None => b
    case Some(id) => b.(hexes := b.hexes[id := Hexes.SetIndex(b.hexes[id], c.x, c.y, c)])
  }

  /** The cycle followed by `SetIndex` on the three cells' tiles. */
  function CycleReindexed(b: Board, t: seq<Coord>): (r: Board)
    requires WellFormed(b) && Cyclable(b, t)
    ensures WellFormed(r) && r.cells == Cycle(b, t).cells && r.hexes.Keys == b.hexes.Keys
    ensures r.width == b.width && r.height == b.height && r.nextId == b.nextId
    ensures forall id :: id in b.hexes ==> r.hexes[id].typeId == b.hexes[id].typeId
  {
    Reindex(Reindex(Reindex(Cycle(b, t), t[0]), t[1]), t[2])
  }

  /**
   * The callback with the moved tiles' indices brought up to date (`SetIndex` on each of the
   * three tiles): the array changes exactly as in `RotateCells`.
   */
  function RotateReindexed(b: Board, dx: int, dy: int, clockwise: bool): (r: Board)
    requires WellFormed(b) && Triads.ValidDot(b.width, b.height, dx, dy)
    ensures WellFormed(r) && r.cells == RotateCells(b, dx, dy, clockwise).cells
    ensures r.width == b.width && r.height == b.height && r.nextId == b.nextId
    ensures r.hexes.Keys == b.hexes.Keys
    ensures forall id :: id in b.hexes ==> r.hexes[id].typeId == b.hexes[id].typeId
  {
    OrderCyclable(b, dx, dy, clockwise);
    CycleReindexed(b, Order(dx, dy, clockwise))
  }

  /** Reindexing a cell leaves every other tile's record as it was. */
  lemma {:induction false} ReindexKeeps(b: Board, c: Coord, id: TileId)
    requires WellFormed(b) && InBounds(c, b.width, b.height)
    requires id in b.hexes && Get(b, c) != Some(id)
    ensures id in Reindex(b, c).hexes && Reindex(b, c).hexes[id] == b.hexes[id]
  {
  }

  /** After the reindexed cycle the tile in cell `d` reports `d`. */
  lemma {:induction false} CycleReindexedAgreesAt(b: Board, t: seq<Coord>, d: Coord)
    requires IndicesAgree(b) && Cyclable(b, t) && InBounds(d, b.width, b.height)
    requires Get(Cycle(b, t), d).Some?
    ensures
      var r := CycleReindexed(b, t);
      r.hexes[Get(r, d).value].indexX == d.x && r.hexes[Get(r, d).value].indexY == d.y
  {
    AgreeImpliesDistinct(b);
    var r0 := Cycle(b, t);
    var r1 := Reindex(r0, t[0]);
    var r2 := Reindex(r1, t[1]);
    var r3 := Reindex(r2, t[2]);
    assert r3 == CycleReindexed(b, t);
    var id := Get(r0, d).value;
    assert Get(r3, d) == Some(id);
    assert Get(r1, t[1]) == Get(r0, t[1]) == Get(b, t[2]);
    assert Get(r2, t[2]) == Get(r0, t[2]) == Get(b, t[0]);
    if d == t[2] {
    } else if d == t[1] {
      assert Get(b, t[0]) != Get(b, t[2]);
      ReindexKeeps(r2, t[2], id);
    } else if d == t[0] {
      assert Get(b, t[1]) != Get(b, t[2]) && Get(b, t[1]) != Get(b, t[0]);
      ReindexKeeps(r1, t[1], id);
      ReindexKeeps(r2, t[2], id);
    } else {
      assert Get(r0, d) == Get(b, d);
      assert ColumnAgrees(b, d.x);
      assert b.cells[d.x][d.y] == Get(b, d);
      assert Get(b, t[0]) != Get(b, d) && Get(b, t[1]) != Get(b, d) && Get(b, t[2]) != Get(b, d);
      ReindexKeeps(r0, t[0], id);
      ReindexKeeps(r1, t[1], id);
      ReindexKeeps(r2, t[2], id);
    }
  }

  /** With indices brought up to date, a rotation keeps every tile's indices in agreement with its cell. */
  lemma {:induction false} RotateReindexedAgrees(b: Board, dx: int, dy: int, clockwise: bool)
    requires IndicesAgree(b) && Triads.ValidDot(b.width, b.height, dx, dy)
    ensures IndicesAgree(RotateReindexed(b, dx, dy, clockwise))
  {
    var t := Order(dx, dy, clockwise);
    OrderCyclable(b, dx, dy, clockwise);
    var r := RotateReindexed(b, dx, dy, clockwise);
    forall x | 0 <= x < r.width
      ensures ColumnAgrees(r, x)
    {
      forall y | 0 <= y < r.height && r.cells[x][y].Some?
        ensures r.hexes[r.cells[x][y].value].indexX == x && r.hexes[r.cells[x][y].value].indexY == y
      {
        assert Get(Cycle(b, t), Coord(x, y)) == r.cells[x][y];
        CycleReindexedAgreesAt(b, t, Coord(x, y));
      }
    }
  }

  /** The cycle reads only the array, so boards with the same array cycle to the same array. */
  lemma {:induction false} RotateCellsOnlyReadsCells(a: Board, b: Board, dx: int, dy: int, clockwise: bool)
    requires WellFormed(a) && WellFormed(b) && a.width == b.width && a.height == b.height
    requires a.cells == b.cells && Triads.ValidDot(a.width, a.height, dx, dy)
    ensures RotateCells(a, dx, dy, clockwise).cells == RotateCells(b, dx, dy, clockwise).cells
  {
  }

  /** Three reindexed turns in one direction bring every tile back to its cell and keep the indices in agreement. */
  lemma {:induction false} RotateReindexedThrice(b: Board, dx: int, dy: int, clockwise: bool)
    requires IndicesAgree(b) && Triads.ValidDot(b.width, b.height, dx, dy)
    ensures
      var r1 := RotateReindexed(b, dx, dy, clockwise);
      var r2 := RotateReindexed(r1, dx, dy, clockwise);
      var r3 := RotateReindexed(r2, dx, dy, clockwise);
      r3.cells == b.cells && IndicesAgree(r3)
  {
    var c1 := RotateCells(b, dx, dy, clockwise);
    var c2 := RotateCells(c1, dx, dy, clockwise);
    var r1 := RotateReindexed(b, dx, dy, clockwise);
    var r2 := RotateReindexed(r1, dx, dy, clockwise);
    RotateCellsOnlyReadsCells(r1, c1, dx, dy, clockwise);
    RotateCellsOnlyReadsCells(r2, c2, dx, dy, clockwise);
    RotateThrice(b, dx, dy, clockwise);
    RotateReindexedAgrees(b, dx, dy, clockwise);
    RotateReindexedAgrees(r1, dx, dy, clockwise);
    RotateReindexedAgrees(r2, dx, dy, clockwise);
  }

  /** Every cell of the triad of dot (dx, dy) holds a tile. */
  predicate TriadFilled(b: Board, dx: int, dy: int)
    requires WellFormed(b) && Triads.ValidDot(b.width, b.height, dx, dy)
  {
    Triads.ChildrenInBounds(b.width, b.height, dx, dy);
    forall i :: 0 <= i < 3 ==> Get(b, Triads.Children(dx, dy)[i]).Some?
  }

  /** Every triad of a full board is filled. */
  lemma {:induction false} FullTriadFilled(b: Board, dx: int, dy: int)
    requires Full(b) && Triads.ValidDot(b.width, b.height, dx, dy)
    ensures TriadFilled(b, dx, dy)
  {
    Triads.ChildrenInBounds(b.width, b.height, dx, dy);
  }

  /** The cells of `Order` are filled exactly when the triad is. */
  lemma {:induction false} OrderFilled(b: Board, dx: int, dy: int, clockwise: bool)
    requires WellFormed(b) && Triads.ValidDot(b.width, b.height, dx, dy)
    ensures Cyclable(b, Order(dx, dy, clockwise))
    ensures TriadFilled(b, dx, dy) <==> forall i :: 0 <= i < 3 ==> Get(b, Order(dx, dy, clockwise)[i]).Some?
  {
    OrderCyclable(b, dx, dy, clockwise);
  }

  /**
   * `Board.RotateDot` on a dot of the dot grid: a dot that is already turning is left alone.
   * Otherwise the triad's tiles are re-parented to the dot, which dereferences each of them,
   * so an empty cell in the triad throws a `NullReferenceException` before the dot turns
   * (`None`). On a filled triad the dot starts a turn whose end-of-rotation action cycles its
   * own triad in the chosen direction.
   */
  function StartRotation(b: Board, d: Dots.Dot, clockwise: bool): (r: Option<Dots.Dot>)
    requires WellFormed(b) && Triads.ValidDot(b.width, b.height, d.x, d.y)
    ensures d.isRotating ==> r == Some(d)
    ensures !d.isRotating ==> (r.Some? <==> TriadFilled(b, d.x, d.y))
    ensures r.Some? && !d.isRotating ==>
      r.value.isRotating && r.value.callback == Some(Dots.RotateTriad(d.x, d.y, clockwise))
      && r.value.endAngle == d.angle + Dots.AngleOffset(clockwise)
    ensures r.Some? ==> r.value.x == d.x && r.value.y == d.y && r.value.isSelected == d.isSelected
  {
    if d.isRotating then Some(d)
    else if !TriadFilled(b, d.x, d.y) then None
    else Some(Dots.Rotate(d, clockwise, Dots.RotateTriad(d.x, d.y, clockwise)))
  }

  /** While a dot turns, a second request, in either direction, keeps the first one's action. */
  lemma {:induction false} StartRotationGuard(b: Board, d: Dots.Dot, first: bool, second: bool)
    requires WellFormed(b) && Triads.ValidDot(b.width, b.height, d.x, d.y)
    requires StartRotation(b, d, first).Some?
    ensures StartRotation(b, StartRotation(b, d, first).value, second) == StartRotation(b, d, first)
  {
  }

  /**
   * The board and the dot once a rotation has ended; `thrown` is set when the action threw
   * before it changed the board.
   */
  datatype Turned = Turned(board: Board, dot: Dots.Dot, thrown: bool)

  /** The stored action names a dot of the dot grid of `b`. */
  predicate Pending(b: Board, d: Dots.Dot)
  {
    d.callback.Some? && Triads.ValidDot(b.width, b.height, d.callback.value.dx, d.callback.value.dy)
  }

  /**
   * The end of a rotation (`OnRotationEnd`): the dot stops and invokes its stored action. The
   * action first re-parents the triad's tiles, which enumerates the triad's cells again and
   * throws on an empty one, leaving the board as it was and the action stored (the line that
   * drops it is not reached). Otherwise the triad cycles, the tile records are left alone,
   * and every tile that moved reports the cell it left.
   */
  function FinishRotation(b: Board, d: Dots.Dot): (t: Turned)
    requires WellFormed(b) && Pending(b, d)
    ensures !t.dot.isRotating && t.dot.angle == d.endAngle
    ensures t.dot.x == d.x && t.dot.y == d.y && t.dot.isSelected == d.isSelected
    ensures var cb := d.callback.value; t.thrown <==> !TriadFilled(b, cb.dx, cb.dy)
    ensures t.thrown ==> t.board == b && t.dot.callback == d.callback
    ensures !t.thrown ==> t.dot.callback.None?
    ensures WellFormed(t.board) && t.board.width == b.width && t.board.height == b.height
    ensures t.board.hexes == b.hexes && t.board.nextId == b.nextId
    ensures Full(b) ==> Full(t.board)
    ensures Anchored(b) ==> Anchored(t.board)
    ensures !t.thrown && IndicesAgree(b) ==> !IndicesAgree(t.board)
  {
    var e := Dots.OnRotationEnd(d);
    var cb := e.invoked;
    if !TriadFilled(b, cb.dx, cb.dy) then Turned(b, e.dot.(callback := d.callback), true)
    else
      RotateKeepsFull(b, cb.dx, cb.dy, cb.clockwise);
      RotateKeepsAnchored(b, cb.dx, cb.dy, cb.clockwise);
      OrderFilled(b, cb.dx, cb.dy, cb.clockwise);
      if IndicesAgree(b) then
        RotateBreaksIndices(b, cb.dx, cb.dy, cb.clockwise);
        Turned(RotateCells(b, cb.dx, cb.dy, cb.clockwise), e.dot, false)
      else Turned(RotateCells(b, cb.dx, cb.dy, cb.clockwise), e.dot, false)
  }

  /**
   * A rotation requested on a resting dot starts exactly when its triad is filled, and then,
   * run to its end, turns the dot's own triad in the requested direction, exactly as the
   * array cycle does, and turns the dot by a third of a turn.
   */
  lemma {:induction false} RotateDotTurnsTriad(b: Board, d: Dots.Dot, clockwise: bool)
    requires WellFormed(b) && Triads.ValidDot(b.width, b.height, d.x, d.y) && !d.isRotating
    ensures StartRotation(b, d, clockwise).Some? <==> TriadFilled(b, d.x, d.y)
    ensures StartRotation(b, d, clockwise).Some? ==>
      var d1 := StartRotation(b, d, clockwise).value;
      && Pending(b, d1)
      && var t := FinishRotation(b, d1);
      && !t.thrown
      && t.board == RotateCells(b, d.x, d.y, clockwise)
      && t.dot.angle == d.angle + Dots.AngleOffset(clockwise)
      && !t.dot.isRotating && t.dot.callback.None?
      && t.dot.x == d.x && t.dot.y == d.y && t.dot.isSelected == d.isSelected
  {
  }

  /** A rotation keeps the records, so a tile that records a cell of the array still does. */
  lemma {:induction false} RotateKeepsAnchored(b: Board, dx: int, dy: int, clockwise: bool)
    requires WellFormed(b) && Triads.ValidDot(b.width, b.height, dx, dy)
    ensures Anchored(b) ==> Anchored(RotateCells(b, dx, dy, clockwise))
  {
    var r := RotateCells(b, dx, dy, clockwise);
    var t := Order(dx, dy, clockwise);
    OrderCyclable(b, dx, dy, clockwise);
    if Anchored(b) {
      forall x, y | 0 <= x < r.width && 0 <= y < r.height && r.cells[x][y].Some?
        ensures InBounds(IndexOf(r, r.cells[x][y].value), r.width, r.height)
      {
        var c := Coord(x, y);
        assert r.cells[x][y] == Get(r, c);
        var src := if c == t[0] then t[1] else if c == t[1] then t[2] else if c == t[2] then t[0] else c;
        assert Get(r, c) == Get(b, src);
        assert b.cells[src.x][src.y] == Get(b, src);
      }
    }
  }

  /** The end of a rotation keeps the tiles in the array. */
  lemma {:induction false} FinishRotationKeepsContents(b: Board, d: Dots.Dot)
    requires WellFormed(b) && Pending(b, d)
    ensures Contents(FinishRotation(b, d).board) == Contents(b)
  {
    var cb := Dots.OnRotationEnd(d).invoked;
    RotateKeepsContents(b, cb.dx, cb.dy, cb.clockwise);
  }

  /** `n` turns of the triad of dot (dx, dy) in one direction, as written. */
  function Turns(b: Board, dx: int, dy: int, clockwise: bool, n: nat): (r: Board)
    requires WellFormed(b) && Triads.ValidDot(b.width, b.height, dx, dy)
    ensures WellFormed(r) && r.width == b.width && r.height == b.height
    ensures r.hexes == b.hexes && r.nextId == b.nextId
    ensures Full(b) ==> Full(r)
    decreases n
  {
    if n == 0 then b
    else
      RotateKeepsFull(b, dx, dy, clockwise);
      Turns(RotateCells(b, dx, dy, clockwise), dx, dy, clockwise, n - 1)
  }

  /** Turns keep the tiles in the array, and tiles that record cells of the array still do. */
  lemma {:induction false} TurnsKeep(b: Board, dx: int, dy: int, clockwise: bool, n: nat)
    requires WellFormed(b) && Triads.ValidDot(b.width, b.height, dx, dy)
    ensures Contents(Turns(b, dx, dy, clockwise, n)) == Contents(b)
    ensures Anchored(b) ==> Anchored(Turns(b, dx, dy, clockwise, n))
    decreases n
  {
    if n > 0 {
      var m := n - 1;
      TurnsUnfold(b, dx, dy, clockwise, m);
      RotateKeepsAnchored(b, dx, dy, clockwise);
      RotateKeepsContents(b, dx, dy, clockwise);
      TurnsKeep(RotateCells(b, dx, dy, clockwise), dx, dy, clockwise, m);
    }
  }

  /** `m + 1` turns are one turn followed by `m` more. */
  lemma {:induction false} TurnsUnfold(b: Board, dx: int, dy: int, clockwise: bool, m: nat)
    requires WellFormed(b) && Triads.ValidDot(b.width, b.height, dx, dy)
    ensures Turns(b, dx, dy, clockwise, m + 1) == Turns(RotateCells(b, dx, dy, clockwise), dx, dy, clockwise, m)
  {
  }

  /** Three turns of a triad in one direction bring back the board itself. */
  lemma {:induction false} TurnsThrice(b: Board, dx: int, dy: int, clockwise: bool)
    requires WellFormed(b) && Triads.ValidDot(b.width, b.height, dx, dy)
    ensures Turns(b, dx, dy, clockwise, 3) == b
  {
    var r1 := RotateCells(b, dx, dy, clockwise);
    var r2 := RotateCells(r1, dx, dy, clockwise);
    assert Turns(b, dx, dy, clockwise, 3) == Turns(r1, dx, dy, clockwise, 2) == Turns(r2, dx, dy, clockwise, 1);
    RotateThrice(b, dx, dy, clockwise);
  }

  /**
   * One or two turns of a filled triad on a board whose indices agree leave a tile reporting
   * a cell it no longer occupies: after one turn the first cell of `Order` holds the second
   * cell's tile, after two the third cell's.
   */
  lemma {:induction false} TurnsBreakIndices(b: Board, dx: int, dy: int, clockwise: bool, k: nat)
    requires IndicesAgree(b) && Triads.ValidDot(b.width, b.height, dx, dy) && TriadFilled(b, dx, dy)
    requires k == 1 || k == 2
    ensures !IndicesAgree(Turns(b, dx, dy, clockwise, k))
  {
    var t := Order(dx, dy, clockwise);
    OrderFilled(b, dx, dy, clockwise);
    var r1 := RotateCells(b, dx, dy, clockwise);
    assert Turns(b, dx, dy, clockwise, k) == Turns(r1, dx, dy, clockwise, k - 1);
    if k == 1 {
      RotateBreaksIndices(b, dx, dy, clockwise);
    } else {
      var r2 := RotateCells(r1, dx, dy, clockwise);
      assert Turns(r1, dx, dy, clockwise, 1) == r2;
      RotateMovesTriad(b, dx, dy, clockwise);
      RotateMovesTriad(r1, dx, dy, clockwise);
      var id := Get(b, t[2]).value;
      assert ColumnAgrees(b, t[2].x);
      assert b.cells[t[2].x][t[2].y] == Some(id);
      assert IndexOf(b, id) == t[2];
      assert r2.cells[t[0].x][t[0].y] == Some(id);
      assert !ColumnAgrees(r2, t[0].x);
    }
  }
}

=== FILE: setup.dfy ===
/**
 * Building the board (`Board.GenerateDots`, `GenerateHexes`, `CreateHex`,
 * `ReplaceMatchingHexesStart`, `ChangeHex`). The random type draws are a parameter: the
 * sequence of ids `GetRandomType` would return, consumed front to back.
 */
module Setup {
  import opened Cells
  import opened Boards
  import Hexes
  import Dots
  import Triads
  import Matching

  /** The coordinates of the dot grid: `(width - 1)` by `2 * (height - 1)`. */
  function DotGrid(width: int, height: int): (s: set<Coord>)
    ensures forall c :: c in s <==> Triads.ValidDot(width, height, c.x, c.y)
  {
    set x, y | 0 <= x < width - 1 && 0 <= y < 2 * (height - 1) :: Coord(x, y)
  }

  /**
   * `GenerateDots`: one dot per coordinate of the dot grid, initialised with its own
   * coordinate, unselected, at rest and with no pending action.
   */
  function GenerateDots(width: int, height: int): (dots: map<Coord, Dots.Dot>)
    ensures forall c :: c in dots <==> Triads.ValidDot(width, height, c.x, c.y)
    ensures forall c :: c in dots ==>
      dots[c].x == c.x && dots[c].y == c.y && !dots[c].isSelected
      && !dots[c].isRotating && dots[c].callback.None?
  {
    map c | c in DotGrid(width, height) :: Dots.Init(Dots.Blank, c.x, c.y)
  }

  /** `new HexBehaviour[width, height]`: an array of empty cells and no tile yet. */
  function EmptyBoard(width: nat, height: nat): (b: Board)
    ensures WellFormed(b) && b.width == width && b.height == height && b.hexes == map[]
    ensures forall x, y :: 0 <= x < width && 0 <= y < height ==> b.cells[x][y].None?
  {
    Board(width, height, seq(width, _ => seq(height, _ => None)), map[], 0)
  }

  /**
   * `CreateHex`: a new tile, placed with `Init` on the socket of cell (x, y) with its own
   * index and the drawn type, goes into that cell. Its id is one no record had.
   */
  function CreateHex(b: Board, x: int, y: int, typeId: int): (r: Board)
    requires WellFormed(b) && InBounds(Coord(x, y), b.width, b.height)
    ensures WellFormed(r) && r.width == b.width && r.height == b.height
    ensures b.nextId !in b.hexes && r.nextId == b.nextId + 1
    ensures Get(r, Coord(x, y)) == Some(b.nextId)
    ensures var h := r.hexes[b.nextId];
      h.indexX == x && h.indexY == y && h.target == Coord(x, y) && h.typeId == typeId
    ensures forall c :: InBounds(c, b.width, b.height) && c != Coord(x, y) ==> Get(r, c) == Get(b, c)
    ensures forall id :: id in b.hexes ==> id in r.hexes && r.hexes[id] == b.hexes[id]
    ensures r.hexes.Keys == b.hexes.Keys + {b.nextId}
  {
    var id := b.nextId;
    var b1 := b.(hexes := b.hexes[id := Hexes.Init(Hexes.Blank, Coord(x, y), x, y, typeId)], nextId := id + 1);
    SetWellFormed(b1, Coord(x, y), Some(id));
    Set(b1, Coord(x, y), Some(id))
  }

  /** Creating a tile in an empty cell keeps every tile's index in agreement with its cell. */
  lemma {:induction false} CreateHexKeepsAgreement(b: Board, x: int, y: int, typeId: int)
    requires IndicesAgree(b) && InBounds(Coord(x, y), b.width, b.height)
    ensures IndicesAgree(CreateHex(b, x, y, typeId))
  {
    var r := CreateHex(b, x, y, typeId);
    forall x' | 0 <= x' < r.width
      ensures ColumnAgrees(r, x')
    {
      forall y' | 0 <= y' < r.height && r.cells[x'][y'].Some?
        ensures r.hexes[r.cells[x'][y'].value].indexX == x' && r.hexes[r.cells[x'][y'].value].indexY == y'
      {
        assert r.cells[x'][y'] == Get(r, Coord(x', y'));
        if Coord(x', y') != Coord(x, y) {
          assert ColumnAgrees(b, x');
          assert b.cells[x'][y'] == Get(b, Coord(x', y'));
        }
      }
    }
  }

  /** The cells the creation loops have filled once they reach cell (x, y): the rows below, then the row's left part. */
  predicate Filled(x: int, y: int, x': int, y': int)
  {
    y' < y || (y' == y && x' < x)
  }

  /** Exactly the cells filled so far hold tiles, each of the type drawn for its cell. */
  predicate Progress(b: Board, types: seq<seq<int>>, x: int, y: int)
  {
    WellFormed(b) && |types| == b.width
    && (forall x' :: 0 <= x' < b.width ==> |types[x']| == b.height)
    && (forall x', y' :: 0 <= x' < b.width && 0 <= y' < b.height ==>
          (b.cells[x'][y'].Some? <==> Filled(x, y, x', y')))
    && (forall x', y' :: 0 <= x' < b.width && 0 <= y' < b.height && Filled(x, y, x', y') ==>
          b.cells[x'][y'].Some? && b.hexes[b.cells[x'][y'].value].typeId == types[x'][y'])
  }

  /** Creating the tile of the next cell extends the filled part by that cell. */
  lemma {:induction false} CreateHexProgress(b: Board, types: seq<seq<int>>, x: int, y: int)
    requires Progress(b, types, x, y) && 0 <= x < b.width && 0 <= y < b.height
    ensures Progress(CreateHex(b, x, y, types[x][y]), types, x + 1, y)
  {
    var r := CreateHex(b, x, y, types[x][y]);
    forall x', y' | 0 <= x' < b.width && 0 <= y' < b.height
      ensures r.cells[x'][y'] == Get(r, Coord(x', y')) && b.cells[x'][y'] == Get(b, Coord(x', y'))
    {
    }
  }

  /** A finished row is the same progress as the start of the next one. */
  lemma {:induction false} RowProgress(b: Board, types: seq<seq<int>>, y: int)
    requires Progress(b, types, b.width, y)
    ensures Progress(b, types, 0, y + 1)
  {
    forall x', y' | 0 <= x' < b.width && 0 <= y' < b.height
      ensures Filled(b.width, y, x', y') == Filled(0, y + 1, x', y')
    {
    }
  }

  /**
   * The creation loops of `GenerateHexes`: row by row, left to right, a tile of type
   * `types[x][y]` in every cell. Every cell ends up occupied by a tile that reports that cell
   * and carries the drawn type, and every tile has an id of its own.
   */
  method CreateHexes(width: nat, height: nat, types: seq<seq<int>>) returns (b: Board)
    requires |types| == width && forall x :: 0 <= x < width ==> |types[x]| == height
    ensures Full(b) && IndicesAgree(b) && b.width == width && b.height == height
    ensures forall x, y :: 0 <= x < width && 0 <= y < height ==>
      TypeAt(b, Coord(x, y)) == types[x][y]
    ensures b.nextId == width * height
  {
    b := EmptyBoard(width, height);
    var y := 0;
    while y < height
      invariant 0 <= y <= height
      invariant IndicesAgree(b) && b.width == width && b.height == height
      invariant b.nextId == y * width
      invariant Progress(b, types, 0, y)
    {
      var x := 0;
      while x < width
        invariant 0 <= x <= width
        invariant IndicesAgree(b) && b.width == width && b.height == height
        invariant b.nextId == y * width + x
        invariant Progress(b, types, x, y)
      {
        CreateHexKeepsAgreement(b, x, y, types[x][y]);
        CreateHexProgress(b, types, x, y);
        b := CreateHex(b, x, y, types[x][y]);
        x := x + 1;
      }
      RowProgress(b, types, y);
      y := y + 1;
    }
    assert forall x, y :: 0 <= x < width && 0 <= y < height ==> Filled(0, height, x, y);
  }

  /**
   * `ChangeHex` on the tile of cell `c`: a new tile of a different type, placed with `Init`
   * on the old tile's socket and index, replaces it in that cell. The old tile's record stays
   * in the table (its object is destroyed, and nothing reads it again).
   */
  function ChangeHex(b: Board, c: Coord, newType: int): (r: Board)
    requires IndicesAgree(b) && InBounds(c, b.width, b.height) && Get(b, c).Some?
    requires newType != TypeAt(b, c)
    ensures IndicesAgree(r) && r.width == b.width && r.height == b.height
    ensures Get(r, c).Some? && Get(r, c) != Get(b, c) && Get(r, c).value !in b.hexes
    ensures TypeAt(r, c) == newType && TypeAt(r, c) != TypeAt(b, c)
    ensures forall d :: InBounds(d, b.width, b.height) && d != c ==> Get(r, d) == Get(b, d)
    ensures forall d :: InBounds(d, b.width, b.height) && d != c && Get(b, d).Some? ==>
      TypeAt(r, d) == TypeAt(b, d)
    ensures Full(b) ==> Full(r)
    ensures b.hexes.Keys <= r.hexes.Keys
  {
    var gone := b.hexes[Get(b, c).value];
    assert ColumnAgrees(b, c.x) && b.cells[c.x][c.y] == Get(b, c);
    CreateHexKeepsAgreement(b, gone.indexX, gone.indexY, newType);
    var r := CreateHex(b, gone.indexX, gone.indexY, newType);
    FullAfterChange(b, r, c);
    r
  }

  /** A board that differs from a full one only by a tile in one cell is full. */
  lemma {:induction false} FullAfterChange(b: Board, r: Board, c: Coord)
    requires WellFormed(b) && WellFormed(r) && r.width == b.width && r.height == b.height
    requires InBounds(c, b.width, b.height) && Get(r, c).Some?
    requires forall d :: InBounds(d, b.width, b.height) && d != c ==> Get(r, d) == Get(b, d)
    ensures Full(b) ==> Full(r)
  {
    if Full(b) {
      forall x, y | 0 <= x < r.width && 0 <= y < r.height
        ensures r.cells[x][y].Some?
      {
        assert Get(r, Coord(x, y)) == r.cells[x][y];
        assert Get(b, Coord(x, y)) == b.cells[x][y];
      }
    }
  }

  /**
   * How many draws of `GetRandomType` the loop in `ChangeHex` makes before one differs from
   * `avoid`, counting the last: `None` when the draws run out first (the loop would spin on).
   */
  function DrawsUntilOther(avoid: int, draws: seq<int>): (n: Option<nat>)
    ensures n.Some? ==> 0 < n.value <= |draws| && draws[n.value - 1] != avoid
    ensures n.Some? ==> forall i :: 0 <= i < n.value - 1 ==> draws[i] == avoid
    ensures n.None? <==> forall i :: 0 <= i < |draws| ==> draws[i] == avoid
  {
    if draws == [] then None
    else if draws[0] != avoid then Some(1)
    else match DrawsUntilOther(avoid, draws[1..])
      case None => None
      case Some(k) => Some(k + 1)
  }

  /**
   * `b` is the full board `start` with the tiles of exactly the cells `changed` replaced by
   * tiles `start` did not have; indices agree and no record of `start` is gone.
   */
  ghost predicate Replaced(start: Board, b: Board, changed: set<Coord>)
    requires Full(start)
  {
    Full(b) && IndicesAgree(b) && b.width == start.width && b.height == start.height
    && start.hexes.Keys <= b.hexes.Keys
    && (forall c :: InBounds(c, start.width, start.height) ==> (c in changed <==> Get(b, c) != Get(start, c)))
    && (forall c :: c in changed ==> InBounds(c, start.width, start.height) && Get(b, c).value !in start.hexes)
  }

  /** Replacing the tile of one more cell extends the replaced cells by that cell. */
  lemma {:induction false} ReplaceStep(start: Board, b: Board, changed: set<Coord>, c: Coord, newType: int)
    requires Full(start) && Replaced(start, b, changed) && InBounds(c, b.width, b.height)
    requires newType != TypeAt(b, c)
    ensures Replaced(start, ChangeHex(b, c, newType), changed + {c})
  {
    var r := ChangeHex(b, c, newType);
    assert Get(start, c).value in start.hexes;
    forall d | InBounds(d, start.width, start.height)
      ensures d in changed + {c} <==> Get(r, d) != Get(start, d)
    {
      if d != c {
        assert Get(r, d) == Get(b, d);
      }
    }
  }

  /** Every cell of `changed` was listed by some scan of `rounds`. */
  ghost predicate Covers(changed: set<Coord>, rounds: seq<seq<Coord>>)
  {
    forall c :: c in changed ==> exists i :: 0 <= i < |rounds| && c in rounds[i]
  }

  /** Every cell some scan of `rounds` listed is in `changed`. */
  ghost predicate Covered(rounds: seq<seq<Coord>>, changed: set<Coord>)
  {
    forall i, c :: 0 <= i < |rounds| && c in rounds[i] ==> c in changed
  }

  /** `b` has the shape of `b0` and the same tile as `b0` in every cell `ms` does not list. */
  ghost predicate OnlyAt(b0: Board, b: Board, ms: seq<Coord>)
  {
    Shaped(b0) && Shaped(b) && b.width == b0.width && b.height == b0.height
    && forall c :: InBounds(c, b0.width, b0.height) && c !in ms ==> Get(b, c) == Get(b0, c)
  }

  /**
   * Each match list of `rounds` is what the scan finds on the board of `scanned` at the same
   * place, and is not empty; each board of `scanned` after the first differs from the one
   * before it only in cells that board's scan listed.
   */
  ghost predicate Scans(scanned: seq<Board>, rounds: seq<seq<Coord>>)
  {
    |scanned| == |rounds|
    && (forall i :: 0 <= i < |rounds| ==> Matching.Scannable(scanned[i]) && rounds[i] == Matching.FindMatches(scanned[i]) != [])
    && (forall i :: 0 <= i < |rounds| - 1 ==> OnlyAt(scanned[i], scanned[i + 1], rounds[i]))
  }

  /** One more scan that found matches joins the record. */
  lemma {:induction false} ScansExtend(scanned: seq<Board>, rounds: seq<seq<Coord>>, b: Board, ms: seq<Coord>)
    requires Scans(scanned, rounds) && Matching.Scannable(b) && ms == Matching.FindMatches(b) != []
    requires scanned != [] ==> OnlyAt(scanned[|scanned| - 1], b, rounds[|rounds| - 1])
    ensures Scans(scanned + [b], rounds + [ms])
  {
    var all, boards := rounds + [ms], scanned + [b];
    forall i | 0 <= i < |all|
      ensures Matching.Scannable(boards[i]) && all[i] == Matching.FindMatches(boards[i]) != []
    {
      if i < |rounds| {
        assert all[i] == rounds[i] && boards[i] == scanned[i];
      }
    }
    forall i | 0 <= i < |all| - 1
      ensures OnlyAt(boards[i], boards[i + 1], all[i])
    {
      assert all[i] == rounds[i] && boards[i] == scanned[i];
      if i + 1 < |scanned| {
        assert boards[i + 1] == scanned[i + 1];
      }
    }
  }

  /** Cells listed by the last scan or earlier ones stay covered when that scan joins the record. */
  lemma {:induction false} CoversExtend(changed: set<Coord>, rounds: seq<seq<Coord>>, ms: seq<Coord>, changed': set<Coord>)
    requires Covers(changed, rounds)
    requires forall c :: c in changed' ==> c in changed || c in ms
    ensures Covers(changed', rounds + [ms])
  {
    var all := rounds + [ms];
    forall c | c in changed'
      ensures exists i :: 0 <= i < |all| && c in all[i]
    {
      if c in changed {
        var i :| 0 <= i < |rounds| && c in rounds[i];
        assert all[i] == rounds[i];
      } else {
        assert all[|rounds|] == ms;
      }
    }
  }

  /** A scan whose every listed cell was replaced joins the cells already covered. */
  lemma {:induction false} CoveredExtend(rounds: seq<seq<Coord>>, changed: set<Coord>, ms: seq<Coord>, changed': set<Coord>)
    requires Covered(rounds, changed) && changed <= changed'
    requires forall j :: 0 <= j < |ms| ==> ms[j] in changed'
    ensures Covered(rounds + [ms], changed')
  {
    var all := rounds + [ms];
    forall i, c | 0 <= i < |all| && c in all[i]
      ensures c in changed'
    {
      if i < |rounds| {
        assert all[i] == rounds[i];
      } else {
        assert all[i] == ms;
      }
    }
  }

  /**
   * One pass of `ReplaceMatchingHexesStart` over the list `ms`: each listed cell gets a tile
   * of a type the draws give, other than its current one. `done` is false when the draws ran
   * out first; otherwise every listed cell was replaced and at least one draw per entry used.
   */
  method ReplaceListed(start: Board, b0: Board, changed0: set<Coord>, ms: seq<Coord>, draws: seq<int>)
    returns (b: Board, changed: set<Coord>, rest: seq<int>, done: bool)
    requires Full(start) && Replaced(start, b0, changed0)
    requires forall j :: 0 <= j < |ms| ==> InBounds(ms[j], b0.width, b0.height)
    ensures Replaced(start, b, changed) && changed0 <= changed
    ensures forall c :: c in changed ==> c in changed0 || c in ms
    ensures done ==> (forall j :: 0 <= j < |ms| ==> ms[j] in changed) && |rest| + |ms| <= |draws|
    ensures OnlyAt(b0, b, ms)
  {
    b, changed, rest := b0, changed0, draws;
    var i := 0;
    while i < |ms|
      invariant 0 <= i <= |ms| && |rest| + i <= |draws|
      invariant Replaced(start, b, changed) && changed0 <= changed
      invariant forall c :: c in changed ==> c in changed0 || c in ms
      invariant forall j :: 0 <= j < i ==> ms[j] in changed
      invariant OnlyAt(b0, b, ms)
    {
      var c := ms[i];
      var n := DrawsUntilOther(TypeAt(b, c), rest);
      if n.None? {
        return b, changed, rest, false;
      }
      ReplaceStep(start, b, changed, c, rest[n.value - 1]);
      b, changed := ChangeHex(b, c, rest[n.value - 1]), changed + {c};
      rest := rest[n.value..];
      i := i + 1;
    }
    done := true;
  }

  /**
   * `ReplaceMatchingHexesStart`: while the scan finds matches, every listed cell (once per
   * listing) gets a new tile of another type, then the board is scanned again. `settled` is
   * false when the draws ran out first, which stands for the source's loop never ending.
   * `rounds` holds the match list of every scan that found something, `scanned` the board each
   * of those scans ran on (the starting board first), and `changed` the cells
   * whose tile was replaced. The board stays full with agreeing indices, a settled board has
   * no match, and the cells that changed are exactly the cells the scans listed: each holds
   * a tile the starting board did not have, and every other cell keeps its tile.
   */
  method ReplaceMatchingHexesStart(start: Board, draws: seq<int>)
    returns (b: Board, settled: bool, changed: set<Coord>, rounds: seq<seq<Coord>>, scanned: seq<Board>)
    requires Full(start) && IndicesAgree(start) && start.width >= 2
    ensures Replaced(start, b, changed) && Covers(changed, rounds)
    ensures settled ==> Matching.FindMatches(b) == [] && Covered(rounds, changed)
    ensures Matching.FindMatches(start) == [] ==> b == start && settled && changed == {} && rounds == []
    ensures Matching.FindMatches(start) != [] ==> rounds != [] && rounds[0] == Matching.FindMatches(start)
    ensures Scans(scanned, rounds) && (scanned != [] ==> scanned[0] == start)
    ensures scanned != [] ==> OnlyAt(scanned[|scanned| - 1], b, rounds[|rounds| - 1])
  {
    b, changed, rounds, scanned := start, {}, [], [];
    var rest := draws;
    var ms := Matching.FindMatches(b);
    while ms != []
      invariant Replaced(start, b, changed) && ms == Matching.FindMatches(b)
      invariant rounds == [] ==> b == start && changed == {}
      invariant rounds != [] ==> rounds[0] == Matching.FindMatches(start) && rounds[0] != []
      invariant Covers(changed, rounds) && Covered(rounds, changed)
      invariant Scans(scanned, rounds) && (scanned != [] ==> scanned[0] == start)
      invariant scanned != [] ==> OnlyAt(scanned[|scanned| - 1], b, rounds[|rounds| - 1])
      decreases |rest|
    {
      Matching.FindMatchesSound(b);
      var b', changed', rest', done := ReplaceListed(start, b, changed, ms, rest);
      CoversExtend(changed, rounds, ms, changed');
      ScansExtend(scanned, rounds, b, ms);
      if !done {
        return b', false, changed', rounds + [ms], scanned + [b];
      }
      CoveredExtend(rounds, changed, ms, changed');
      b, changed, rounds, scanned, rest := b', changed', rounds + [ms], scanned + [b], rest';
      ms := Matching.FindMatches(b);
    }
    settled := true;
  }
}

=== FILE: triads.dfy ===
/** The dot-to-triad mapping (`Board.GetChildrenIndex`) and the dot grid it is defined on. */
module Triads {
  import opened Cells

  /** `Mathf.CeilToInt(n / 2f)`: the least integer whose double is at least `n`. */
  function CeilHalf(n: int): (r: int)
    ensures n <= 2 * r < n + 2
  {
    (n + 1) / 2
  }

  /**
   * The dot grid is `(width - 1)` by `2 * (height - 1)`: a dot exists for every coordinate in
   * that rectangle.
   */
  predicate ValidDot(width: int, height: int, dx: int, dy: int)
  {
    0 <= dx < width - 1 && 0 <= dy < 2 * (height - 1)
  }

  /** The three cells around dot (dx, dy), in the order the code enumerates them. */
  function Children(dx: int, dy: int): (t: seq<Coord>)
    ensures |t| == 3
    ensures Distinct3(t)
    ensures forall i :: 0 <= i < 3 ==> t[i].x == dx || t[i].x == dx + 1
    ensures exists i :: 0 <= i < 3 && t[i].x == dx
    ensures exists i :: 0 <= i < 3 && t[i].x == dx + 1
  {
    var hy := CeilHalf(dy);
    if dx % 2 == 0 then
      if dy % 2 == 0 then [Coord(dx, hy), Coord(dx + 1, hy + 1), Coord(dx + 1, hy)]
      else [Coord(dx, hy - 1), Coord(dx, hy), Coord(dx + 1, hy)]
    else
      if dy % 2 == 0 then [Coord(dx, hy), Coord(dx, hy + 1), Coord(dx + 1, hy)]
      else [Coord(dx, hy), Coord(dx + 1, hy), Coord(dx + 1, hy - 1)]
  }

  /** Every child of a dot of the dot grid is a cell of the board. */
  lemma {:induction false} ChildrenInBounds(width: int, height: int, dx: int, dy: int)
    requires ValidDot(width, height, dx, dy)
    ensures forall i :: 0 <= i < 3 ==> InBounds(Children(dx, dy)[i], width, height)
  {
  }

  /** The children of a dot, as a set. */
  function TriadSet(dx: int, dy: int): (s: set<Coord>)
    ensures |s| == 3
  {
    var t := Children(dx, dy);
    assert t[0] !in {t[1], t[2]};
    {t[0], t[1], t[2]}
  }

  /**
   * Each triad is a triangle of mutually adjacent hexes: two vertically adjacent cells in one
   * of the two columns and a third cell in the other column beside one of them.
   */
  lemma {:induction false} ChildrenAreTriangle(dx: int, dy: int)
    ensures
      var t := Children(dx, dy);
      exists i, j, k ::
        {i, j, k} == {0, 1, 2} && t[i].x == t[j].x && t[j].y == t[i].y + 1 && t[k].x != t[i].x
        && (t[k].y == t[i].y || t[k].y == t[j].y)
  {
    var t := Children(dx, dy);
    if dx % 2 == 0 {
      if dy % 2 == 0 {
        assert {2, 1, 0} == {0, 1, 2};
        assert t[2].x == t[1].x && t[1].y == t[2].y + 1;
      } else {
        assert t[0].x == t[1].x && t[1].y == t[0].y + 1;
      }
    } else {
      if dy % 2 == 0 {
        assert t[0].x == t[1].x && t[1].y == t[0].y + 1;
      } else {
        assert {2, 1, 0} == {0, 1, 2};
        assert t[2].x == t[1].x && t[1].y == t[2].y + 1;
      }
    }
  }
}
